=== FILE: README.md ===
# crawlytics: a Dafny model of the log-import and crawler-detection core

crawlytics reads web-server access logs. It keeps the lines whose user
agent is a known LLM crawler and stores them in SQLite, together with a
record per uploaded log file. It also offers a read-only SQL endpoint and
routes that rewrite the crawler pattern list in its Python module. This
project models the parts of the backend that decide what is kept, stored,
accepted or written. It proves the properties those parts promise.

The modules follow the program's structure:

- `CrawlerPatterns`, `CrawlerDetection`, `LlmList` and `CrawlerListFacts`
  model `LLM_CRAWLER_PATTERNS` and the module-level `is_llm_crawler` and
  `extract_crawler_name`. They cover case-insensitive substring matching
  and the rule that the first matching fragment names the crawler.
  `CrawlerListFacts` works through concrete user agents. It also shows
  which list entries can never be the name reported, because an earlier
  entry is a substring of them.
- `CrawlerDatabase` models the `CrawlerDatabase` class: its provider
  lists, `is_crawler` with the browser exclusion, and the stages of its
  `extract_crawler_name`.
- `LogGrammar`, `ParserBase` and `LogParsers` model the Apache and Nginx
  parsers. The combined-log regular expression is modelled as a field
  splitter. Each field is a run of one character class, and the literal
  that follows it lies outside that class. So the regex has exactly one
  way to match, and the model computes that match directly. Round-trip
  lemmas prove that rendering fields and parsing them back gives the
  same fields. `strptime` and `uuid.UUID` are parameters of the model
  (`Decoders`): whatever they return is passed through unchanged.
- `Processor` models format detection, `chunk_file` (including Python's
  `%` for any non-zero chunk size, and the `ZeroDivisionError` for 0),
  `process_chunk`, and `LogProcessor.process`, with `pool.map` as an
  in-order map.
- `LogDb`, `LogWriter` and `LogTask` model the database as two
  collections:
  - the `log_files` records, keyed by id;
  - the `access_logs` rows, in insertion order.

  On top of that sit `set_active_log_file`, `delete_log_file_data`, the
  batched writer with its fallbacks, and the background import task.
  Whether a batch, a single row or a collaborator raises is an input to
  the model.
- `SqlGuard` models `SQLQueryRequest.validate_query` and the checks and
  rewrites of `execute_sql_query` that come before the cursor is used.
- `CrawlerConfig` models the pattern-file routes:
  - `group_patterns_by_category`;
  - the bracket scan that finds the end of the old list;
  - the rendering of the new list and the splice;
  - the update and the reset handler.

`Text`, `SeqUtil` and `Wrappers` hold shared string, sequence and
`Option`/`Result` helpers.

Two behaviours of the code differ from what its docstrings suggest, and
the model follows the code:

- `detect_log_format` can only answer "apache". The standard Nginx pattern
  is the Apache pattern, and the Nginx pattern with an id only accepts
  lines that the Apache pattern also accepts. So the Apache parser accepts
  every line that either parser accepts (`Processor.DetectLogFormat`,
  `LogParsers.NginxAgreesWithApache`).
- After a database import, `records_imported` is still the number of
  matched entries. The task looks up the key `records_inserted`, but the
  writer's statistics only have `rows_inserted`
  (`LogTask.RecordsImportedIsMatchCount`).

## Model

| member | source | states |
|---|---|---|
| CrawlerDetection.FirstMatch | backend/parser/crawler_detection.py:221-226 | the index found holds a pattern contained in the user agent (ignoring case), and no earlier pattern is; None means no pattern is contained |
| CrawlerDetection.FirstMatchUnique | backend/parser/crawler_detection.py:221-226 | any index whose pattern matches, with no earlier pattern matching, is the one the scan returns |
| CrawlerDetection.AnyMatchFrom | backend/parser/crawler_detection.py:204-209 | true exactly when some pattern from the given position on occurs in the user agent, ignoring case |
| CrawlerDetection.IsLlmCrawler | backend/parser/crawler_detection.py:194-209 | true exactly when the user agent is non-empty and contains some listed fragment, ignoring case |
| CrawlerDetection.ExtractCrawlerName | backend/parser/crawler_detection.py:211-226 | a name is returned exactly when the agent is an LLM crawler; the name is a list entry that occurs in the agent; an empty agent has no name |
| CrawlerDetection.CaseInsensitive | backend/parser/crawler_detection.py:202-206 | two agents equal after lower-casing get the same verdict and the same name |
| CrawlerDetection.UpperCaseInvariant | backend/parser/crawler_detection.py:219-223 | upper-casing an agent changes neither its verdict nor its name |
| CrawlerDetection.Monotonic | backend/parser/crawler_detection.py:204-209 | any string that contains a crawler's agent is itself detected as a crawler |
| CrawlerDetection.ShadowedNeverFirst | backend/parser/crawler_detection.py:222-224 | an entry that contains an earlier entry (ignoring case) can never be the name reported |
| CrawlerDetection.ContainsCIIff | backend/parser/crawler_detection.py:206 | the character-by-character case-insensitive search agrees with containment after lower-casing both strings |
| CrawlerDetection.NoMatchByChar | backend/parser/crawler_detection.py:206 | a pattern holding a letter that the agent lacks (ignoring case) does not match |
| CrawlerDetection.PrefixMatches | backend/parser/crawler_detection.py:206 | an agent that starts with the pattern, ignoring case, matches it |
| LlmList.IsLlmCrawler | backend/parser/llm_list.py:17-19 | a missing agent is never a crawler; a present one is a crawler exactly when it is non-empty and contains a listed fragment |
| LlmList.ExtractCrawlerName | backend/parser/llm_list.py:21-23 | a missing agent has no name; a name is returned exactly when the wrapper's verdict says crawler, and it is a listed entry |
| LlmList.WrappersDelegate | backend/parser/llm_list.py:17-23 | the deprecated wrappers give the same answers as the detection functions they forward to |
| CrawlerListFacts.Ai2BotDolmaNamedAi2Bot | backend/parser/llm_list.py:73-74 | the agent "AI2Bot-Dolma" is named "AI2Bot": the shorter entry before it wins |
| CrawlerListFacts.AnthropicCrawlerNamedAnthropicAi | backend/parser/llm_list.py:35-36 | the agent "Anthropic-AI-Crawler" is named "Anthropic-AI" |
| CrawlerListFacts.OmgilibotNamedOmgili | backend/parser/llm_list.py:79-80 | the agent "Omgilibot" is named "Omgili" |
| CrawlerListFacts.GooglebotNamedLowercase | backend/parser/llm_list.py:39 | "Googlebot/2.1" is named by the list's spelling, "googlebot", not by its own |
| CrawlerListFacts.BrowserExampleIsNotCrawler | backend/parser/llm_list.py:26-93 | a plain desktop browser agent is not a crawler and gets no name |
| CrawlerListFacts.CohereAiLowercaseNeverFirst | backend/parser/llm_list.py:52-54 | "cohere-ai" is never the reported name: "Cohere-AI" before it matches the same agents |
| CrawlerListFacts.Ai2BotDolmaNeverFirst | backend/parser/llm_list.py:73-74 | "AI2Bot-Dolma" is never the reported name |
| CrawlerListFacts.AnthropicCrawlerNeverFirst | backend/parser/llm_list.py:35-36 | "Anthropic-AI-Crawler" is never the reported name |
| CrawlerListFacts.OmgilibotNeverFirst | backend/parser/llm_list.py:79-80 | "Omgilibot" is never the reported name |
| CrawlerListFacts.NoneMatchThroughCommonCrawl | backend/parser/llm_list.py:26-70 | an agent that matches no entry of any provider group up to Common Crawl matches no entry of their concatenation |
| CrawlerDatabase.ProviderLists | backend/parser/crawler_detection.py:99-102 | the flat list takes each provider's list in provider order |
| CrawlerDatabase.AnyGenericTerm | backend/parser/crawler_detection.py:125-128 | true exactly when no browser name occurs in the lower-cased agent and some generic term from the given position on does |
| CrawlerDatabase.IsCrawler | backend/parser/crawler_detection.py:104-130 | an empty agent is not a crawler; a non-empty one is a crawler exactly when it contains a known fragment, or contains a generic term and no browser name |
| CrawlerDatabase.BrowserWithoutPatternRejected | backend/parser/crawler_detection.py:120-128 | an agent that names a browser and contains no known fragment is not a crawler, whatever generic terms it holds |
| CrawlerDatabase.DomainName | backend/parser/crawler_detection.py:179-181 | None exactly when no mapped domain occurs in the agent; otherwise the name mapped to a domain that occurs |
| CrawlerDatabase.ExtractCrawlerName | backend/parser/crawler_detection.py:132-187 | an empty agent has no name; a known fragment in the agent is returned as the first such fragment of the flat list; otherwise the regex stage's name when it gives one, else the term stage's, else the first mapped domain |
| CrawlerDatabase.FinalBranchIsNone | backend/parser/crawler_detection.py:183-187 | when no stage names the agent the result is None, whether or not `is_crawler` holds |
| CrawlerDatabase.FragmentNameIsCrawler | backend/parser/crawler_detection.py:120-122 | an agent named by a known fragment is also a crawler, and its name is a listed fragment contained in it |
| LogGrammar.Span | backend/parser/log_parsers.py:21 | the longest leading run of a character class: the run and the rest give back the input, and the rest does not start with a class character |
| LogGrammar.SpanConcat | backend/parser/log_parsers.py:21 | a run followed by a character outside the class is split exactly there |
| LogGrammar.Token | backend/parser/log_parsers.py:21 | a non-empty run of the class with the same split; None exactly when the input does not start with a class character |
| LogGrammar.TokenConcat | backend/parser/log_parsers.py:21 | a non-empty run followed by a non-class character is recognised as that token |
| LogGrammar.Expect | backend/parser/log_parsers.py:21 | a literal is consumed exactly when the input starts with it, and the remainder follows it |
| LogGrammar.ExpectConcat | backend/parser/log_parsers.py:21 | a literal followed by anything is consumed |
| LogGrammar.SpanBack | backend/parser/log_parsers.py:21 | the longest trailing run of a class: the two parts give back the input, and the first does not end in a class character |
| LogGrammar.SpanBackConcat | backend/parser/log_parsers.py:21 | text not ending in a class character, followed by a class run, is split exactly between them |
| LogGrammar.SplitRequest | backend/parser/log_parsers.py:21 | the request segment is the path, " HTTP/" and a version made of digits and dots |
| LogGrammar.SplitRequestConcat | backend/parser/log_parsers.py:21 | a path, the marker and a digit-dot version split back into that path and version |
| LogGrammar.MatchQuoted | backend/parser/log_parsers.py:21 | the quoted referer and user agent hold no quote and rebuild the text between the quotes |
| LogGrammar.MatchRequestPart | backend/parser/log_parsers.py:21 | the request, digit status, size and quoted fields have the regex's character classes and rebuild the input |
| LogGrammar.MatchCombined | backend/parser/log_parsers.py:20-22 | a matched line has well-formed fields and is exactly those fields rendered, followed by the unmatched tail |
| LogGrammar.MatchIdSuffix | backend/parser/log_parsers.py:61-63 | the request id after a space is a non-empty run of non-space characters |
| LogGrammar.MatchWithId | backend/parser/log_parsers.py:61-63 | the id pattern matches only lines the combined pattern matches, with the same fields, plus an id taken from the tail |
| LogGrammar.MatchQuotedRender | backend/parser/log_parsers.py:21 | rendering quote-free referer and agent and matching them back gives them back |
| LogGrammar.MatchRequestRender | backend/parser/log_parsers.py:21 | rendering well-formed request fields and matching them back gives them back |
| LogGrammar.MatchRender | backend/parser/log_parsers.py:20-22 | rendering well-formed fields with any tail and matching the line gives back those fields and that tail |
| LogGrammar.MatchIdSuffixRender | backend/parser/log_parsers.py:62 | a space, an id and a tail that starts with a space give back the id |
| LogGrammar.MatchRenderWithId | backend/parser/log_parsers.py:61-63 | a rendered line followed by an id matches the id pattern with those fields and that id |
| ParserBase.SearchRequestId | backend/parser/parser_base.py:85 | the position found is the first at or after the start where "request_id=" is followed by a value character; None means there is none |
| ParserBase.RequestIdValue | backend/parser/parser_base.py:85 | None exactly when no position qualifies; the value is a non-empty run without '&' or white space |
| ParserBase.ExtractRequestId | backend/parser/parser_base.py:83-91 | no value means no id; otherwise the id is what the UUID decoder makes of the first value, None included |
| ParserBase.ExtractFirstValue | backend/parser/parser_base.py:83-91 | the first "request_id=" value in a path is the one decoded |
| ParserBase.FirstInvalidValueHidesLater | backend/parser/parser_base.py:85-91 | an undecodable first value gives no id even when a later parameter holds one |
| ParserBase.ParseStatus | backend/parser/parser_base.py:101-105 | a number exactly for a non-empty all-digit status of at most 4300 digits (the interpreter's `int()` limit), and never negative |
| ParserBase.ParseStatusOfNatToString | backend/parser/parser_base.py:103 | the decimal text of a status code, within the digit limit, parses back to that code |
| ParserBase.ParseCommon | backend/parser/parser_base.py:93-115 | fails exactly when the time does not decode; otherwise the decoded time, the parsed status, referer None exactly for "-", and the given id, or the id taken from the path when none was given |
| LogParsers.MatchPattern | backend/parser/log_parsers.py:16-71 | each pattern matches exactly the lines its grammar accepts, with the combined fields; only the id pattern yields an id |
| LogParsers.ProcessMatch | backend/parser/log_parsers.py:30-105 | None exactly when the time does not decode; otherwise the matched fields, the decoded time, the parsed status, referer None exactly for "-", the crawler name of the agent, and the id group when it is a UUID, else the id recovered from the path |
| LogParsers.MatchAll | backend/parser/parser_base.py:75-76 | one match attempt per pattern, in pattern order |
| LogParsers.FirstSome | backend/parser/parser_base.py:75-78 | the first pattern that matches, and no earlier one |
| LogParsers.ParseLine | backend/parser/parser_base.py:64-80 | no matching pattern gives None; otherwise the first matching pattern's processed match |
| LogParsers.ApacheRoundTrip | backend/parser/log_parsers.py:109-112 | parsing a rendered well-formed line gives back its fields, with the decoded time, the status as a number (None beyond the digit limit) and the crawler name |
| LogParsers.NginxRoundTrip | backend/parser/log_parsers.py:114-117 | parsing a rendered line with an id suffix gives back its fields and the decoded id |
| LogParsers.NginxAgreesWithApache | backend/parser/log_parsers.py:20-69 | the Nginx parser accepts a line exactly when the Apache parser does, with the same fields apart from the request id |
| LogParsers.UnparsedLines | backend/parser/log_parsers.py:30-89 | a line outside the grammar, or one whose time does not decode, is rejected by both parsers |
| Processor.StripAll | backend/parser/processor.py:58 | every line is stripped, one output per input |
| Processor.DetectLogFormat | backend/parser/processor.py:17-39 | None exactly when no sample line is accepted by either parser; otherwise the answer for the first accepted line, which is always "apache" |
| Processor.RecognisedIsApache | backend/parser/processor.py:33-36 | any line either parser accepts is accepted by the Apache parser, so the Nginx answer is unreachable |
| Processor.SampleLines | backend/parser/processor.py:126-132 | at most the requested number of leading lines, stripped, and all of them when the file is shorter |
| Processor.PyMod | backend/parser/processor.py:59 | Python's remainder: zero exactly for multiples, with the sign of the divisor |
| Processor.ChunkBoundary | backend/parser/processor.py:59 | the test `(i + 1) % chunk_size == 0` fires exactly when the current chunk holds the absolute chunk size |
| Processor.ChunkFile | backend/parser/processor.py:42-67 | fails with ZeroDivisionError exactly for a zero size on a non-empty file; otherwise the chunks concatenate to the stripped lines, all but the last hold the absolute size, and the last is non-empty and no larger |
| Processor.ChunkLines | backend/parser/processor.py:57-65 | for a non-zero size, the same chunk shape and contents |
| Processor.Keep | backend/parser/processor.py:87-89 | a line contributes exactly when it parses and its user agent is a non-empty LLM crawler agent |
| Processor.ProcessChunk | backend/parser/processor.py:71-91 | every kept entry is a parsed line of the chunk whose agent is an LLM crawler, and every such line's entry is kept |
| Processor.ProcessChunkAppend | backend/parser/processor.py:86-91 | filtering two pieces and concatenating gives the filter of the whole |
| Processor.MapChunks | backend/parser/processor.py:157-161 | one result list per chunk, in chunk order |
| Processor.ChunkingPreservesResults | backend/parser/processor.py:153-163 | the flattened per-chunk results are the results of the whole file |
| Processor.NumProcesses | backend/parser/processor.py:110 | a missing or zero request gives at least one process; any other request is taken as given |
| Processor.MakeStats | backend/parser/processor.py:167-174 | the counters as given, a match percentage within 0..100 (0 for an empty file), and a rate that times the elapsed time gives the line count |
| Processor.Process | backend/parser/processor.py:110-174 | no detected format is a ValueError naming the file (the path as given); a zero chunk size fails; otherwise success exactly when the process count (the request, or the CPU default when it is missing or zero) is positive, and always under the default; the results are the Apache filter of the stripped lines and the counters are the line and match counts |
| LogDb.ActiveIds | backend/database/__init__.py:341-347 | the ids of the records whose in-use flag is set |
| LogDb.ClearActive | backend/database/__init__.py:341 | every record is kept, with its in-use flag cleared |
| LogDb.ClearActiveLeavesNoneActive | backend/database/__init__.py:341 | after clearing no file is active |
| LogDb.SetActiveLogFile | backend/database/__init__.py:315-355 | an empty id is a ValueError; an unknown id is "not_found" with nothing changed; otherwise the file is the only active one, and no row, id or file name changes |
| LogDb.RowsNotOf | backend/database/__init__.py:198-201 | exactly the rows of other files remain, in order: with the rows of the file they make up the input as a multiset |
| LogDb.CountRowsOf | backend/database/__init__.py:198-202 | the count is the number of rows removed, which is the number of rows carrying the id |
| LogDb.DeleteLogFileData | backend/database/__init__.py:172-216 | an empty id is a ValueError; an unknown id is "not_found" with nothing deleted; otherwise the record is gone, no row of the file remains, the reported count is the number of rows carrying the id, the rows left plus those rows are the rows before as a multiset, and every other file keeps its rows in order |
| LogDb.DeleteKeepsOtherRowsInOrder | backend/database/__init__.py:198-201 | the rows of every other file are kept, in their order |
| LogDb.RowsOf | backend/database/__init__.py:198-202 | only rows of the given file |
| LogWriter.InsertLogFile | backend/database/writer.py:25-53 | a raising connection reports False and changes nothing; otherwise the id is recorded, a new record is inserted as given, and every existing record keeps its file name; setting active clears every existing in-use flag, so only a new file is active; otherwise existing records are left alone |
| LogWriter.Stamp | backend/database/writer.py:73-76 | each entry is stored with the log file id when that id is truthy, and with its own absent id otherwise |
| LogWriter.Batches | backend/database/writer.py:79-80 | the batches concatenate to the input, are non-empty, and all but the last have the batch size |
| LogWriter.Accepted | backend/database/writer.py:185-207 | the rows stored one by one come from the batch, and all of them when every insert succeeds |
| LogWriter.InsertOneByOne | backend/database/writer.py:164-209 | the stored rows are appended after the existing ones, come from the batch, and the count is the rows added |
| LogWriter.InsertBatch | backend/database/writer.py:90-162 | an empty batch adds nothing; a bulk insert appends the whole batch; the fallback appends exactly the rows it accepts, in batch order; only a raising connection escapes |
| LogWriter.AllRaisedAllErrors | backend/database/writer.py:81-86 | when every batch raises, every row sent counts as an error and none is written |
| LogWriter.NextBatch | backend/database/writer.py:79-80 | taking one more batch extends the prefix by that batch, whose rows are rows of the input |
| LogWriter.InsertAll | backend/database/writer.py:79-86 | the rows appended are exactly the rows each batch writes, in batch order; the inserted count is their number and the error count is the size of every batch that raised; inserted plus errors is at most the input; when every bulk insert succeeds the whole input is appended in order with no errors |
| LogWriter.InsertLogs | backend/database/writer.py:55-88 | a zero batch size fails; a negative one inserts nothing; otherwise the attempted count is the input size, and the rows, inserted count and error count are those of the per-batch accounting of the stamped entries: all rows when every batch succeeds, all errors when every batch raises |
| LogTask.StatusName | backend/processor/log_task.py:50-122 | the four status strings of the record: "processing_complete", "db_init_failed", "complete" and "error" |
| LogTask.StatusNamesDistinct | backend/processor/log_task.py:50-122 | distinct statuses are written as distinct strings |
| LogTask.ErrorRecord | backend/processor/log_task.py:111-122 | an exception replaces the record with an error record that has no imported records and the exception as its only issue |
| LogTask.Cleanup | backend/processor/log_task.py:103-109 | a failed temporary-file removal only appends one issue |
| LogTask.TaskOutcome | backend/processor/log_task.py:18-122 | each final status holds exactly under its conditions, "complete" exactly when processing found matches to save, the database initialised and the write succeeded; a processing failure is an error record; otherwise the imported count is the match count |
| LogTask.ProcessLogFile | backend/processor/log_task.py:50-122 | the task's record is written and every other task's record stays as it was |
| LogTask.GetTaskStatus | backend/processor/log_task.py:144-154 | the stored record, and None exactly for an unknown task |
| LogTask.TaskVisibleAfterRun | backend/processor/log_task.py:144-154 | after a run the task's record can be looked up; other tasks' lookups are unchanged and no record is removed |
| LogTask.RecordsImportedIsMatchCount | backend/processor/log_task.py:89-94 | the writer's statistics have no "records_inserted" key, so the imported count keeps its default |
| LogTask.CompleteKeepsMatchCount | backend/processor/log_task.py:84-94 | a completed import reports the matched count as imported, whatever the writer inserted, and carries the writer's statistics |
| LogTask.FailedLogFileRecordOnlyAddsIssue | backend/processor/log_task.py:77-81 | a failed log-file record still completes, with one issue added before the others |
| LogTask.CleanupFailureOnlyAddsIssue | backend/processor/log_task.py:103-109 | for completed tasks, a failed removal changes nothing but appending one issue |
| LogTask.DbInitFailureSkipsCleanup | backend/processor/log_task.py:69-73 | a failed database initialisation returns early: status "db_init_failed" and only its own issue |
| LogTask.IndexCreationLeavesRecord | backend/processor/log_task.py:98-101 | asking for indexes changes nothing in the record, because index creation reports its own errors and its result is ignored |
| SqlGuard.CutLineComment | backend/models.py:21-23 | a line cut at its first "--" holds no "--", is a prefix of the line, and a line without one is kept |
| SqlGuard.StripLineComments | backend/models.py:18-24 | no "--" survives the line-comment pass |
| SqlGuard.PlainLine | backend/models.py:18-24 | a single line without comments is kept, with the newline the loop appends |
| SqlGuard.RemoveBlockComments | backend/models.py:27 | removing block comments never lengthens the text |
| SqlGuard.NoBlockComment | backend/models.py:27 | text without "/*" is unchanged |
| SqlGuard.RemoveFirstBlockComment | backend/models.py:27 | the first comment, ending at the nearest "*/", is removed and the rest handled the same way |
| SqlGuard.UnclosedBlockCommentKept | backend/models.py:27 | a "/*" never closed is kept as text |
| SqlGuard.AnyForbidden | backend/models.py:40-46 | true exactly when some forbidden keyword, from the given position on, occurs between spaces, before "(", or at the start |
| SqlGuard.Verdict | backend/models.py:29-46 | no message exactly for an acceptable query; the first failing check decides the message |
| SqlGuard.ValidateQuery | backend/models.py:15-48 | the query is returned unchanged exactly when its cleaned form is acceptable; otherwise the message of the first failing check |
| SqlGuard.LineCommentIgnored | backend/models.py:18-24 | appending a line comment to a one-line query does not change the verdict |
| SqlGuard.SameStrippedSameVerdict | backend/models.py:18-48 | two queries equal after the line-comment pass get the same verdict |
| SqlGuard.SameCleanedSameVerdict | backend/models.py:29-48 | two queries with the same cleaned form get the same verdict |
| SqlGuard.KeywordAfterSemicolonPasses | backend/models.py:40-46 | "SELECT 1;DELETE FROM t" is accepted: a keyword glued to a semicolon is not seen |
| SqlGuard.KeywordAfterSpaceRejected | backend/models.py:40-46 | "SELECT 1; DELETE FROM t" is rejected with the forbidden-keywords message |
| SqlGuard.SelectCheck | backend/database/__init__.py:35-43 | no error exactly when the stripped, upper-cased query starts with SELECT, or with WITH and contains SELECT; otherwise the message of the failing check |
| SqlGuard.AppendLimit | backend/database/__init__.py:46-47 | the query is kept as a prefix and its upper-cased form contains LIMIT; it is unchanged exactly when it already held LIMIT; otherwise the limit is appended as written, " LIMIT None" for a null limit |
| SqlGuard.LimitText | backend/models.py:12 | "None" exactly for a null limit; a non-negative limit is written as its decimal digits |
| SqlGuard.PrepareQuery | backend/database/__init__.py:31-47 | succeeds exactly when the statement check passes, with the query plus its limit clause; otherwise the check's error |
| SqlGuard.LimitAppended | backend/database/__init__.py:47 | the appended clause keeps the query as a prefix and contains LIMIT |
| SqlGuard.RewritePlaceholders | backend/database/__init__.py:129-140 | no "$1" to "$n" and no "%s" remains after the rewrite |
| SqlGuard.ReplaceAbsent | backend/database/__init__.py:136 | replacing a substring that does not occur changes nothing |
| SqlGuard.NoPlaceholdersUnchanged | backend/database/__init__.py:129-140 | a query without placeholders is passed on unchanged |
| CrawlerConfig.CategoryOf | backend/routes/crawler_config.py:322-337 | "Others" exactly when no category keyword occurs, ignoring case; otherwise the first category in declaration order whose keyword occurs |
| CrawlerConfig.MetaGptFiledUnderOpenAI | backend/routes/crawler_config.py:322-334 | "MetaGPT" is filed under OpenAI, because its "GPT" is tried before the Meta keywords |
| CrawlerConfig.KeyIndex | backend/routes/crawler_config.py:345-347 | the position of the key in the ordered dictionary, or None when it is absent |
| CrawlerConfig.GroupBy | backend/routes/crawler_config.py:337-352 | the result always starts with the "Others" key |
| CrawlerConfig.OfKey | backend/routes/crawler_config.py:340-352 | the reference filter: the patterns filed under a key, in input order, empty exactly when none is |
| CrawlerConfig.GroupsAreFilters | backend/routes/crawler_config.py:311-354 | each key holds exactly the patterns filed under it, in input order; keys are distinct; every used key is present; only "Others" can be empty |
| CrawlerConfig.GroupingKeepsEveryPattern | backend/routes/crawler_config.py:340-352 | the lists together hold the input patterns as a multiset: nothing is lost, added or merged |
| CrawlerConfig.GroupingKeepsCount | backend/routes/crawler_config.py:340-352 | the lists together hold as many patterns as the input |
| CrawlerConfig.FirstPos | backend/routes/crawler_config.py:345-350 | the first input position filed under a key, or None when no pattern is |
| CrawlerConfig.KeysInFirstSeenOrder | backend/routes/crawler_config.py:345-350 | the keys after "Others" appear in the order their first pattern appears in the input |
| CrawlerConfig.RenderList | backend/routes/crawler_config.py:183-193 | the new list starts with the list header and ends with a closing bracket on its own line |
| CrawlerConfig.RenderListExact | backend/routes/crawler_config.py:183-193 | when the last group ends visibly, the list is the header, the groups' text without its final blank line, and the closing bracket |
| CrawlerConfig.RenderedGroupingExact | backend/routes/crawler_config.py:183-193 | for every grouping of posted patterns the final strip removes exactly the blank line after the last group |
| CrawlerConfig.EveryPatternRendered | backend/routes/crawler_config.py:183-193 | every posted pattern appears in the new list, between quotes and followed by a comma |
| CrawlerConfig.DepthAppend | backend/routes/crawler_config.py:172-177 | the bracket count adds up over a concatenation |
| CrawlerConfig.ScanFrom | backend/routes/crawler_config.py:172-180 | the loop stops past the current position, or reports no stop |
| CrawlerConfig.ListEnd | backend/routes/crawler_config.py:167-180 | one past the first "]" that brings the count back to zero after a "[", or the header position when no such "]" exists |
| CrawlerConfig.FlatListEnd | backend/routes/crawler_config.py:167-180 | a list whose items hold no brackets ends right after its "]" |
| CrawlerConfig.Splice | backend/routes/crawler_config.py:162-196 | None exactly when the header is missing; otherwise the text before the header and from the list end on is kept around the new block |
| CrawlerConfig.UnclosedListKept | backend/routes/crawler_config.py:168-196 | an unclosed old list is not removed: the new list is inserted in front of it |
| CrawlerConfig.FlatListReplaced | backend/routes/crawler_config.py:162-196 | a bracket-free old list is replaced exactly, with the surrounding text kept |
| CrawlerConfig.Rewrite | backend/routes/crawler_config.py:148-212 | a missing file is a 404, a file without the list a 400, otherwise the spliced content and a reply counting the patterns |
| CrawlerConfig.RewriteAsWritten | backend/routes/crawler_config.py:148-218 | as the code runs: equal to the intended handler for an existing file, and a 500 whose detail ends in the 404's detail for a missing one |
| CrawlerConfig.MissingFileIsNot404 | backend/routes/crawler_config.py:148-218 | for a missing file the handler as written answers 500, where the intended answer is 404 |
| CrawlerConfig.UpdatePatterns | backend/routes/crawler_config.py:135-218 | as the code runs: a missing file is a 500 whose detail starts with the update prefix and ends in the not-found detail, a file without the list a 400; otherwise the posted patterns, grouped and rendered, replace the list, and the reply counts them |
| CrawlerConfig.ResetPatterns | backend/routes/crawler_config.py:228-308 | as the code runs: a missing file is a 500 whose detail starts with the reset prefix, a file without the list a 400; otherwise the 43 default patterns replace the list, and the reply counts them |

## Left out

- File and network I/O. This covers reading log files and the pattern
  module, writing the pattern module, the temporary upload file
  (`save_uploaded_file`), the FastAPI plumbing, and logging. Contents
  arrive as parameters, and whether a file exists is a boolean input.
- `multiprocessing.Pool`: `pool.map` is modelled as an in-order
  sequential map, since it returns results in chunk order. Process
  start-up failures other than a non-positive process count are not
  modelled, and `multiprocessing.cpu_count()` is a parameter of
  `Processor.Process`.
- Wall-clock time, `processing_time`, `file_size_mb`, `completed_at` and
  the insertion times. The elapsed time is a real-number parameter of
  `Processor.MakeStats`, and the other fields are not stored in the
  model's task record.
- `strptime` with "%d/%b/%Y:%H:%M:%S %z" and `uuid.UUID`. Both are given
  decoders, with their results passed through. The model states what is
  done with their results, not how dates or UUIDs are parsed.
- CrawlerDatabase.ExtractCrawlerName: the three name-extraction regular
  expressions (crawler_detection.py:154-163) and the term-window search
  (166-176) are given functions. The model fixes their order and how
  their results are used, not the names they extract.
- `execute_sql_query`: the chain of `re.sub` table and column rewrites
  (backend/database/__init__.py:54-123), the cursor execution and the
  row conversion are left out, because they are SQL text rewriting and
  SQLite behaviour. `SqlGuard` models the checks before them and the
  placeholder rewrite after them.
- `get_all_log_files` and `get_active_log_file`. They are read-only SQL
  queries with no logic beyond what SQLite returns.
- `get_crawler_patterns`. It reloads the Python module, which cannot be
  modelled without running Python.
- The database connection module and `init_db`. Whether initialisation
  succeeds is an input of `LogTask`. Index creation catches its own
  errors and the task ignores its result, so it has no outcome here.
- The context files: `routes/logs.py`, `app.py`, `run_app.py`,
  `troubleshoot_mac.py`, the parser directory's `__init__`, `log_processor`
  and `nginx_parser` shims, and `parser/crawler_patterns.py`. The last is
  the file the configuration routes edit; its content is a string
  parameter here.
- `process_sample`, which copies a prefix of the file to a temporary file
  and processes that copy.
- Unicode case mapping and digits. `str.lower`/`str.upper` are modelled
  on ASCII letters, and other characters are unchanged. `\d` and `int()`
  are modelled on ASCII digits. White space (`str.strip`, `\s`) is the
  full set of characters `str.isspace` accepts.
- LogWriter.InsertLogs: the per-row dictionaries are modelled as
  immutable entries plus the stored id. Python mutates the caller's
  dictionaries in place, and that aliasing is not modelled.
- ParserBase.ParseStatus: the 4300-digit limit is the default of CPython
  3.11 and later and of the 3.8.14, 3.9.14 and 3.10.7 security releases.
  Earlier interpreters have no limit, and a limit changed with
  `sys.set_int_max_str_digits` or `PYTHONINTMAXSTRDIGITS` is not modelled.
- Processor.Process: the Pool's worker processes are not modelled. A
  non-positive process count gives the Pool's own `ValueError`, "Number
  of processes must be at least 1". The file path is taken as the text
  `str(Path(file_path))` gives: the `pathlib` normalisation ("" becomes
  ".", doubled and trailing slashes are dropped) is not modelled, so the
  format error names the path as given.

## Findings

| source | as written | input that shows it | evidently intended | confidence | as-written member | corrected member |
|---|---|---|---|---|---|---|
| backend/routes/crawler_config.py:148-218 | the 404 for a missing pattern file is raised inside the `try`, so `except Exception` catches it and re-raises it as a 500 with detail "Error updating crawler patterns: 404: Crawler patterns file not found"; the reset handler does the same at lines 238-243 and 303-308 | any update or reset request while the pattern file does not exist | a 404 with detail "Crawler patterns file not found" | medium, not executed | CrawlerConfig.RewriteAsWritten (shown by CrawlerConfig.MissingFileIsNot404) | CrawlerConfig.Rewrite |

=== FILE: crawler_config.dfy ===
/**
 * The pattern-file editing behind the crawler configuration routes:
 * `group_patterns_by_category`, the bracket scan that finds the end of the
 * `LLM_CRAWLER_PATTERNS` list, the rendering of the new list and the splice
 * that puts it in place of the old one. The update and the reset handler
 * run the same code, on the posted patterns and on the default list.
 */
module CrawlerConfig {
  import opened Wrappers
  import opened Text
  import opened SeqUtil

  // ---------------------------------------------------------------------
  // group_patterns_by_category
  // ---------------------------------------------------------------------

  /** A category and the keywords that put a pattern into it. */
  datatype Category = Category(name: string, keywords: seq<string>)

  /** The categories in declaration order; the first whose keyword matches wins. */
  const Categories: seq<Category> := [
    Category("OpenAI", ["GPT", "OpenAI", "ChatGPT", "OAI"]),
    Category("Anthropic", ["Claude", "Anthropic"]),
    Category("Google", ["google", "Google"]),
    Category("Meta", ["Meta", "Facebook", "LLaMA"]),
    Category("Cohere", ["Cohere", "cohere"]),
    Category("Perplexity", ["Perplexity"]),
    Category("Apple", ["Apple"]),
    Category("Amazon", ["Amazon"]),
    Category("ByteDance", ["Byte", "Pangle"]),
    Category("Common Crawl", ["CCBot"]),
    Category("Allen Institute for AI", ["AI2", "Dolma"])
  ]

  /** The catch-all key, present in every grouping and always first. */
  const Others := "Others"

  /** `keyword.lower() in pattern.lower()`. */
  predicate KeywordIn(pattern: string, keyword: string)
  {
    Contains(Lower(pattern), Lower(keyword))
  }

  /** Some keyword of `c` occurs in the pattern, ignoring case. */
  predicate InCategory(pattern: string, c: Category)
  {
    exists j :: 0 <= j < |c.keywords| && KeywordIn(pattern, c.keywords[j])
  }

  /** Category `k` is the first in declaration order that the pattern falls into. */
  predicate FirstCategory(pattern: string, k: nat)
  {
    && k < |Categories|
    && InCategory(pattern, Categories[k])
    && forall j :: 0 <= j < k ==> !InCategory(pattern, Categories[j])
  }

  lemma {:induction false} CategoryNamesAreNotOthers(k: nat)
    requires k < |Categories|
    ensures Categories[k].name != Others
  {
  }

  /** The key a pattern is filed under. */
  function CategoryOf(pattern: string): (r: string)
    ensures r == Others <==> forall k :: 0 <= k < |Categories| ==> !InCategory(pattern, Categories[k])
    ensures forall k: nat :: FirstCategory(pattern, k) ==> r == Categories[k].name
  {
    match FirstIndex(Categories, (c: Category) => InCategory(pattern, c), 0)
    case None => Others
    case Some(k) =>
      CategoryNamesAreNotOthers(k);
      assert FirstCategory(pattern, k);
      Categories[k].name
  }

  /** One entry of the ordered result dictionary. */
  datatype Group = Group(name: string, patterns: seq<string>)

  /** Where the dictionary holds the key `name`, if it does. */
  function KeyIndex(gs: seq<Group>, name: string): (r: Option<nat>)
    ensures r.Some? ==> r.value < |gs| && gs[r.value].name == name
    ensures r.None? ==> forall i :: 0 <= i < |gs| ==> gs[i].name != name
  {
    FirstIndex(gs, (g: Group) => g.name == name, 0)
  }

  /** `result[category].append(pattern)`, creating the key at the end when it is missing. */
  function AppendTo(gs: seq<Group>, name: string, p: string): seq<Group>
  {
    match KeyIndex(gs, name)
    case Some(i) => gs[i := Group(name, gs[i].patterns + [p])]
    case None => gs + [Group(name, [p])]
  }

  /**
   * The loop of `group_patterns_by_category` for a classifier `key`: start
   * from an empty "Others" list and append each pattern under its key.
   */
  function GroupBy(ps: seq<string>, key: string -> string): (r: seq<Group>)
    ensures |r| > 0 && r[0].name == Others
    decreases |ps|
  {
    if |ps| == 0 then [Group(Others, [])]
    else
      var n := |ps| - 1;
      AppendTo(GroupBy(ps[..n], key), key(ps[n]), ps[n])
  }

  /** `group_patterns_by_category`. */
  function GroupByCategory(ps: seq<string>): seq<Group>
  {
    GroupBy(ps, CategoryOf)
  }

  /** Reference definition: the patterns of `ps` filed under `name`, in input order. */
  function OfKey(ps: seq<string>, key: string -> string, name: string): (r: seq<string>)
    ensures |r| <= |ps|
    ensures forall x :: x in r ==> x in ps && key(x) == name
    ensures r == [] <==> forall k :: 0 <= k < |ps| ==> key(ps[k]) != name
    decreases |ps|
  {
    if |ps| == 0 then []
    else
      var n := |ps| - 1;
      var rest := OfKey(ps[..n], key, name);
      assert forall k :: 0 <= k < n ==> ps[..n][k] == ps[k];
      if key(ps[n]) == name then rest + [ps[n]] else rest
  }

  /** The shape `group_patterns_by_category` promises for the grouping `gs` of `ps`. */
  ghost predicate WellGrouped(ps: seq<string>, key: string -> string, gs: seq<Group>)
  {
    && (forall i :: 0 <= i < |gs| ==> gs[i].patterns == OfKey(ps, key, gs[i].name))
    && (forall i, j :: 0 <= i < j < |gs| ==> gs[i].name != gs[j].name)
    && (forall name :: OfKey(ps, key, name) != [] ==> KeyIndex(gs, name).Some?)
    && (forall i :: 0 < i < |gs| ==> gs[i].patterns != [])
  }

  /** Filtering a longer input only adds the new pattern to its own key. */
  lemma {:induction false} OfKeySnoc(prev: seq<string>, key: string -> string, p: string, m: string)
    ensures OfKey(prev + [p], key, m) == OfKey(prev, key, m) + (if key(p) == m then [p] else [])
  {
    assert (prev + [p])[..|prev|] == prev;
  }

  /** One loop step keeps the grouping well formed, when the key is already present. */
  lemma {:induction false} StepExisting(prev: seq<string>, key: string -> string, g0: seq<Group>, p: string, i: nat)
    requires WellGrouped(prev, key, g0)
    requires KeyIndex(g0, key(p)) == Some(i)
    ensures WellGrouped(prev + [p], key, AppendTo(g0, key(p), p))
  {
    var ps := prev + [p];
    var name := key(p);
    var g := AppendTo(g0, name, p);
    assert g == g0[i := Group(name, g0[i].patterns + [p])];
    forall t | 0 <= t < |g|
      ensures g[t].patterns == OfKey(ps, key, g[t].name)
    {
      OfKeySnoc(prev, key, p, g[t].name);
    }
    forall m | OfKey(ps, key, m) != []
      ensures KeyIndex(g, m).Some?
    {
      OfKeySnoc(prev, key, p, m);
      if m != name {
        var j := KeyIndex(g0, m).value;
        assert g[j].name == m;
      } else {
        assert g[i].name == m;
      }
    }
  }

  /** One loop step keeps the grouping well formed, when the key is new. */
  lemma {:induction false} StepNew(prev: seq<string>, key: string -> string, g0: seq<Group>, p: string)
    requires WellGrouped(prev, key, g0)
    requires KeyIndex(g0, key(p)).None?
    ensures WellGrouped(prev + [p], key, AppendTo(g0, key(p), p))
  {
    var ps := prev + [p];
    var name := key(p);
    var g := AppendTo(g0, name, p);
    assert OfKey(prev, key, name) == [];
    assert g == g0 + [Group(name, [p])];
    forall t | 0 <= t < |g|
      ensures g[t].patterns == OfKey(ps, key, g[t].name)
    {
      OfKeySnoc(prev, key, p, g[t].name);
    }
    forall a, b | 0 <= a < b < |g|
      ensures g[a].name != g[b].name
    {
      assert g[a] == g0[a];
      if b < |g0| {
        assert g[b] == g0[b];
      }
    }
    forall m | OfKey(ps, key, m) != []
      ensures KeyIndex(g, m).Some?
    {
      OfKeySnoc(prev, key, p, m);
      if m != name {
        var j := KeyIndex(g0, m).value;
        assert g[j].name == m;
      } else {
        assert g[|g0|].name == m;
      }
    }
  }

  /**
   * Each key holds exactly the patterns filed under it, in input order;
   * keys are distinct; every key some pattern is filed under is present;
   * only "Others" can be empty.
   */
  lemma {:induction false} GroupsAreFilters(ps: seq<string>, key: string -> string)
    ensures WellGrouped(ps, key, GroupBy(ps, key))
    decreases |ps|
  {
    if |ps| == 0 {
      assert forall m :: OfKey(ps, key, m) == [];
    } else {
      var n := |ps| - 1;
      var prev := ps[..n];
      var p := ps[n];
      GroupsAreFilters(prev, key);
      var g0 := GroupBy(prev, key);
      assert ps == prev + [p];
      if KeyIndex(g0, key(p)).Some? {
        StepExisting(prev, key, g0, p, KeyIndex(g0, key(p)).value);
      } else {
        StepNew(prev, key, g0, p);
      }
    }
  }

  /** The lists of the grouping, in key order. */
  function Lists(gs: seq<Group>): (r: seq<seq<string>>)
    ensures |r| == |gs|
    ensures forall i :: 0 <= i < |gs| ==> r[i] == gs[i].patterns
  {
    seq(|gs|, i requires 0 <= i < |gs| => gs[i].patterns)
  }

  /** Appending to one inner list adds that element to the flattened multiset. */
  lemma {:induction false} FlattenUpdate<T>(xss: seq<seq<T>>, i: nat, x: T)
    requires i < |xss|
    ensures multiset(Flatten(xss[i := xss[i] + [x]])) == multiset(Flatten(xss)) + multiset{x}
  {
    var a, b := xss[..i], xss[i + 1..];
    assert xss == a + [xss[i]] + b;
    assert xss[i := xss[i] + [x]] == a + [xss[i] + [x]] + b;
    FlattenAppend(a + [xss[i]], b);
    FlattenAppend(a, [xss[i]]);
    FlattenAppend(a + [xss[i] + [x]], b);
    FlattenAppend(a, [xss[i] + [x]]);
    FlattenSingle(xss[i]);
    FlattenSingle(xss[i] + [x]);
  }

  /** One loop step adds exactly the new pattern to the grouped patterns. */
  lemma {:induction false} AppendToAddsOne(g0: seq<Group>, name: string, p: string)
    ensures multiset(Flatten(Lists(AppendTo(g0, name, p)))) == multiset(Flatten(Lists(g0))) + multiset{p}
  {
    var g := AppendTo(g0, name, p);
    match KeyIndex(g0, name)
    case Some(i) =>
      assert Lists(g) == Lists(g0)[i := Lists(g0)[i] + [p]];
      FlattenUpdate(Lists(g0), i, p);
    case None =>
      assert Lists(g) == Lists(g0) + [[p]];
      FlattenAppend(Lists(g0), [[p]]);
      FlattenSingle([p]);
  }

  /** Every input pattern lands in exactly one list, duplicates kept: nothing is lost or added. */
  lemma {:induction false} GroupingKeepsEveryPattern(ps: seq<string>, key: string -> string)
    ensures multiset(Flatten(Lists(GroupBy(ps, key)))) == multiset(ps)
    decreases |ps|
  {
    if |ps| == 0 {
      var g := GroupBy(ps, key);
      assert Lists(g) == [[]];
      FlattenSingle<string>([]);
    } else {
      var n := |ps| - 1;
      var prev := ps[..n];
      GroupingKeepsEveryPattern(prev, key);
      assert ps == prev + [ps[n]];
      AppendToAddsOne(GroupBy(prev, key), key(ps[n]), ps[n]);
    }
  }

  /** The lists together hold as many patterns as the input: the reply's count is the number written. */
  lemma {:induction false} GroupingKeepsCount(ps: seq<string>, key: string -> string)
    ensures |Flatten(Lists(GroupBy(ps, key)))| == |ps|
  {
    GroupingKeepsEveryPattern(ps, key);
    assert |multiset(Flatten(Lists(GroupBy(ps, key))))| == |multiset(ps)|;
  }

  /** The first position of a pattern filed under `name`. */
  function FirstPos(ps: seq<string>, key: string -> string, name: string): (r: Option<nat>)
    ensures r.Some? ==> r.value < |ps| && key(ps[r.value]) == name
    ensures r.Some? ==> forall k :: 0 <= k < r.value ==> key(ps[k]) != name
    ensures r.None? <==> forall k :: 0 <= k < |ps| ==> key(ps[k]) != name
    decreases |ps|
  {
    if |ps| == 0 then None
    else
      var n := |ps| - 1;
      var earlier := FirstPos(ps[..n], key, name);
      assert forall k :: 0 <= k < n ==> ps[..n][k] == ps[k];
      if earlier.Some? then earlier
      else if key(ps[n]) == name then Some(n)
      else None
  }

  /** A key already seen keeps its first position when a pattern is appended. */
  lemma {:induction false} FirstPosKept(prev: seq<string>, key: string -> string, p: string, name: string)
    requires FirstPos(prev, key, name).Some?
    ensures FirstPos(prev + [p], key, name) == FirstPos(prev, key, name)
  {
    assert (prev + [p])[..|prev|] == prev;
  }

  /** Key `a` of the grouping was first seen in the input before key `b`. */
  predicate SeenBefore(ps: seq<string>, key: string -> string, a: string, b: string)
  {
    && FirstPos(ps, key, a).Some?
    && FirstPos(ps, key, b).Some?
    && FirstPos(ps, key, a).value < FirstPos(ps, key, b).value
  }

  /** Keys already present keep their first positions when a pattern is appended. */
  lemma {:induction false} KeptKeysKeepPositions(prev: seq<string>, key: string -> string, g0: seq<Group>, p: string)
    requires WellGrouped(prev, key, g0)
    ensures forall i :: 0 < i < |g0| ==>
      FirstPos(prev, key, g0[i].name).Some? && FirstPos(prev + [p], key, g0[i].name) == FirstPos(prev, key, g0[i].name)
  {
    forall i | 0 < i < |g0|
      ensures FirstPos(prev, key, g0[i].name).Some?
      ensures FirstPos(prev + [p], key, g0[i].name) == FirstPos(prev, key, g0[i].name)
    {
      assert g0[i].patterns != [];
      FirstPosKept(prev, key, p, g0[i].name);
    }
  }

  /** One loop step keeps the keys after "Others" in first-seen order. */
  lemma {:induction false} OrderStep(prev: seq<string>, key: string -> string, g0: seq<Group>, p: string)
    requires WellGrouped(prev, key, g0)
    requires forall i, j :: 0 < i < j < |g0| ==> SeenBefore(prev, key, g0[i].name, g0[j].name)
    ensures var g := AppendTo(g0, key(p), p);
      forall i, j :: 0 < i < j < |g| ==> SeenBefore(prev + [p], key, g[i].name, g[j].name)
  {
    var ps := prev + [p];
    var name := key(p);
    var g := AppendTo(g0, name, p);
    KeptKeysKeepPositions(prev, key, g0, p);
    match KeyIndex(g0, name)
    case Some(i) =>
      assert g == g0[i := Group(name, g0[i].patterns + [p])];
    case None =>
      assert OfKey(prev, key, name) == [];
      assert g == g0 + [Group(name, [p])];
      assert ps[..|prev|] == prev;
      assert FirstPos(ps, key, name) == Some(|prev|);
  }

  /** The keys after "Others" appear in the order their first pattern appears in the input. */
  lemma {:induction false} KeysInFirstSeenOrder(ps: seq<string>, key: string -> string)
    ensures forall i, j :: 0 < i < j < |GroupBy(ps, key)| ==>
      SeenBefore(ps, key, GroupBy(ps, key)[i].name, GroupBy(ps, key)[j].name)
    decreases |ps|
  {
    if |ps| > 0 {
      var n := |ps| - 1;
      var prev := ps[..n];
      KeysInFirstSeenOrder(prev, key);
      GroupsAreFilters(prev, key);
      assert ps == prev + [ps[n]];
      OrderStep(prev, key, GroupBy(prev, key), ps[n]);
    }
  }

  // ---------------------------------------------------------------------
  // The rendered list
  // ---------------------------------------------------------------------

  const ListHeader := "LLM_CRAWLER_PATTERNS = ["

  /** One pattern as a list item, written between quotes without escaping. */
  function Item(p: string): string
  {
    "    \"" + p + "\","
  }

  function PatternLine(p: string): string
  {
    Item(p) + "\n"
  }

  function PatternLines(ps: seq<string>): string
  {
    Flatten(seq(|ps|, i requires 0 <= i < |ps| => PatternLine(ps[i])))
  }

  /** A comment line with the key, its items, and a blank line. */
  function GroupText(g: Group): string
  {
    "    # " + g.name + "\n" + PatternLines(g.patterns) + "\n"
  }

  function GroupsText(gs: seq<Group>): string
  {
    Flatten(seq(|gs|, i requires 0 <= i < |gs| => GroupText(gs[i])))
  }

  /** The new list text: the header, the groups, trailing blanks removed, the closing bracket. */
  function RenderList(gs: seq<Group>): (r: string)
    ensures EndsWith(r, "\n]")
    ensures |gs| > 0 ==> StartsWith(r, ListHeader + "\n")
  {
    var body := ListHeader + "\n" + GroupsText(gs);
    var kept := RStrip(body);
    if |gs| > 0 then
      FirstGroupVisible(gs);
      assert body[|ListHeader| + 5] == '#';
      assert kept == body[..|kept|];
      assert kept[..|ListHeader| + 1] == body[..|ListHeader| + 1];
      kept + "\n]"
    else
      kept + "\n]"
  }

  /** The text of the groups starts with the first group's comment marker. */
  lemma {:induction false} FirstGroupVisible(gs: seq<Group>)
    requires |gs| > 0
    ensures |GroupsText(gs)| > 4 && GroupsText(gs)[4] == '#'
  {
    var ts := seq(|gs|, i requires 0 <= i < |gs| => GroupText(gs[i]));
    assert ts == [ts[0]] + ts[1..];
    FlattenAppend([ts[0]], ts[1..]);
    FlattenSingle(ts[0]);
  }

  /** `b` occurs in `a + b + c`. */
  lemma {:induction false} ContainsMiddle(a: string, b: string, c: string)
    ensures Contains(a + b + c, b)
  {
    assert (a + b + c)[|a|..|a| + |b|] == b;
    ContainsAt(a + b + c, b, |a|);
  }

  /** Each part of a concatenation occurs in it. */
  lemma {:induction false} FlattenContains(xss: seq<string>, k: nat)
    requires k < |xss|
    ensures Contains(Flatten(xss), xss[k])
  {
    assert xss == xss[..k] + [xss[k]] + xss[k + 1..];
    FlattenAppend(xss[..k] + [xss[k]], xss[k + 1..]);
    FlattenAppend(xss[..k], [xss[k]]);
    FlattenSingle(xss[k]);
    ContainsMiddle(Flatten(xss[..k]), xss[k], Flatten(xss[k + 1..]));
  }

  /** An item line, up to its comma, survives the final strip. */
  lemma {:induction false} ItemSurvivesStrip(body: string, line: string, tail: string)
    requires Contains(body, line + tail)
    requires |line| > 0 && !IsSpace(line[|line| - 1])
    ensures Contains(RStrip(body), line)
  {
    ContainsIffWindow(body, line + tail);
    var o: nat :| OccursAt(body, line + tail, o);
    var last := o + |line| - 1;
    assert body[o..o + |line|] == line by {
      assert body[o..o + |line|] == body[o..o + |line + tail|][..|line|];
    }
    assert body[last] == line[|line| - 1];
    var kept := RStrip(body);
    assert last < |kept| by {
      if last >= |kept| {
        assert false;
      }
    }
    assert kept == body[..|kept|];
    assert kept[o..o + |line|] == body[o..o + |line|];
    ContainsAt(kept, line, o);
  }

  /** Where a pattern sits in the grouping: list `i`, position `m`. */
  lemma {:induction false} PatternPlace(ps: seq<string>, k: nat) returns (i: nat, m: nat)
    requires k < |ps|
    ensures i < |GroupByCategory(ps)| && m < |GroupByCategory(ps)[i].patterns|
    ensures GroupByCategory(ps)[i].patterns[m] == ps[k]
  {
    var gs := GroupByCategory(ps);
    GroupsAreFilters(ps, CategoryOf);
    OfKeyHas(ps, CategoryOf, k);
    i := KeyIndex(gs, CategoryOf(ps[k])).value;
    var items := gs[i].patterns;
    assert ps[k] in items;
    m :| 0 <= m < |items| && items[m] == ps[k];
  }

  /** Each item line of each list occurs in the text of the groups. */
  lemma {:induction false} LineInGroupsText(gs: seq<Group>, i: nat, m: nat)
    requires i < |gs| && m < |gs[i].patterns|
    ensures Contains(GroupsText(gs), PatternLine(gs[i].patterns[m]))
  {
    var items := gs[i].patterns;
    var lines := seq(|items|, t requires 0 <= t < |items| => PatternLine(items[t]));
    FlattenContains(lines, m);
    var texts := seq(|gs|, t requires 0 <= t < |gs| => GroupText(gs[t]));
    FlattenContains(texts, i);
    ContainsMiddle("    # " + gs[i].name + "\n", PatternLines(items), "\n");
    ContainsTransitive(GroupText(gs[i]), PatternLines(items), PatternLine(items[m]));
    ContainsTransitive(GroupsText(gs), GroupText(gs[i]), PatternLine(items[m]));
  }

  /** An item line of the groups' text is still in the list after the final strip. */
  lemma {:induction false} LineInList(gs: seq<Group>, p: string)
    requires Contains(GroupsText(gs), PatternLine(p))
    ensures Contains(RenderList(gs), Item(p))
  {
    var body := ListHeader + "\n" + GroupsText(gs);
    ContainsMiddle(ListHeader + "\n", GroupsText(gs), "");
    assert ListHeader + "\n" + GroupsText(gs) + "" == body;
    ContainsTransitive(body, GroupsText(gs), PatternLine(p));
    ItemSurvivesStrip(body, Item(p), "\n");
    ContainsMiddle("", RStrip(body), "\n]");
    assert "" + RStrip(body) + "\n]" == RenderList(gs);
    ContainsTransitive(RenderList(gs), RStrip(body), Item(p));
  }

  /**
   * One item line per input pattern: every pattern appears, between quotes
   * and followed by a comma, in the list written for the grouping.
   */
  lemma {:induction false} EveryPatternRendered(ps: seq<string>, k: nat)
    requires k < |ps|
    ensures Contains(RenderList(GroupByCategory(ps)), Item(ps[k]))
  {
    var i, m := PatternPlace(ps, k);
    LineInGroupsText(GroupByCategory(ps), i, m);
    LineInList(GroupByCategory(ps), ps[k]);
  }

  /** A list of lists ends with its last inner list. */
  lemma {:induction false} FlattenLast<T>(xss: seq<seq<T>>)
    requires |xss| > 0
    ensures Flatten(xss) == Flatten(xss[..|xss| - 1]) + xss[|xss| - 1]
  {
    var n := |xss| - 1;
    assert xss == xss[..n] + [xss[n]];
    FlattenAppend(xss[..n], [xss[n]]);
    FlattenSingle(xss[n]);
  }

  /** The item lines of a non-empty list end with a comma and a newline. */
  lemma {:induction false} PatternLinesEnd(ps: seq<string>)
    requires |ps| > 0
    ensures var t := PatternLines(ps); |t| >= 2 && t[|t| - 2..] == ",\n"
  {
    var lines := seq(|ps|, i requires 0 <= i < |ps| => PatternLine(ps[i]));
    FlattenLast(lines);
    var n := |ps| - 1;
    assert lines[..n] == seq(n, i requires 0 <= i < n => PatternLine(ps[..n][i]));
  }

  /** The last group's text ends in a blank line after a visible character. */
  predicate EndsVisible(g: Group)
  {
    |g.patterns| > 0 || (|g.name| > 0 && !IsSpace(g.name[|g.name| - 1]))
  }

  /** A group's text is its visible part followed by one blank line. */
  lemma {:induction false} GroupTextEnd(g: Group)
    requires EndsVisible(g)
    ensures var t := GroupText(g); |t| >= 3 && t[|t| - 2..] == "\n\n" && !IsSpace(t[|t| - 3])
  {
    var head := "    # " + g.name + "\n";
    var t := GroupText(g);
    assert t == head + PatternLines(g.patterns) + "\n";
    if |g.patterns| > 0 {
      PatternLinesEnd(g.patterns);
      var pl := PatternLines(g.patterns);
      assert t[|t| - 3] == pl[|pl| - 2];
    } else {
      assert PatternLines(g.patterns) == [];
      assert t == "    # " + g.name + "\n\n";
      assert t[|t| - 3] == g.name[|g.name| - 1];
    }
  }

  /**
   * The final `rstrip` removes exactly the blank line after the last group:
   * the new list is the header, the groups' text without its last two
   * newlines, and the closing bracket on its own line.
   */
  lemma {:induction false} RenderListExact(gs: seq<Group>)
    requires |gs| > 0 && EndsVisible(gs[|gs| - 1])
    ensures var body := GroupsText(gs);
      |body| >= 3 && RenderList(gs) == ListHeader + "\n" + body[..|body| - 2] + "\n]"
  {
    var body := GroupsText(gs);
    GroupsTextEnd(gs);
    var kept := ListHeader + "\n" + body[..|body| - 2];
    assert ListHeader + "\n" + body == kept + "\n\n";
    assert kept[|kept| - 1] == body[|body| - 3];
    RStripTrailingSpace(kept, "\n\n");
  }

  /** The groups' text ends like the last group's text. */
  lemma {:induction false} GroupsTextEnd(gs: seq<Group>)
    requires |gs| > 0 && EndsVisible(gs[|gs| - 1])
    ensures var t := GroupsText(gs); |t| >= 3 && t[|t| - 2..] == "\n\n" && !IsSpace(t[|t| - 3])
  {
    var n := |gs| - 1;
    var texts := seq(|gs|, i requires 0 <= i < |gs| => GroupText(gs[i]));
    FlattenLast(texts);
    GroupTextEnd(gs[n]);
    var body := GroupsText(gs);
    var last := GroupText(gs[n]);
    assert body == Flatten(texts[..n]) + last;
    assert body[|body| - 3..] == last[|last| - 3..];
  }

  /**
   * For the grouping of any pattern list the last group is visible ("Others"
   * when it stands alone, otherwise a key with patterns), so the rendered
   * list drops exactly the final blank line.
   */
  lemma {:induction false} RenderedGroupingExact(ps: seq<string>)
    ensures var body := GroupsText(GroupByCategory(ps));
      |body| >= 3 && RenderList(GroupByCategory(ps)) == ListHeader + "\n" + body[..|body| - 2] + "\n]"
  {
    var gs := GroupByCategory(ps);
    GroupsAreFilters(ps, CategoryOf);
    var n := |gs| - 1;
    if n == 0 {
      assert gs[0].name == Others;
    } else {
      assert gs[n].patterns != [];
    }
    RenderListExact(gs);
  }

  lemma {:induction false} OfKeyHas(ps: seq<string>, key: string -> string, k: nat)
    requires k < |ps|
    ensures ps[k] in OfKey(ps, key, key(ps[k]))
    decreases |ps|
  {
    var n := |ps| - 1;
    if k < n {
      OfKeyHas(ps[..n], key, k);
      assert ps[..n][k] == ps[k];
    }
  }

  // ---------------------------------------------------------------------
  // The bracket scan
  // ---------------------------------------------------------------------

  /** How one character moves the bracket count. */
  function DepthStep(c: char): int
  {
    if c == '[' then 1 else if c == ']' then -1 else 0
  }

  /** Opening brackets minus closing brackets in `s`. */
  function Depth(s: string): int
    decreases |s|
  {
    if |s| == 0 then 0
    else
      var c := s[|s| - 1];
      Depth(s[..|s| - 1]) + DepthStep(c)
  }

  /** Depth adds up over a concatenation. */
  lemma {:induction false} DepthAppend(a: string, b: string)
    ensures Depth(a + b) == Depth(a) + Depth(b)
    decreases |b|
  {
    if |b| > 0 {
      assert (a + b)[..|a + b| - 1] == a + b[..|b| - 1];
      DepthAppend(a, b[..|b| - 1]);
    } else {
      assert a + b == a;
    }
  }

  /** Text without brackets has depth 0. */
  lemma {:induction false} DepthWithoutBrackets(s: string)
    requires '[' !in s && ']' !in s
    ensures Depth(s) == 0
    decreases |s|
  {
    if |s| > 0 {
      DepthWithoutBrackets(s[..|s| - 1]);
    }
  }

  /**
   * The loop stops at `i`: a `]` that brings the count back to 0 after some
   * `[` has been seen since `start`.
   */
  predicate ClosesAt(content: string, start: nat, i: nat)
  {
    && start <= i < |content|
    && content[i] == ']'
    && '[' in content[start..i]
    && Depth(content[start..i + 1]) == 0
  }

  /** One more character: the depth and the `found_opening` flag after it, and whether the loop stops there. */
  lemma {:induction false} ScanStep(content: string, start: nat, i: nat, depth: int, found: bool)
    requires start <= i < |content|
    requires depth == Depth(content[start..i]) && found == ('[' in content[start..i])
    ensures Depth(content[start..i + 1]) == depth + DepthStep(content[i])
    ensures ('[' in content[start..i + 1]) == (found || content[i] == '[')
    ensures ClosesAt(content, start, i) <==> content[i] == ']' && found && depth + DepthStep(content[i]) == 0
  {
    assert content[start..i + 1] == content[start..i] + [content[i]];
    assert content[start..i + 1][..i - start] == content[start..i];
  }

  /** The loop from index `i`, with the bracket count and the `found_opening` flag it has reached. */
  function ScanFrom(content: string, start: nat, i: nat, depth: int, found: bool): (r: nat)
    requires start <= i <= |content|
    ensures r == start || i < r <= |content|
    decreases |content| - i
  {
    if i == |content| then start
    else
      var c := content[i];
      var depth' := depth + DepthStep(c);
      var found' := found || c == '[';
      if c == ']' && found && depth' == 0 then i + 1
      else ScanFrom(content, start, i + 1, depth', found')
  }

  /** The facts the loop carries at index `i`: the count and the flag of `content[start..i]`, and no stop yet. */
  ghost predicate ScanState(content: string, start: nat, i: nat, depth: int, found: bool)
  {
    && start <= i <= |content|
    && depth == Depth(content[start..i]) && found == ('[' in content[start..i])
    && forall j :: start <= j < i ==> !ClosesAt(content, start, j)
  }

  /** One iteration that does not stop carries the facts to the next index. */
  lemma {:induction false} ScanAdvance(content: string, start: nat, i: nat, depth: int, found: bool)
    requires ScanState(content, start, i, depth, found) && i < |content|
    requires !(content[i] == ']' && found && depth + DepthStep(content[i]) == 0)
    ensures ScanState(content, start, i + 1, depth + DepthStep(content[i]), found || content[i] == '[')
  {
    ScanStep(content, start, i, depth, found);
  }

  /** Reaching the end without a stop: no `]` after `start` closes the list. */
  lemma {:induction false} ScanFromNoClose(content: string, start: nat, i: nat, depth: int, found: bool)
    requires ScanState(content, start, i, depth, found)
    requires ScanFrom(content, start, i, depth, found) == start
    ensures forall j :: start <= j < |content| ==> !ClosesAt(content, start, j)
    decreases |content| - i
  {
    if i < |content| {
      var c := content[i];
      ScanAdvance(content, start, i, depth, found);
      ScanFromNoClose(content, start, i + 1, depth + DepthStep(c), found || c == '[');
    }
  }

  /** Stopping after index `r - 1`: the `]` there closes the list and is the first that does. */
  lemma {:induction false} ScanFromFirstClose(content: string, start: nat, i: nat, depth: int, found: bool)
    requires ScanState(content, start, i, depth, found)
    requires ScanFrom(content, start, i, depth, found) != start
    ensures var r := ScanFrom(content, start, i, depth, found);
      ClosesAt(content, start, r - 1) && forall j :: start <= j < r - 1 ==> !ClosesAt(content, start, j)
    decreases |content| - i
  {
    if i < |content| {
      var c := content[i];
      if c == ']' && found && depth + DepthStep(c) == 0 {
        ScanStep(content, start, i, depth, found);
      } else {
        ScanAdvance(content, start, i, depth, found);
        ScanFromFirstClose(content, start, i + 1, depth + DepthStep(c), found || c == '[');
      }
    }
  }

  /**
   * `end_idx`: one past the first `]` that closes the list opened after
   * `start`, or `start` itself when the list is never closed.
   */
  function ListEnd(content: string, start: nat): (r: nat)
    requires start <= |content|
    ensures start <= r <= |content|
    ensures r == start <==> forall j :: start <= j < |content| ==> !ClosesAt(content, start, j)
    ensures r != start ==> ClosesAt(content, start, r - 1)
    ensures r != start ==> forall j :: start <= j < r - 1 ==> !ClosesAt(content, start, j)
  {
    assert content[start..start] == [];
    assert ScanState(content, start, start, 0, false);
    var r := ScanFrom(content, start, start, 0, false);
    assert r == start ==> forall j :: start <= j < |content| ==> !ClosesAt(content, start, j) by {
      if r == start {
        ScanFromNoClose(content, start, start, 0, false);
      }
    }
    assert r != start ==> ClosesAt(content, start, r - 1) && forall j :: start <= j < r - 1 ==> !ClosesAt(content, start, j) by {
      if r != start {
        ScanFromFirstClose(content, start, start, 0, false);
      }
    }
    r
  }

  // ---------------------------------------------------------------------
  // The splice and the two handlers
  // ---------------------------------------------------------------------

  /** What the handlers send back: an HTTP status code and a detail message. */
  datatype HttpError = HttpError(status: nat, detail: string)

  /** A successful handler's reply. */
  datatype Reply = Reply(message: string, count: nat)

  const FileMissingDetail := "Crawler patterns file not found"
  const MissingListMessage := "Could not find LLM_CRAWLER_PATTERNS variable in the file"

  /**
   * `out` is `content` with the span `start..end` replaced by `block`: the
   * text before `start` and from `end` on is kept as it was.
   */
  predicate SplicedAt(out: string, content: string, start: nat, end: nat, block: string)
    requires start <= end <= |content|
  {
    && |out| == start + |block| + (|content| - end)
    && out[..start] == content[..start]
    && out[start..start + |block|] == block
    && out[start + |block|..] == content[end..]
  }

  /** The new file content for the rendered list `block`, or None when the header is missing. */
  function Splice(content: string, block: string): (r: Option<string>)
    ensures r.None? <==> !Contains(content, ListHeader)
    ensures r.Some? ==> Find(content, ListHeader).Some?
    ensures r.Some? ==>
      SplicedAt(r.value, content, Find(content, ListHeader).value,
                ListEnd(content, Find(content, ListHeader).value), block)
  {
    ContainsIffWindow(content, ListHeader);
    match Find(content, ListHeader)
    case None => None
    case Some(start) =>
      ContainsAt(content, ListHeader, start);
      var end := ListEnd(content, start);
      var out := content[..start] + block + content[end..];
      assert out[..start] == content[..start];
      assert out[start..start + |block|] == block;
      assert out[start + |block|..] == content[end..];
      Some(out)
  }

  /** The default list the reset handler writes back, in its source order. */
  const DefaultPatterns: seq<string> := [
    "GPTBot", "ChatGPT-User", "OAI-SearchBot",
    "ClaudeBot", "Claude-Web", "Anthropic-AI", "Anthropic-AI-Crawler",
    "googlebot", "Google-Extended", "Google-CloudVertexBot",
    "MetaGPT", "LLaMA-Bot", "Meta AI", "Meta-ExternalAgent", "Meta-ExternalFetcher", "Facebookbot",
    "Cohere-AI", "CohereBot", "cohere-ai", "cohere-training-data-crawler",
    "PerplexityBot",
    "Applebot-Extended",
    "Amazonbot",
    "Bytespider",
    "CCBot",
    "AI2Bot", "AI2Bot-Dolma",
    "DuckAssistBot", "Diffbot", "Omgili", "Omgilibot", "webzio-extended", "Youbot", "SemrushBot-OCOB",
    "Petalbot", "PanguBot", "Kangaroo Bot", "Sentibot", "img2dataset", "Meltwater", "Seekr",
    "peer39_crawler", "Scrapy"
  ]

  /** The two handlers: they differ in the list they write and in the texts of their replies. */
  datatype Handler = Update | Reset

  function SuccessMessage(h: Handler): string
  {
    match h
    case Update => "Crawler patterns updated successfully"
    case Reset => "Crawler patterns reset to default values"
  }

  /** What the handler's generic `except Exception` branch puts in front of the exception text. */
  function FailurePrefix(h: Handler): string
  {
    match h
    case Update => "Error updating crawler patterns: "
    case Reset => "Error resetting crawler patterns: "
  }

  /**
   * The body both handlers share, as intended: a missing file is a 404, a
   * file without the list variable a 400, otherwise the spliced content and
   * a reply counting the patterns written.
   */
  function Rewrite(h: Handler, fileExists: bool, content: string, patterns: seq<string>)
    : (r: Result<(string, Reply), HttpError>)
    ensures !fileExists ==> r == Failure(HttpError(404, FileMissingDetail))
    ensures fileExists && !Contains(content, ListHeader) ==> r == Failure(HttpError(400, MissingListMessage))
    ensures r.Success? <==> fileExists && Contains(content, ListHeader)
    ensures r.Success? ==> Some(r.value.0) == Splice(content, RenderList(GroupByCategory(patterns)))
    ensures r.Success? ==> r.value.1 == Reply(SuccessMessage(h), |patterns|)
  {
    if !fileExists then Failure(HttpError(404, FileMissingDetail))
    else
      match Splice(content, RenderList(GroupByCategory(patterns)))
      case None => Failure(HttpError(400, MissingListMessage))
      case Some(out) => Success((out, Reply(SuccessMessage(h), |patterns|)))
  }

  /**
   * The same body as written: the 404 is raised inside the `try` whose
   * `except Exception` catches it again, so it leaves as a 500 whose detail
   * carries the string form of the first exception, "404: " and its detail.
   */
  function RewriteAsWritten(h: Handler, fileExists: bool, content: string, patterns: seq<string>)
    : (r: Result<(string, Reply), HttpError>)
    ensures fileExists ==> r == Rewrite(h, fileExists, content, patterns)
    ensures !fileExists ==> r.Failure? && r.error.status == 500 && EndsWith(r.error.detail, FileMissingDetail)
    ensures !fileExists ==> StartsWith(r.error.detail, FailurePrefix(h))
  {
    if !fileExists then
      var detail := FailurePrefix(h) + "404: " + FileMissingDetail;
      assert detail[|detail| - |FileMissingDetail|..] == FileMissingDetail;
      assert detail[..|FailurePrefix(h)|] == FailurePrefix(h);
      Failure(HttpError(500, detail))
    else Rewrite(h, fileExists, content, patterns)
  }

  /** A missing pattern file never produces the 404 the handler raises for it. */
  lemma {:induction false} MissingFileIsNot404(h: Handler, content: string, patterns: seq<string>)
    ensures RewriteAsWritten(h, false, content, patterns).error.status == 500
    ensures Rewrite(h, false, content, patterns).error.status == 404
  {
  }

  /**
   * `update_crawler_patterns` as written: the posted list replaces the one
   * in the file; a missing file leaves as a 500.
   */
  function UpdatePatterns(fileExists: bool, content: string, patterns: seq<string>): (r: Result<(string, Reply), HttpError>)
    ensures !fileExists ==> r.Failure? && r.error.status == 500 && EndsWith(r.error.detail, FileMissingDetail)
    ensures !fileExists ==> StartsWith(r.error.detail, "Error updating crawler patterns: ")
    ensures fileExists && !Contains(content, ListHeader) ==> r == Failure(HttpError(400, MissingListMessage))
    ensures r.Success? <==> fileExists && Contains(content, ListHeader)
    ensures r.Success? ==> r.value.1 == Reply("Crawler patterns updated successfully", |patterns|)
    ensures r.Success? ==> Some(r.value.0) == Splice(content, RenderList(GroupByCategory(patterns)))
  {
    RewriteAsWritten(Update, fileExists, content, patterns)
  }

  /**
   * `reset_crawler_patterns` as written: the default list replaces the one
   * in the file; a missing file leaves as a 500.
   */
  function ResetPatterns(fileExists: bool, content: string): (r: Result<(string, Reply), HttpError>)
    ensures !fileExists ==> r.Failure? && r.error.status == 500 && EndsWith(r.error.detail, FileMissingDetail)
    ensures !fileExists ==> StartsWith(r.error.detail, "Error resetting crawler patterns: ")
    ensures fileExists && !Contains(content, ListHeader) ==> r == Failure(HttpError(400, MissingListMessage))
    ensures r.Success? <==> fileExists && Contains(content, ListHeader)
    ensures r.Success? ==> r.value.1 == Reply("Crawler patterns reset to default values", 43)
    ensures r.Success? ==> Some(r.value.0) == Splice(content, RenderList(GroupByCategory(DefaultPatterns)))
  {
    RewriteAsWritten(Reset, fileExists, content, DefaultPatterns)
  }

  /**
   * An unclosed list is not removed: `end_idx` stays at the header, so the
   * new list is inserted in front of the old text, which is kept.
   */
  lemma {:induction false} UnclosedListKept(content: string, block: string)
    requires Find(content, ListHeader).Some?
    requires forall j :: Find(content, ListHeader).value <= j < |content| ==> !ClosesAt(content, Find(content, ListHeader).value, j)
    ensures Splice(content, block) ==
      Some(content[..Find(content, ListHeader).value] + block + content[Find(content, ListHeader).value..])
  {
    var start := Find(content, ListHeader).value;
    ContainsAt(content, ListHeader, start);
    assert ListEnd(content, start) == start;
    SplicedAtIs(Splice(content, block).value, content, start, start, block);
  }

  lemma {:induction false} SplicedAtIs(out: string, content: string, start: nat, end: nat, block: string)
    requires start <= end <= |content|
    requires SplicedAt(out, content, start, end, block)
    ensures out == content[..start] + block + content[end..]
  {
    assert out == out[..start] + out[start..start + |block|] + out[start + |block|..];
  }

  /** Neither the header nor bracket-free items hold a `]`, so nothing before the list's `]` stops the scan. */
  lemma {:induction false} FlatListNoEarlierClose(pre: string, items: string, rest: string)
    requires ']' !in items
    ensures var content := pre + ListHeader + items + "]" + rest;
      forall j :: |pre| <= j < |pre| + |ListHeader| + |items| ==> !ClosesAt(content, |pre|, j)
  {
    var content := pre + ListHeader + items + "]" + rest;
    var start := |pre|;
    HeaderBrackets();
    forall j | start <= j < start + |ListHeader| + |items|
      ensures content[j] != ']'
    {
      if j < start + |ListHeader| {
        assert content[j] == ListHeader[j - start];
      } else {
        assert content[j] == items[j - start - |ListHeader|];
      }
    }
  }

  /** Behind a header, a list whose items hold no brackets ends right after its `]`. */
  lemma {:induction false} FlatListEnd(pre: string, items: string, rest: string)
    requires '[' !in items && ']' !in items
    ensures ListEnd(pre + ListHeader + items + "]" + rest, |pre|) == |pre| + |ListHeader| + |items| + 1
  {
    var content := pre + ListHeader + items + "]" + rest;
    var start := |pre|;
    var close := |pre| + |ListHeader| + |items|;
    FlatListNoEarlierClose(pre, items, rest);
    HeaderBrackets();
    assert content[start..close + 1] == ListHeader + items + "]";
    DepthAppend(ListHeader, items);
    DepthAppend(ListHeader + items, "]");
    DepthWithoutBrackets(items);
    assert Depth("]") == -1;
    assert content[start..close][|ListHeader| - 1] == '[';
    assert ClosesAt(content, start, close);
  }

  /**
   * The intended case: a list with no brackets inside its items is replaced
   * exactly, and the text before the header and after the `]` is kept.
   */
  lemma {:induction false} FlatListReplaced(pre: string, items: string, rest: string, block: string)
    requires '[' !in items && ']' !in items
    requires Find(pre + ListHeader + items + "]" + rest, ListHeader) == Some(|pre|)
    ensures Splice(pre + ListHeader + items + "]" + rest, block) == Some(pre + block + rest)
  {
    var content := pre + ListHeader + items + "]" + rest;
    ContainsAt(content, ListHeader, |pre|);
    FlatListEnd(pre, items, rest);
    var end := |pre| + |ListHeader| + |items| + 1;
    SplicedAtIs(Splice(content, block).value, content, |pre|, end, block);
    assert content[..|pre|] == pre;
    assert content[end..] == rest;
  }

  /** The header has one bracket, its last character. */
  lemma {:induction false} HeaderBrackets()
    ensures ']' !in ListHeader && Depth(ListHeader) == 1 && ListHeader[|ListHeader| - 1] == '['
    ensures forall j :: 0 <= j < |ListHeader| - 1 ==> ListHeader[j] != '['
  {
    DepthWithoutBrackets(ListHeader[..|ListHeader| - 1]);
  }

  /** "MetaGPT" is filed under OpenAI: its "GPT" matches before the Meta keywords are tried. */
  lemma {:induction false} MetaGptFiledUnderOpenAI(p: string)
    requires p == "MetaGPT"
    ensures CategoryOf(p) == "OpenAI"
  {
    assert Lower(p) == "metagpt";
    assert Lower("GPT") == "gpt";
    assert OccursAt(Lower(p), Lower("GPT"), 4);
    ContainsAt(Lower(p), Lower("GPT"), 4);
    assert KeywordIn(p, Categories[0].keywords[0]);
    assert FirstCategory(p, 0);
  }
}

=== FILE: crawler_database.dfy ===
/**
 * `CrawlerDatabase`, the provider-organised detector that the parsing
 * pipeline does not call: its `is_crawler` test (known fragments, then
 * generic bot words unless a browser token is present) and the order of
 * the stages of its `extract_crawler_name`. The two regular-expression
 * stages are given functions.
 */
module CrawlerDatabase {
  import opened Wrappers
  import opened Text
  import opened SeqUtil
  import CrawlerDetection

  /** `patterns_by_provider`, in dictionary (insertion) order. */
  const PatternsByProvider: seq<(string, seq<string>)> := [
    ("openai", ["ChatGPT-User", "OpenAI-GPT", "GPTBot"]),
    ("google", ["Google-Extended", "Googlebot", "Google-Extended/2.0"]),
    ("anthropic", ["Claude-Web", "Anthropic-AI", "Claude/", "Anthropic-AI-Crawler"]),
    ("meta", ["MetaGPT", "LLaMA-Bot", "Meta AI"]),
    ("cohere", ["Cohere-AI", "CohereBot", "cohere-ai"]),
    ("microsoft", ["BingBot", "Bing-AI", "bingbot", "Sydney-AI", "Copilot-Assistant"]),
    ("perplexity", ["Perplexity", "PerplexityBot"]),
    ("research", ["AI-Research-Bot", "ML-Crawler"]),
    ("generic", ["AI-Assistant", "LLM-Crawler", "AIReader", "SentientAI", "AI-Web-Assistant"])
  ]

  /** The pattern lists of the providers, in provider order. */
  function ProviderLists(providers: seq<(string, seq<string>)>): (r: seq<seq<string>>)
    ensures |r| == |providers|
    ensures forall k :: 0 <= k < |providers| ==> r[k] == providers[k].1
  {
    seq(|providers|, k requires 0 <= k < |providers| => providers[k].1)
  }

  /** `_all_patterns`: every provider's patterns, concatenated in provider order. */
  const AllPatterns: seq<string> := Flatten(ProviderLists(PatternsByProvider))

  /** `common_browsers`: already lower case, compared with the lowered user agent. */
  const CommonBrowsers: seq<string> := ["mozilla", "chrome", "safari", "firefox", "edge", "opera", "webkit"]

  /** The generic words `is_crawler` falls back on. */
  const GenericTerms: seq<string> := ["bot", "crawler", "spider", "ai"]

  /** `domain_mappings`, in dictionary order. */
  const DomainMappings: seq<(string, string)> := [
    ("openai.com", "GPTBot"), ("perplexity.ai", "PerplexityBot"),
    ("bing.com/bingbot", "bingbot"), ("anthropic.com", "Anthropic-AI"),
    ("claude.ai", "Claude-Web"), ("cohere.com", "cohere-ai"),
    ("google.com", "Googlebot"), ("meta.com", "MetaGPT")
  ]

  /** `all(browser not in user_agent_lower for browser in common_browsers)`. */
  predicate NoBrowser(uaLower: string)
  {
    forall k :: 0 <= k < |CommonBrowsers| ==> !Contains(uaLower, CommonBrowsers[k])
  }

  /** The generic-term loop: some term occurs and (the same test for every term) no browser does. */
  function AnyGenericTerm(uaLower: string, from: nat): (r: bool)
    requires from <= |GenericTerms|
    ensures r <==> NoBrowser(uaLower) && exists k :: from <= k < |GenericTerms| && Contains(uaLower, GenericTerms[k])
    decreases |GenericTerms| - from
  {
    if from == |GenericTerms| then false
    else if Contains(uaLower, GenericTerms[from]) && NoBrowser(uaLower) then true
    else AnyGenericTerm(uaLower, from + 1)
  }

  /** Some provider fragment occurs in `ua`, ignoring case. */
  predicate KnownFragment(ua: string)
  {
    exists j :: 0 <= j < |AllPatterns| && CrawlerDetection.PatternMatches(ua, AllPatterns[j])
  }

  /** A generic word occurs in the lowered `ua` and no browser token does. */
  predicate GenericOnly(ua: string)
  {
    NoBrowser(Lower(ua)) && exists k :: 0 <= k < |GenericTerms| && Contains(Lower(ua), GenericTerms[k])
  }

  /**
   * `CrawlerDatabase.is_crawler`: a non-empty user agent in which a known
   * fragment occurs (ignoring case), or a generic bot word occurs and no
   * browser token does.
   */
  function IsCrawler(ua: string): (r: bool)
    ensures ua == "" ==> !r
    ensures r <==> ua != "" && (KnownFragment(ua) || GenericOnly(ua))
  {
    if ua == "" then false
    else CrawlerDetection.AnyMatchFrom(AllPatterns, ua, 0) || AnyGenericTerm(Lower(ua), 0)
  }

  /**
   * A user agent with a browser token and none of the known fragments is
   * rejected, whatever generic bot words it holds.
   */
  lemma {:induction false} BrowserWithoutPatternRejected(ua: string, k: nat)
    requires k < |CommonBrowsers| && Contains(Lower(ua), CommonBrowsers[k])
    requires forall j :: 0 <= j < |AllPatterns| ==> !CrawlerDetection.PatternMatches(ua, AllPatterns[j])
    ensures !IsCrawler(ua)
  {
    assert !NoBrowser(Lower(ua));
  }

  /** Domain `k` occurs in the lowered user agent and maps to `name`. */
  predicate MappedAt(uaLower: string, k: nat, name: string)
  {
    k < |DomainMappings| && Contains(uaLower, DomainMappings[k].0) && name == DomainMappings[k].1
  }

  /** The name of the first mapped domain occurring in the lowered user agent. */
  function DomainName(uaLower: string, from: nat): (r: Option<string>)
    requires from <= |DomainMappings|
    ensures r.None? <==> forall k :: from <= k < |DomainMappings| ==> !Contains(uaLower, DomainMappings[k].0)
    ensures r.Some? ==> exists k :: from <= k < |DomainMappings| && MappedAt(uaLower, k, r.value)
    decreases |DomainMappings| - from
  {
    if from == |DomainMappings| then None
    else if Contains(uaLower, DomainMappings[from].0) then
      assert MappedAt(uaLower, from, DomainMappings[from].1);
      Some(DomainMappings[from].1)
    else DomainName(uaLower, from + 1)
  }

  /**
   * The two regular-expression stages of `extract_crawler_name`, as given
   * functions of the user agent: the `name_extraction_patterns` loop and
   * the bot/crawler/spider look-behind loop. None means the stage fell through.
   */
  datatype NameStages = NameStages(regexName: string -> Option<string>, termName: string -> Option<string>)

  /**
   * `CrawlerDatabase.extract_crawler_name`: the first known fragment,
   * verbatim; else the regex stages; else the first mapped domain; else
   * None, on both paths of the final `is_crawler` test.
   */
  function ExtractCrawlerName(ua: string, stages: NameStages): (r: Option<string>)
    ensures ua == "" ==> r.None?
    ensures ua != "" && CrawlerDetection.FirstMatch(AllPatterns, ua).Some? ==>
      r == Some(AllPatterns[CrawlerDetection.FirstMatch(AllPatterns, ua).value])
    ensures r.Some? && CrawlerDetection.FirstMatch(AllPatterns, ua).None? ==>
      r == stages.regexName(ua) || r == stages.termName(ua) || r == DomainName(Lower(ua), 0)
    ensures ua != "" && CrawlerDetection.FirstMatch(AllPatterns, ua).None? ==>
      && (stages.regexName(ua).Some? ==> r == stages.regexName(ua))
      && (stages.regexName(ua).None? && stages.termName(ua).Some? ==> r == stages.termName(ua))
      && (stages.regexName(ua).None? && stages.termName(ua).None? ==> r == DomainName(Lower(ua), 0))
  {
    if ua == "" then None
    else match CrawlerDetection.FirstMatch(AllPatterns, ua)
      case Some(i) => Some(AllPatterns[i])
      case None =>
        if stages.regexName(ua).Some? then stages.regexName(ua)
        else if stages.termName(ua).Some? then stages.termName(ua)
        else match DomainName(Lower(ua), 0)
          case Some(name) => Some(name)
          case None => if IsCrawler(ua) then None else None
  }

  /**
   * When no earlier stage names the agent, the result is None whether or
   * not `is_crawler` accepts it: the generic-name branch returns None too.
   */
  lemma {:induction false} FinalBranchIsNone(ua: string, stages: NameStages)
    requires forall j :: 0 <= j < |AllPatterns| ==> !CrawlerDetection.PatternMatches(ua, AllPatterns[j])
    requires stages.regexName(ua).None? && stages.termName(ua).None?
    requires forall k :: 0 <= k < |DomainMappings| ==> !Contains(Lower(ua), DomainMappings[k].0)
    ensures ExtractCrawlerName(ua, stages).None?
  {
  }

  /** A name from the fragment stage is always a fragment that `is_crawler` accepts. */
  lemma {:induction false} FragmentNameIsCrawler(ua: string, stages: NameStages)
    requires ua != "" && CrawlerDetection.FirstMatch(AllPatterns, ua).Some?
    ensures IsCrawler(ua)
    ensures ExtractCrawlerName(ua, stages).Some?
    ensures ExtractCrawlerName(ua, stages).value in AllPatterns
    ensures CrawlerDetection.PatternMatches(ua, ExtractCrawlerName(ua, stages).value)
  {
    var i := CrawlerDetection.FirstMatch(AllPatterns, ua).value;
    assert CrawlerDetection.PatternMatches(ua, AllPatterns[i]);
  }
}

=== FILE: crawler_detection.dfy ===
/**
 * Crawler classification: case-insensitive substring matching of a
 * user agent against an ordered fragment list. `IsLlmCrawler` decides
 * whether a request is kept; `ExtractCrawlerName` names it by the first
 * fragment (in list order) that occurs in it.
 */
module CrawlerDetection {
  import opened Wrappers
  import opened Text
  import opened CrawlerPatterns

  /** `pattern.lower() in user_agent.lower()`. */
  predicate PatternMatches(ua: string, pattern: string)
  {
    Contains(Lower(ua), Lower(pattern))
  }

  /** The index of the first fragment of `pats` (from `from` on) that matches `ua`. */
  function FirstMatchFrom(pats: seq<string>, ua: string, from: nat): (r: Option<nat>)
    requires from <= |pats|
    ensures r.Some? ==> from <= r.value < |pats| && PatternMatches(ua, pats[r.value])
    ensures r.Some? ==> forall j :: from <= j < r.value ==> !PatternMatches(ua, pats[j])
    ensures r.None? ==> forall j :: from <= j < |pats| ==> !PatternMatches(ua, pats[j])
    decreases |pats| - from
  {
    if from == |pats| then None
    else if PatternMatches(ua, pats[from]) then Some(from)
    else FirstMatchFrom(pats, ua, from + 1)
  }

  function FirstMatch(pats: seq<string>, ua: string): (r: Option<nat>)
    ensures r.Some? ==> r.value < |pats| && PatternMatches(ua, pats[r.value])
    ensures r.Some? ==> forall j :: 0 <= j < r.value ==> !PatternMatches(ua, pats[j])
    ensures r.None? ==> forall j :: 0 <= j < |pats| ==> !PatternMatches(ua, pats[j])
  {
    FirstMatchFrom(pats, ua, 0)
  }

  /** The first-match index is the unique index that matches with no earlier match. */
  lemma {:induction false} FirstMatchUnique(pats: seq<string>, ua: string, i: nat)
    requires i < |pats| && PatternMatches(ua, pats[i])
    requires forall j :: 0 <= j < i ==> !PatternMatches(ua, pats[j])
    ensures FirstMatch(pats, ua) == Some(i)
  {
  }

  /** The loop `for pattern in pats: if pattern.lower() in ua_lower: return True`. */
  function AnyMatchFrom(pats: seq<string>, ua: string, from: nat): (r: bool)
    requires from <= |pats|
    ensures r <==> exists j :: from <= j < |pats| && PatternMatches(ua, pats[j])
    decreases |pats| - from
  {
    if from == |pats| then false
    else if PatternMatches(ua, pats[from]) then true
    else AnyMatchFrom(pats, ua, from + 1)
  }

  /** `is_llm_crawler`: a non-empty user agent in which some listed fragment occurs. */
  function IsLlmCrawler(ua: string): (r: bool)
    ensures r <==> ua != "" && exists j :: 0 <= j < |LlmCrawlerPatterns| && PatternMatches(ua, LlmCrawlerPatterns[j])
  {
    if ua == "" then false else AnyMatchFrom(LlmCrawlerPatterns, ua, 0)
  }

  /** `extract_crawler_name`: the first listed fragment occurring in `ua`, verbatim. */
  function ExtractCrawlerName(ua: string): (r: Option<string>)
    ensures ua == "" ==> r == None
    ensures r.Some? ==> r.value in LlmCrawlerPatterns && PatternMatches(ua, r.value)
    ensures r.Some? <==> IsLlmCrawler(ua)
    ensures r.Some? ==> exists i :: 0 <= i < |LlmCrawlerPatterns| && LlmCrawlerPatterns[i] == r.value
                                   && forall j :: 0 <= j < i ==> !PatternMatches(ua, LlmCrawlerPatterns[j])
  {
    if ua == "" then None
    else match FirstMatch(LlmCrawlerPatterns, ua)
      case None => None
      case Some(i) => Some(LlmCrawlerPatterns[i])
  }

  /** Both results depend on the user agent only through its lowercase form. */
  lemma {:induction false} CaseInsensitive(a: string, b: string)
    requires Lower(a) == Lower(b)
    ensures IsLlmCrawler(a) == IsLlmCrawler(b)
    ensures ExtractCrawlerName(a) == ExtractCrawlerName(b)
  {
    assert |a| == |b|;
    assert forall p :: PatternMatches(a, p) == PatternMatches(b, p);
    var fa := FirstMatch(LlmCrawlerPatterns, a);
    var fb := FirstMatch(LlmCrawlerPatterns, b);
    if fa.Some? {
      FirstMatchUnique(LlmCrawlerPatterns, b, fa.value);
    }
  }

  /** Upper-casing a user agent changes neither decision nor name. */
  lemma {:induction false} UpperCaseInvariant(ua: string)
    ensures IsLlmCrawler(Upper(ua)) == IsLlmCrawler(ua)
    ensures ExtractCrawlerName(Upper(ua)) == ExtractCrawlerName(ua)
  {
    LowerOfUpper(ua);
    CaseInsensitive(Upper(ua), ua);
  }

  /** Adding text around an accepted user agent keeps it accepted. */
  lemma {:induction false} Monotonic(ua: string, ua2: string)
    requires IsLlmCrawler(ua) && Contains(ua2, ua)
    ensures IsLlmCrawler(ua2)
  {
    var j :| 0 <= j < |LlmCrawlerPatterns| && PatternMatches(ua, LlmCrawlerPatterns[j]);
    LowerKeepsContains(ua2, ua);
    ContainsTransitive(Lower(ua2), Lower(ua), Lower(LlmCrawlerPatterns[j]));
    ContainsLength(ua2, ua);
  }

  /**
   * A fragment that contains an earlier fragment (ignoring case) can never
   * be the first match: the earlier one always matches first.
   */
  lemma {:induction false} ShadowedNeverFirst(pats: seq<string>, ua: string, i: nat, j: nat)
    requires i < j < |pats|
    requires Contains(Lower(pats[j]), Lower(pats[i]))
    ensures FirstMatch(pats, ua) != Some(j)
  {
    if PatternMatches(ua, pats[j]) {
      ContainsTransitive(Lower(ua), Lower(pats[j]), Lower(pats[i]));
    }
  }

  // ---------------------------------------------------------------------
  // A case-insensitive scan that the verifier can evaluate on literals,
  // proved equal to `PatternMatches`; used for the facts about the list.
  // ---------------------------------------------------------------------

  predicate MatchAtCI(s: string, p: string, i: nat, k: nat)
    decreases |p| - k
  {
    k >= |p| || (i + k < |s| && LowerChar(s[i + k]) == LowerChar(p[k]) && MatchAtCI(s, p, i, k + 1))
  }

  predicate ContainsFromCI(s: string, p: string, i: nat)
    decreases |s| - i
  {
    i + |p| <= |s| && (MatchAtCI(s, p, i, 0) || ContainsFromCI(s, p, i + 1))
  }

  lemma {:induction false} MatchAtCIIff(s: string, p: string, i: nat, k: nat)
    requires k <= |p| && i + |p| <= |s|
    ensures MatchAtCI(s, p, i, k) <==> forall m :: k <= m < |p| ==> LowerChar(s[i + m]) == LowerChar(p[m])
    decreases |p| - k
  {
    if k < |p| {
      MatchAtCIIff(s, p, i, k + 1);
    }
  }

  lemma {:induction false} ContainsFromCIIff(s: string, p: string, i: nat)
    ensures ContainsFromCI(s, p, i) <==> exists m: nat :: i <= m && OccursAt(Lower(s), Lower(p), m)
    decreases |s| - i
  {
    if i + |p| <= |s| {
      MatchAtCIIff(s, p, i, 0);
      assert MatchAtCI(s, p, i, 0) <==> OccursAt(Lower(s), Lower(p), i);
      if MatchAtCI(s, p, i, 0) {
      } else {
        ContainsFromCIIff(s, p, i + 1);
        if exists m: nat :: i <= m && OccursAt(Lower(s), Lower(p), m) {
          var m: nat :| i <= m && OccursAt(Lower(s), Lower(p), m);
          assert i + 1 <= m;
        }
      }
    } else {
      assert forall m: nat :: i <= m ==> !OccursAt(Lower(s), Lower(p), m);
    }
  }

  /** The literal-friendly scan decides `PatternMatches`. */
  lemma {:induction false} ContainsCIIff(s: string, p: string)
    ensures ContainsFromCI(s, p, 0) <==> PatternMatches(s, p)
  {
    ContainsFromCIIff(s, p, 0);
    ContainsIffWindow(Lower(s), Lower(p));
    if ContainsFromCI(s, p, 0) {
      var m: nat :| 0 <= m && OccursAt(Lower(s), Lower(p), m);
      ContainsAt(Lower(s), Lower(p), m);
    }
    if PatternMatches(s, p) {
      var m: nat :| OccursAt(Lower(s), Lower(p), m);
      assert 0 <= m && OccursAt(Lower(s), Lower(p), m);
      assert exists m': nat :: 0 <= m' && OccursAt(Lower(s), Lower(p), m');
      assert ContainsFromCI(s, p, 0);
    }
  }

  /** A fragment with a character that the user agent lacks (ignoring case) does not match. */
  lemma {:induction false} NoMatchByChar(ua: string, p: string, k: nat, c: char)
    requires k < |p| && LowerChar(p[k]) == c
    requires forall i :: 0 <= i < |ua| ==> LowerChar(ua[i]) != c
    ensures !PatternMatches(ua, p)
  {
    if PatternMatches(ua, p) {
      ContainsHasChar(Lower(ua), Lower(p), k);
    }
  }

  /** A fragment that begins the user agent (ignoring case) matches it. */
  lemma {:induction false} PrefixMatches(ua: string, p: string)
    requires |p| <= |ua|
    requires forall k :: 0 <= k < |p| ==> LowerChar(ua[k]) == LowerChar(p[k])
    ensures PatternMatches(ua, p)
  {
    assert Lower(ua)[0..|p|] == Lower(p);
    ContainsAt(Lower(ua), Lower(p), 0);
  }
}

=== FILE: crawler_list_facts.dfy ===
/**
 * Facts about the concrete fragment list: which entries name which user
 * agents, and which entries can never be returned because an earlier
 * entry begins them.
 */
module CrawlerListFacts {
  import opened Wrappers
  import opened Text
  import opened CrawlerPatterns
  import opened CrawlerDetection

  /** No fragment of `pats` occurs in `ua`, ignoring case. */
  predicate NoneMatch(ua: string, pats: seq<string>)
  {
    forall j {:trigger PatternMatches(ua, pats[j])} :: 0 <= j < |pats| ==> !PatternMatches(ua, pats[j])
  }

  lemma {:induction false} NoneMatchAppend(ua: string, a: seq<string>, b: seq<string>)
    requires NoneMatch(ua, a) && NoneMatch(ua, b)
    ensures NoneMatch(ua, a + b)
  {
    forall j | 0 <= j < |a + b|
      ensures !PatternMatches(ua, (a + b)[j])
    {
      if j < |a| {
        assert (a + b)[j] == a[j];
      } else {
        assert (a + b)[j] == b[j - |a|];
      }
    }
  }

  /**
   * Each fragment of `pats` has a character (the `ks[j]`-th, lower-cased
   * `cs[j]`) among `missing`, and no character of `ua` lower-cases into
   * `missing`: so no fragment occurs in `ua`.
   */
  lemma {:induction false} NoneMatchByChars(ua: string, pats: seq<string>, ks: seq<nat>, cs: string, missing: string)
    requires |ks| == |cs| == |pats|
    requires forall j :: 0 <= j < |pats| ==> ks[j] < |pats[j]| && LowerChar(pats[j][ks[j]]) == cs[j]
    requires forall j :: 0 <= j < |cs| ==> cs[j] in missing
    requires forall i :: 0 <= i < |ua| ==> LowerChar(ua[i]) !in missing
    ensures NoneMatch(ua, pats)
  {
    forall j | 0 <= j < |pats|
      ensures !PatternMatches(ua, pats[j])
    {
      NoMatchByChar(ua, pats[j], ks[j], cs[j]);
    }
  }

  /** When no fragment of `pre` matches, the first match in `pre + rest` is the first match in `rest`, shifted. */
  lemma {:induction false} FirstMatchAfter(ua: string, pre: seq<string>, rest: seq<string>, k: nat)
    requires NoneMatch(ua, pre) && FirstMatch(rest, ua) == Some(k)
    ensures FirstMatch(pre + rest, ua) == Some(|pre| + k)
    ensures (pre + rest)[|pre| + k] == rest[k]
  {
    assert (pre + rest)[|pre| + k] == rest[k];
    forall j | 0 <= j < |pre| + k
      ensures !PatternMatches(ua, (pre + rest)[j])
    {
      if j < |pre| {
        assert (pre + rest)[j] == pre[j];
      } else {
        assert (pre + rest)[j] == rest[j - |pre|];
      }
    }
    FirstMatchUnique(pre + rest, ua, |pre| + k);
  }

  /** The entry at `i` is the first match when it matches and none before it does. */
  lemma {:induction false} FirstMatchAt(ua: string, pats: seq<string>, i: nat)
    requires i < |pats| && NoneMatch(ua, pats[..i]) && PatternMatches(ua, pats[i])
    ensures FirstMatch(pats, ua) == Some(i)
  {
    assert forall j :: 0 <= j < i ==> pats[..i][j] == pats[j];
    FirstMatchUnique(pats, ua, i);
  }

  /** Fragments appended after the first match do not change it. */
  lemma {:induction false} FirstMatchExtends(ua: string, pre: seq<string>, rest: seq<string>, i: nat)
    requires FirstMatch(pre, ua) == Some(i)
    ensures FirstMatch(pre + rest, ua) == Some(i)
    ensures (pre + rest)[i] == pre[i]
  {
    assert forall j :: 0 <= j <= i ==> (pre + rest)[j] == pre[j];
    FirstMatchUnique(pre + rest, ua, i);
  }

  /** The name is the entry that matches first. */
  lemma {:induction false} NamedByFirstMatch(ua: string, i: nat, name: string)
    requires ua != "" && FirstMatch(LlmCrawlerPatterns, ua) == Some(i)
    requires i < |LlmCrawlerPatterns| && LlmCrawlerPatterns[i] == name
    ensures ExtractCrawlerName(ua) == Some(name)
  {
  }

  /** Matching nothing group by group is matching nothing in the groups up to Common Crawl. */
  lemma {:induction false} NoneMatchThroughCommonCrawl(ua: string)
    requires NoneMatch(ua, OpenAi) && NoneMatch(ua, Anthropic) && NoneMatch(ua, Google) && NoneMatch(ua, Meta)
    requires NoneMatch(ua, Cohere) && NoneMatch(ua, Perplexity) && NoneMatch(ua, Apple) && NoneMatch(ua, Amazon)
    requires NoneMatch(ua, ByteDance) && NoneMatch(ua, CommonCrawl)
    ensures NoneMatch(ua, OpenAi + Anthropic + Google + Meta + Cohere + Perplexity + Apple + Amazon + ByteDance
      + CommonCrawl)
  {
    NoneMatchAppend(ua, OpenAi, Anthropic);
    NoneMatchAppend(ua, OpenAi + Anthropic, Google);
    NoneMatchAppend(ua, OpenAi + Anthropic + Google, Meta);
    NoneMatchAppend(ua, OpenAi + Anthropic + Google + Meta, Cohere);
    NoneMatchAppend(ua, OpenAi + Anthropic + Google + Meta + Cohere, Perplexity);
    NoneMatchAppend(ua, OpenAi + Anthropic + Google + Meta + Cohere + Perplexity, Apple);
    NoneMatchAppend(ua, OpenAi + Anthropic + Google + Meta + Cohere + Perplexity + Apple, Amazon);
    NoneMatchAppend(ua, OpenAi + Anthropic + Google + Meta + Cohere + Perplexity + Apple + Amazon, ByteDance);
    NoneMatchAppend(ua, OpenAi + Anthropic + Google + Meta + Cohere + Perplexity + Apple + Amazon + ByteDance,
      CommonCrawl);
  }

  /** A first match found in a prefix of groups is the first match of the whole list. */
  lemma {:induction false} FirstMatchInEarlyGroups(ua: string, i: nat)
    requires FirstMatch(OpenAi + Anthropic + Google, ua) == Some(i)
    ensures FirstMatch(LlmCrawlerPatterns, ua) == Some(i)
    ensures LlmCrawlerPatterns[i] == (OpenAi + Anthropic + Google)[i]
  {
    FirstMatchExtends(ua, OpenAi + Anthropic + Google, Meta, i);
    FirstMatchExtends(ua, OpenAi + Anthropic + Google + Meta, Cohere, i);
    FirstMatchExtends(ua, OpenAi + Anthropic + Google + Meta + Cohere, Perplexity, i);
    FirstMatchExtends(ua, OpenAi + Anthropic + Google + Meta + Cohere + Perplexity, Apple, i);
    FirstMatchExtends(ua, OpenAi + Anthropic + Google + Meta + Cohere + Perplexity + Apple, Amazon, i);
    FirstMatchExtends(ua, OpenAi + Anthropic + Google + Meta + Cohere + Perplexity + Apple + Amazon, ByteDance, i);
    FirstMatchExtends(ua, OpenAi + Anthropic + Google + Meta + Cohere + Perplexity + Apple + Amazon + ByteDance,
      CommonCrawl, i);
    FirstMatchExtends(ua, OpenAi + Anthropic + Google + Meta + Cohere + Perplexity + Apple + Amazon + ByteDance
      + CommonCrawl, AllenAi, i);
    FirstMatchExtends(ua, OpenAi + Anthropic + Google + Meta + Cohere + Perplexity + Apple + Amazon + ByteDance
      + CommonCrawl + AllenAi, Others, i);
  }

  /** A user agent no entry before the Allen AI group matches is named by its first match in that group. */
  lemma {:induction false} NamedInAllenAi(ua: string, k: nat)
    requires ua != ""
    requires NoneMatch(ua, OpenAi + Anthropic + Google + Meta + Cohere + Perplexity + Apple + Amazon + ByteDance + CommonCrawl)
    requires FirstMatch(AllenAi, ua) == Some(k)
    ensures ExtractCrawlerName(ua) == Some(AllenAi[k])
  {
    var pre := OpenAi + Anthropic + Google + Meta + Cohere + Perplexity + Apple + Amazon + ByteDance + CommonCrawl;
    FirstMatchAfter(ua, pre, AllenAi, k);
    FirstMatchExtends(ua, pre + AllenAi, Others, |pre| + k);
    NamedByFirstMatch(ua, |pre| + k, AllenAi[k]);
  }

  /** A user agent no entry before the last group matches is named by its first match in that group. */
  lemma {:induction false} NamedInOthers(ua: string, k: nat)
    requires ua != ""
    requires NoneMatch(ua, OpenAi + Anthropic + Google + Meta + Cohere + Perplexity + Apple + Amazon + ByteDance + CommonCrawl)
    requires NoneMatch(ua, AllenAi)
    requires FirstMatch(Others, ua) == Some(k)
    ensures ExtractCrawlerName(ua) == Some(Others[k])
  {
    var pre := OpenAi + Anthropic + Google + Meta + Cohere + Perplexity + Apple + Amazon + ByteDance + CommonCrawl;
    NoneMatchAppend(ua, pre, AllenAi);
    FirstMatchAfter(ua, pre + AllenAi, Others, k);
    NamedByFirstMatch(ua, |pre + AllenAi| + k, Others[k]);
  }

  // ---------------------------------------------------------------------
  // "AI2Bot-Dolma"
  // ---------------------------------------------------------------------

  /** Lower-cased characters that "AI2Bot-Dolma" lacks. */
  const Ai2BotDolmaMissing := "gcsnepzyf"

  lemma {:induction false} Ai2BotDolmaLacks()
    ensures forall i :: 0 <= i < |"AI2Bot-Dolma"| ==> LowerChar("AI2Bot-Dolma"[i]) !in Ai2BotDolmaMissing
  {
  }

  /** Every character of "LLaMA-Bot" occurs in "AI2Bot-Dolma", but the fragment does not. */
  lemma {:induction false} LlamaBotMissesAi2BotDolma()
    ensures !PatternMatches("AI2Bot-Dolma", "LLaMA-Bot")
  {
    ContainsCIIff("AI2Bot-Dolma", "LLaMA-Bot");
    assert !ContainsFromCI("AI2Bot-Dolma", "LLaMA-Bot", 0);
  }

  lemma {:induction false} Ai2BotDolmaMissesMeta()
    ensures NoneMatch("AI2Bot-Dolma", Meta)
  {
    var ua := "AI2Bot-Dolma";
    Ai2BotDolmaLacks();
    LlamaBotMissesAi2BotDolma();
    forall j | 0 <= j < |Meta|
      ensures !PatternMatches(ua, Meta[j])
    {
      if j == 5 {
        NoMatchByChar(ua, Meta[j], 0, 'f');
      } else if j != 1 {
        NoMatchByChar(ua, Meta[j], 1, 'e');
      }
    }
  }

  lemma {:induction false} Ai2BotDolmaMissesFirstGroups()
    ensures NoneMatch("AI2Bot-Dolma", OpenAi) && NoneMatch("AI2Bot-Dolma", Anthropic)
    ensures NoneMatch("AI2Bot-Dolma", Google) && NoneMatch("AI2Bot-Dolma", Cohere)
  {
    var ua := "AI2Bot-Dolma";
    var m := Ai2BotDolmaMissing;
    Ai2BotDolmaLacks();
    NoneMatchByChars(ua, OpenAi, [0, 0, 4], "gcs", m);
    NoneMatchByChars(ua, Anthropic, [0, 0, 1, 1], "ccnn", m);
    NoneMatchByChars(ua, Google, [0, 0, 0], "ggg", m);
    NoneMatchByChars(ua, Cohere, [0, 0, 0, 0], "cccc", m);
  }

  lemma {:induction false} Ai2BotDolmaMissesSingleGroups()
    ensures NoneMatch("AI2Bot-Dolma", Perplexity) && NoneMatch("AI2Bot-Dolma", Apple)
    ensures NoneMatch("AI2Bot-Dolma", Amazon) && NoneMatch("AI2Bot-Dolma", ByteDance)
    ensures NoneMatch("AI2Bot-Dolma", CommonCrawl)
  {
    var ua := "AI2Bot-Dolma";
    var m := Ai2BotDolmaMissing;
    Ai2BotDolmaLacks();
    NoneMatchByChars(ua, Perplexity, [0], "p", m);
    NoneMatchByChars(ua, Apple, [1], "p", m);
    NoneMatchByChars(ua, Amazon, [3], "z", m);
    NoneMatchByChars(ua, ByteDance, [1], "y", m);
    NoneMatchByChars(ua, CommonCrawl, [0], "c", m);
  }

  /** "AI2Bot-Dolma" is named by the shorter "AI2Bot", listed first. */
  lemma {:induction false} Ai2BotDolmaNamedAi2Bot()
    ensures ExtractCrawlerName("AI2Bot-Dolma") == Some("AI2Bot")
  {
    var ua := "AI2Bot-Dolma";
    Ai2BotDolmaMissesFirstGroups();
    Ai2BotDolmaMissesMeta();
    Ai2BotDolmaMissesSingleGroups();
    NoneMatchThroughCommonCrawl(ua);
    PrefixMatches(ua, AllenAi[0]);
    FirstMatchUnique(AllenAi, ua, 0);
    NamedInAllenAi(ua, 0);
  }

  // ---------------------------------------------------------------------
  // "Anthropic-AI-Crawler"
  // ---------------------------------------------------------------------

  lemma {:induction false} AnthropicCrawlerLacks()
    ensures forall i :: 0 <= i < |"Anthropic-AI-Crawler"| ==> LowerChar("Anthropic-AI-Crawler"[i]) !in "gsu"
  {
  }

  /** Within its group, "Anthropic-AI" is the first entry to occur in "Anthropic-AI-Crawler". */
  lemma {:induction false} AnthropicCrawlerInGroup()
    ensures NoneMatch("Anthropic-AI-Crawler", OpenAi)
    ensures FirstMatch(Anthropic, "Anthropic-AI-Crawler") == Some(2)
  {
    var ua := "Anthropic-AI-Crawler";
    AnthropicCrawlerLacks();
    NoneMatchByChars(ua, OpenAi, [0, 4, 4], "ggs", "gsu");
    NoneMatchByChars(ua, Anthropic[..2], [3, 3], "uu", "gsu");
    PrefixMatches(ua, Anthropic[2]);
    FirstMatchAt(ua, Anthropic, 2);
  }

  /** "Anthropic-AI-Crawler" is named by the shorter "Anthropic-AI", listed first. */
  lemma {:induction false} AnthropicCrawlerNamedAnthropicAi()
    ensures ExtractCrawlerName("Anthropic-AI-Crawler") == Some("Anthropic-AI")
  {
    var ua := "Anthropic-AI-Crawler";
    AnthropicCrawlerInGroup();
    FirstMatchAfter(ua, OpenAi, Anthropic, 2);
    FirstMatchExtends(ua, OpenAi + Anthropic, Google, |OpenAi| + 2);
    FirstMatchInEarlyGroups(ua, |OpenAi| + 2);
  }

  // ---------------------------------------------------------------------
  // "Omgilibot"
  // ---------------------------------------------------------------------

  /** Lower-cased characters that "Omgilibot" lacks. */
  const OmgilibotMissing := "pcaefyd"

  lemma {:induction false} OmgilibotLacks()
    ensures forall i :: 0 <= i < |"Omgilibot"| ==> LowerChar("Omgilibot"[i]) !in OmgilibotMissing
  {
  }

  lemma {:induction false} OmgilibotMissesFirstGroups()
    ensures NoneMatch("Omgilibot", OpenAi) && NoneMatch("Omgilibot", Anthropic)
    ensures NoneMatch("Omgilibot", Google)
  {
    var ua := "Omgilibot";
    var m := OmgilibotMissing;
    OmgilibotLacks();
    NoneMatchByChars(ua, OpenAi, [1, 0, 1], "pca", m);
    NoneMatchByChars(ua, Anthropic, [0, 0, 0, 0], "ccaa", m);
    NoneMatchByChars(ua, Google, [5, 5, 5], "eee", m);
  }

  lemma {:induction false} OmgilibotMissesMetaGroup()
    ensures NoneMatch("Omgilibot", Meta)
  {
    OmgilibotLacks();
    NoneMatchByChars("Omgilibot", Meta, [1, 2, 1, 1, 1, 0], "eaeeef", OmgilibotMissing);
  }

  lemma {:induction false} OmgilibotMissesMiddleGroups()
    ensures NoneMatch("Omgilibot", Cohere) && NoneMatch("Omgilibot", Perplexity)
    ensures NoneMatch("Omgilibot", Apple) && NoneMatch("Omgilibot", Amazon)
    ensures NoneMatch("Omgilibot", ByteDance) && NoneMatch("Omgilibot", CommonCrawl)
  {
    var ua := "Omgilibot";
    var m := OmgilibotMissing;
    OmgilibotLacks();
    NoneMatchByChars(ua, Cohere, [0, 0, 0, 0], "cccc", m);
    NoneMatchByChars(ua, Perplexity, [0], "p", m);
    NoneMatchByChars(ua, Apple, [0], "a", m);
    NoneMatchByChars(ua, Amazon, [0], "a", m);
    NoneMatchByChars(ua, ByteDance, [1], "y", m);
    NoneMatchByChars(ua, CommonCrawl, [0], "c", m);
  }

  lemma {:induction false} OmgilibotMissesLaterEntries()
    ensures NoneMatch("Omgilibot", AllenAi) && NoneMatch("Omgilibot", Others[..2])
  {
    var ua := "Omgilibot";
    var m := OmgilibotMissing;
    OmgilibotLacks();
    NoneMatchByChars(ua, AllenAi, [0, 0], "aa", m);
    NoneMatchByChars(ua, Others[..2], [0, 0], "dd", m);
  }

  /** "Omgilibot" is named by the shorter "Omgili", listed first. */
  lemma {:induction false} OmgilibotNamedOmgili()
    ensures ExtractCrawlerName("Omgilibot") == Some("Omgili")
  {
    var ua := "Omgilibot";
    OmgilibotMissesFirstGroups();
    OmgilibotMissesMetaGroup();
    OmgilibotMissesMiddleGroups();
    OmgilibotMissesLaterEntries();
    NoneMatchThroughCommonCrawl(ua);
    PrefixMatches(ua, Others[2]);
    FirstMatchAt(ua, Others, 2);
    NamedInOthers(ua, 2);
  }

  // ---------------------------------------------------------------------
  // "Googlebot/2.1"
  // ---------------------------------------------------------------------

  lemma {:induction false} GooglebotLacks()
    ensures forall i :: 0 <= i < |"Googlebot/2.1"| ==> LowerChar("Googlebot/2.1"[i]) !in "pca"
  {
  }

  /** No entry of the OpenAI and Anthropic groups occurs in "Googlebot/2.1"; the Google group's first does. */
  lemma {:induction false} GooglebotMissesEarlierGroups()
    ensures NoneMatch("Googlebot/2.1", OpenAi + Anthropic)
    ensures FirstMatch(Google, "Googlebot/2.1") == Some(0)
  {
    var ua := "Googlebot/2.1";
    GooglebotLacks();
    NoneMatchByChars(ua, OpenAi, [1, 0, 1], "pca", "pca");
    NoneMatchByChars(ua, Anthropic, [0, 0, 0, 0], "ccaa", "pca");
    NoneMatchAppend(ua, OpenAi, Anthropic);
    PrefixMatches(ua, Google[0]);
    FirstMatchUnique(Google, ua, 0);
  }

  /** A Googlebot user agent is named by the lower-case entry, exactly as listed. */
  lemma {:induction false} GooglebotNamedLowercase()
    ensures ExtractCrawlerName("Googlebot/2.1") == Some("googlebot")
  {
    var ua := "Googlebot/2.1";
    GooglebotMissesEarlierGroups();
    FirstMatchAfter(ua, OpenAi + Anthropic, Google, 0);
    FirstMatchInEarlyGroups(ua, |OpenAi + Anthropic|);
    NamedByFirstMatch(ua, |OpenAi + Anthropic|, "googlebot");
  }

  // ---------------------------------------------------------------------
  // A browser
  // ---------------------------------------------------------------------

  /** The example browser user agent given beside the Apache pattern. */
  const BrowserUa := "Mozilla/5.0 (Windows NT 10.0; Win64; x64)"

  /** Lower-cased characters that the browser user agent lacks. */
  const BrowserMissing := "gc-hefpb2uyk"

  lemma {:induction false} BrowserLacks()
    ensures forall i :: 0 <= i < |BrowserUa| ==> LowerChar(BrowserUa[i]) !in BrowserMissing
  {
  }

  lemma {:induction false} BrowserMissesFirstGroups()
    ensures NoneMatch(BrowserUa, OpenAi) && NoneMatch(BrowserUa, Anthropic)
  {
    var ua := BrowserUa;
    var m := BrowserMissing;
    BrowserLacks();
    NoneMatchByChars(ua, OpenAi, [0, 0, 3], "gc-", m);
    NoneMatchByChars(ua, Anthropic, [0, 0, 3, 3], "cchh", m);
  }

  lemma {:induction false} BrowserMissesGoogleAndMeta()
    ensures NoneMatch(BrowserUa, Google) && NoneMatch(BrowserUa, Meta)
  {
    var ua := BrowserUa;
    var m := BrowserMissing;
    BrowserLacks();
    NoneMatchByChars(ua, Google, [0, 0, 0], "ggg", m);
    NoneMatchByChars(ua, Meta, [1, 5, 1, 1, 1, 0], "e-eeef", m);
  }

  lemma {:induction false} BrowserMissesCohere()
    ensures NoneMatch(BrowserUa, Cohere)
  {
    BrowserLacks();
    NoneMatchByChars(BrowserUa, Cohere, [0, 0, 0, 0], "cccc", BrowserMissing);
  }

  lemma {:induction false} BrowserMissesMiddleGroups()
    ensures NoneMatch(BrowserUa, Perplexity)
    ensures NoneMatch(BrowserUa, Apple) && NoneMatch(BrowserUa, Amazon)
  {
    var ua := BrowserUa;
    var m := BrowserMissing;
    BrowserLacks();
    NoneMatchByChars(ua, Perplexity, [0], "p", m);
    NoneMatchByChars(ua, Apple, [1], "p", m);
    NoneMatchByChars(ua, Amazon, [6], "b", m);
  }

  lemma {:induction false} BrowserMissesLaterGroups()
    ensures NoneMatch(BrowserUa, ByteDance) && NoneMatch(BrowserUa, CommonCrawl)
    ensures NoneMatch(BrowserUa, AllenAi)
  {
    var ua := BrowserUa;
    var m := BrowserMissing;
    BrowserLacks();
    NoneMatchByChars(ua, ByteDance, [0], "b", m);
    NoneMatchByChars(ua, CommonCrawl, [0], "c", m);
    NoneMatchByChars(ua, AllenAi, [2, 2], "22", m);
  }

  lemma {:induction false} BrowserMissesOthers()
    ensures NoneMatch(BrowserUa, Others)
  {
    var ua := BrowserUa;
    var m := BrowserMissing;
    BrowserLacks();
    NoneMatchByChars(ua, Others[..8], [1, 2, 2, 2, 1, 0, 1, 0], "ufggeyep", m);
    NoneMatchByChars(ua, Others[8..], [0, 0, 1, 2, 1, 1, 0, 1], "pkegeepc", m);
    NoneMatchAppend(ua, Others[..8], Others[8..]);
    assert Others[..8] + Others[8..] == Others;
  }

  /** The example browser user agent matches no entry, so it is neither accepted nor named. */
  lemma {:induction false} BrowserExampleIsNotCrawler()
    ensures !IsLlmCrawler(BrowserUa)
    ensures ExtractCrawlerName(BrowserUa) == None
  {
    var ua := BrowserUa;
    BrowserMissesFirstGroups();
    BrowserMissesGoogleAndMeta();
    BrowserMissesCohere();
    BrowserMissesMiddleGroups();
    BrowserMissesLaterGroups();
    BrowserMissesOthers();
    NoneMatchThroughCommonCrawl(ua);
    NoneMatchAppend(ua, OpenAi + Anthropic + Google + Meta + Cohere + Perplexity + Apple + Amazon + ByteDance + CommonCrawl,
      AllenAi);
    NoneMatchAppend(ua, OpenAi + Anthropic + Google + Meta + Cohere + Perplexity + Apple + Amazon + ByteDance + CommonCrawl
      + AllenAi, Others);
  }

  /** An entry that an earlier entry begins (ignoring case) is never the first match. */
  lemma {:induction false} PrefixShadowed(ua: string, i: nat, j: nat, a: string, b: string)
    requires i < j < |LlmCrawlerPatterns|
    requires LlmCrawlerPatterns[i] == a && LlmCrawlerPatterns[j] == b
    requires |a| <= |b| && forall k :: 0 <= k < |a| ==> LowerChar(b[k]) == LowerChar(a[k])
    ensures FirstMatch(LlmCrawlerPatterns, ua) != Some(j)
  {
    PrefixMatches(b, a);
    ShadowedNeverFirst(LlmCrawlerPatterns, ua, i, j);
  }

  /** "cohere-ai" repeats the earlier "Cohere-AI" up to case, so it never names anything. */
  lemma {:induction false} CohereAiLowercaseNeverFirst(ua: string)
    ensures FirstMatch(LlmCrawlerPatterns, ua) != Some(18)
  {
    PrefixShadowed(ua, 16, 18, "Cohere-AI", "cohere-ai");
  }

  /** "AI2Bot-Dolma" begins with the earlier "AI2Bot", so it never names anything. */
  lemma {:induction false} Ai2BotDolmaNeverFirst(ua: string)
    ensures FirstMatch(LlmCrawlerPatterns, ua) != Some(26)
  {
    PrefixShadowed(ua, 25, 26, "AI2Bot", "AI2Bot-Dolma");
  }

  /** "Anthropic-AI-Crawler" begins with the earlier "Anthropic-AI", so it never names anything. */
  lemma {:induction false} AnthropicCrawlerNeverFirst(ua: string)
    ensures FirstMatch(LlmCrawlerPatterns, ua) != Some(6)
  {
    PrefixShadowed(ua, 5, 6, "Anthropic-AI", "Anthropic-AI-Crawler");
  }

  /** "Omgilibot" begins with the earlier "Omgili", so it never names anything. */
  lemma {:induction false} OmgilibotNeverFirst(ua: string)
    ensures FirstMatch(LlmCrawlerPatterns, ua) != Some(30)
  {
    PrefixShadowed(ua, 29, 30, "Omgili", "Omgilibot");
  }
}

=== FILE: crawler_patterns.dfy ===
/**
 * The ordered list of LLM crawler user-agent fragments that detection uses
 * at run time (`LLM_CRAWLER_PATTERNS` of the parser's `llm_list` module),
 * kept in the groups the list is written in. Order matters: the first
 * fragment that matches names the crawler.
 */
module CrawlerPatterns {

  const OpenAi: seq<string> := ["GPTBot", "ChatGPT-User", "OAI-SearchBot"]
  const Anthropic: seq<string> := ["ClaudeBot", "Claude-Web", "Anthropic-AI", "Anthropic-AI-Crawler"]
  const Google: seq<string> := ["googlebot", "Google-Extended", "Google-CloudVertexBot"]
  const Meta: seq<string> :=
    ["MetaGPT", "LLaMA-Bot", "Meta AI", "Meta-ExternalAgent", "Meta-ExternalFetcher", "Facebookbot"]
  const Cohere: seq<string> := ["Cohere-AI", "CohereBot", "cohere-ai", "cohere-training-data-crawler"]
  const Perplexity: seq<string> := ["PerplexityBot"]
  const Apple: seq<string> := ["Applebot-Extended"]
  const Amazon: seq<string> := ["Amazonbot"]
  const ByteDance: seq<string> := ["Bytespider"]
  const CommonCrawl: seq<string> := ["CCBot"]
  const AllenAi: seq<string> := ["AI2Bot", "AI2Bot-Dolma"]
  const Others: seq<string> := [
    "DuckAssistBot", "Diffbot", "Omgili", "Omgilibot", "webzio-extended", "Youbot", "SemrushBot-OCOB",
    "Petalbot", "PanguBot", "Kangaroo Bot", "Sentibot", "img2dataset", "Meltwater", "Seekr",
    "peer39_crawler", "Scrapy"
  ]

  const LlmCrawlerPatterns: seq<string> :=
    OpenAi + Anthropic + Google + Meta + Cohere + Perplexity + Apple + Amazon + ByteDance + CommonCrawl
    + AllenAi + Others
}

=== FILE: llm_list.dfy ===
/**
 * The deprecated `llm_list` module's re-exports. Python callers may pass
 * None as the user agent; both functions treat it like the empty string.
 */
module LlmList {
  import opened Wrappers
  import opened CrawlerPatterns
  import CrawlerDetection

  /** Some listed fragment occurs in `ua`, ignoring case. */
  predicate Listed(ua: string)
  {
    exists j :: 0 <= j < |LlmCrawlerPatterns| && CrawlerDetection.PatternMatches(ua, LlmCrawlerPatterns[j])
  }

  /** `llm_list.is_llm_crawler`: a given user agent in which a listed fragment occurs. */
  function IsLlmCrawler(ua: Option<string>): (r: bool)
    ensures ua.None? ==> !r
    ensures ua.Some? ==> (r <==> ua.value != "" && Listed(ua.value))
  {
    ua.Some? && CrawlerDetection.IsLlmCrawler(ua.value)
  }

  /** `llm_list.extract_crawler_name`: the first listed fragment occurring in the user agent. */
  function ExtractCrawlerName(ua: Option<string>): (r: Option<string>)
    ensures ua.None? ==> r.None?
    ensures r.Some? ==> ua.Some? && r.value in LlmCrawlerPatterns
    ensures r.Some? <==> IsLlmCrawler(ua)
  {
    if ua.None? then None else CrawlerDetection.ExtractCrawlerName(ua.value)
  }

  /** The wrappers answer exactly what the detection module answers for a given user agent. */
  lemma {:induction false} WrappersDelegate(ua: string)
    ensures IsLlmCrawler(Some(ua)) == CrawlerDetection.IsLlmCrawler(ua)
    ensures ExtractCrawlerName(Some(ua)) == CrawlerDetection.ExtractCrawlerName(ua)
  {
  }
}

=== FILE: log_db.dfy ===
/**
 * The two tables the application keeps, as values: `log_files` (keyed by
 * id, with the file name and the `in_use` flag) and `access_logs` (the
 * stored entries, in insertion order, each with the id of the file it
 * came from). Each operation is one transaction: it either returns the new
 * tables or raises and leaves them as they were.
 */
module LogDb {
  import opened Wrappers
  import opened ParserBase

  datatype LogFileRecord = LogFileRecord(fileName: string, inUse: bool)

  /** A row of `access_logs`: a parsed entry and its `log_file_id` column (NULL as None). */
  datatype AccessRow = AccessRow(entry: LogEntry, logFileId: Option<string>)

  datatype Db = Db(files: map<string, LogFileRecord>, rows: seq<AccessRow>)

  /** The error raised before any database work. */
  datatype DbError = ValueError(message: string)

  /** The ids whose `in_use` flag is set. */
  function ActiveIds(files: map<string, LogFileRecord>): (r: set<string>)
    ensures forall id :: id in r <==> id in files && files[id].inUse
  {
    set id | id in files && files[id].inUse
  }

  /** `UPDATE log_files SET in_use = 0`. */
  function ClearActive(files: map<string, LogFileRecord>): (r: map<string, LogFileRecord>)
    ensures r.Keys == files.Keys
    ensures forall id :: id in r ==> r[id] == files[id].(inUse := false)
  {
    map id | id in files :: files[id].(inUse := false)
  }

  lemma {:induction false} ClearActiveLeavesNoneActive(files: map<string, LogFileRecord>)
    ensures ActiveIds(ClearActive(files)) == {}
  {
    assert forall id :: id !in ActiveIds(ClearActive(files));
  }

  /** The dictionary `set_active_log_file` returns. */
  datatype SetActiveReply = SetActiveReply(status: string, logFileId: string)

  /**
   * `set_active_log_file`: an empty id raises; an unknown id is reported
   * as not found; a known id becomes the only active file.
   */
  function SetActiveLogFile(db: Db, id: string): (r: Result<(Db, SetActiveReply), DbError>)
    ensures id == "" <==> r.Failure?
    ensures r.Failure? ==> r.error == ValueError("Log file ID is required")
    ensures r.Success? && id !in db.files ==> r.value == (db, SetActiveReply("not_found", id))
    ensures r.Success? && id in db.files ==> r.value.1 == SetActiveReply("success", id)
    ensures r.Success? && id in db.files ==> ActiveIds(r.value.0.files) == {id}
    ensures r.Success? ==> r.value.0.rows == db.rows && r.value.0.files.Keys == db.files.Keys
    ensures r.Success? ==> forall k :: k in db.files ==> r.value.0.files[k].fileName == db.files[k].fileName
  {
    if id == "" then Failure(ValueError("Log file ID is required"))
    else if id !in db.files then Success((db, SetActiveReply("not_found", id)))
    else
      var cleared := ClearActive(db.files);
      var files := cleared[id := cleared[id].(inUse := true)];
      assert ActiveIds(files) == {id};
      Success((Db(files, db.rows), SetActiveReply("success", id)))
  }

  /**
   * The rows of the other files (a NULL `log_file_id` included), in their
   * order: together with the rows carrying `id` they are the rows given,
   * counted with multiplicity.
   */
  function RowsNotOf(rows: seq<AccessRow>, id: string): (r: seq<AccessRow>)
    ensures |r| <= |rows|
    ensures forall x :: x in r ==> x in rows && x.logFileId != Some(id)
    ensures forall i :: 0 <= i < |rows| && rows[i].logFileId != Some(id) ==> rows[i] in r
    ensures multiset(r) + multiset(RowsOf(rows, id)) == multiset(rows)
    ensures |r| + |RowsOf(rows, id)| == |rows|
  {
    if |rows| == 0 then []
    else
      var rest := RowsNotOf(rows[1..], id);
      assert forall i :: 1 <= i < |rows| ==> rows[i] == rows[1..][i - 1];
      assert rows == [rows[0]] + rows[1..];
      if rows[0].logFileId == Some(id) then rest else [rows[0]] + rest
  }

  /** How many rows carry `id`. */
  function CountRowsOf(rows: seq<AccessRow>, id: string): (n: nat)
    ensures n <= |rows|
    ensures n == |rows| - |RowsNotOf(rows, id)|
    ensures n == |RowsOf(rows, id)|
  {
    if |rows| == 0 then 0
    else (if rows[0].logFileId == Some(id) then 1 else 0) + CountRowsOf(rows[1..], id)
  }

  /** The dictionary `delete_log_file_data` returns. */
  datatype DeleteReply = DeleteReply(status: string, deletedLogEntries: nat)

  /**
   * `delete_log_file_data`: an empty id raises; an unknown id deletes
   * nothing; a known id loses its record and every row carrying it, and the
   * reply counts those rows.
   */
  function DeleteLogFileData(db: Db, id: string): (r: Result<(Db, DeleteReply), DbError>)
    ensures id == "" <==> r.Failure?
    ensures r.Failure? ==> r.error == ValueError("Log file ID is required")
    ensures r.Success? && id !in db.files ==> r.value == (db, DeleteReply("not_found", 0))
    ensures r.Success? && id in db.files ==>
      && r.value.1.status == "success"
      && r.value.0.files == db.files - {id}
      && (forall x :: x in r.value.0.rows ==> x.logFileId != Some(id))
      && (forall i :: 0 <= i < |db.rows| && db.rows[i].logFileId != Some(id) ==> db.rows[i] in r.value.0.rows)
      && r.value.1.deletedLogEntries + |r.value.0.rows| == |db.rows|
      && r.value.1.deletedLogEntries == |RowsOf(db.rows, id)|
      && multiset(r.value.0.rows) + multiset(RowsOf(db.rows, id)) == multiset(db.rows)
      && (forall other :: other != id ==> RowsOf(r.value.0.rows, other) == RowsOf(db.rows, other))
  {
    if id == "" then Failure(ValueError("Log file ID is required"))
    else if id !in db.files then Success((db, DeleteReply("not_found", 0)))
    else
      var kept := RowsNotOf(db.rows, id);
      assert forall other :: other != id ==> RowsOf(kept, other) == RowsOf(db.rows, other) by {
        forall other | other != id
          ensures RowsOf(kept, other) == RowsOf(db.rows, other)
        {
          DeleteKeepsOtherRowsInOrder(db.rows, id, other);
        }
      }
      Success((Db(db.files - {id}, kept), DeleteReply("success", CountRowsOf(db.rows, id))))
  }

  /** Deleting a file's data keeps every row of another file, in order, and removes exactly the counted rows. */
  lemma {:induction false} DeleteKeepsOtherRowsInOrder(rows: seq<AccessRow>, id: string, other: string)
    requires other != id
    ensures RowsOf(RowsNotOf(rows, id), other) == RowsOf(rows, other)
  {
    if |rows| > 0 {
      DeleteKeepsOtherRowsInOrder(rows[1..], id, other);
      if rows[0].logFileId != Some(id) {
        assert ([rows[0]] + RowsNotOf(rows[1..], id))[1..] == RowsNotOf(rows[1..], id);
      }
    }
  }

  /** The rows carrying `id`, in order: what a query for one file's entries sees. */
  function RowsOf(rows: seq<AccessRow>, id: string): (r: seq<AccessRow>)
    ensures forall x :: x in r ==> x in rows && x.logFileId == Some(id)
  {
    if |rows| == 0 then []
    else if rows[0].logFileId == Some(id) then [rows[0]] + RowsOf(rows[1..], id)
    else RowsOf(rows[1..], id)
  }
}

=== FILE: log_grammar.dfy ===
/**
 * The access-log line grammar shared by the Apache and Nginx parsers.
 *
 * Both parsers use the combined-log regular expression
 *
 *   ip ident user [time] "method path HTTP/version" status size "referer" "ua"
 *
 * with `\S+` for ip, ident, user, method and size, `[^\]]+` for time,
 * `[^"]*` for path, referer and user agent, `[\d\.]*` for the version and
 * `\d+` for status; Nginx also has a variant followed by ` \S+` (a request
 * id). Every repeated class in that expression is followed by a character
 * outside the class, so each field has exactly one way to match, and the
 * expression is the field splitter below: take the longest run of the
 * field's class, then expect the separator. The one field that is not a
 * longest run is the path, which is everything up to the last ` HTTP/`
 * that is followed only by digits and dots before the closing quote.
 */
module LogGrammar {
  import opened Wrappers
  import opened Text

  /** The character classes the access-log patterns use. */
  datatype CharClass =
    | NonSpace     // \S
    | NotBracket   // [^\]]
    | NotQuote     // [^"]
    | Digit        // \d
    | DigitOrDot   // [\d\.]
    | IdValueChar  // [^&\s]

  predicate InClass(c: char, k: CharClass)
  {
    match k
    case NonSpace => !IsSpace(c)
    case NotBracket => c != ']'
    case NotQuote => c != '"'
    case Digit => IsDigit(c)
    case DigitOrDot => IsDigit(c) || c == '.'
    case IdValueChar => c != '&' && !IsSpace(c)
  }

  predicate AllIn(s: string, k: CharClass)
  {
    forall i :: 0 <= i < |s| ==> InClass(s[i], k)
  }

  /** One step of `Span`: a first character in the class leads the run found in the rest. */
  lemma {:induction false} SpanCons(s: string, t: Piece, k: CharClass)
    requires |s| > 0 && InClass(s[0], k)
    requires t.tok + t.rest == s[1..] && AllIn(t.tok, k)
    ensures ([s[0]] + t.tok) + t.rest == s
    ensures AllIn([s[0]] + t.tok, k)
  {
    var tok := [s[0]] + t.tok;
    assert tok + t.rest == [s[0]] + (t.tok + t.rest);
    forall i | 0 <= i < |tok| ensures InClass(tok[i], k) {
      if i > 0 {
        assert tok[i] == t.tok[i - 1];
      }
    }
  }

  /** A matched token and the text that follows it. */
  datatype Piece = Piece(tok: string, rest: string)

  /** The longest prefix of `s` in class `k` (a greedy `k*`) and what follows it. */
  function Span(s: string, k: CharClass): (r: Piece)
    ensures r.tok + r.rest == s
    ensures AllIn(r.tok, k)
    ensures r.rest == [] || !InClass(r.rest[0], k)
    decreases |s|
  {
    if |s| > 0 && InClass(s[0], k) then
      var t := Span(s[1..], k);
      SpanCons(s, t, k);
      Piece([s[0]] + t.tok, t.rest)
    else
      Piece([], s)
  }

  /** A greedy run is determined by where the class ends. */
  lemma {:induction false} SpanConcat(a: string, b: string, k: CharClass)
    requires AllIn(a, k)
    requires b == [] || !InClass(b[0], k)
    ensures Span(a + b, k) == Piece(a, b)
    decreases |a|
  {
    if |a| > 0 {
      assert (a + b)[0] == a[0];
      assert (a + b)[1..] == a[1..] + b;
      SpanConcat(a[1..], b, k);
      assert [a[0]] + a[1..] == a;
    } else {
      assert a + b == b;
      assert b == [] || !InClass((a + b)[0], k);
    }
  }

  /** A greedy `k+`: the longest run, which must not be empty. */
  function Token(s: string, k: CharClass): (r: Option<Piece>)
    ensures r.Some? ==> |r.value.tok| > 0 && r.value.tok + r.value.rest == s && AllIn(r.value.tok, k)
    ensures r.Some? ==> r.value.rest == [] || !InClass(r.value.rest[0], k)
    ensures r.None? <==> s == [] || !InClass(s[0], k)
  {
    var p := Span(s, k);
    if |p.tok| > 0 then Some(p) else None
  }

  lemma {:induction false} TokenConcat(a: string, b: string, k: CharClass)
    requires |a| > 0 && AllIn(a, k)
    requires b == [] || !InClass(b[0], k)
    ensures Token(a + b, k) == Some(Piece(a, b))
  {
    SpanConcat(a, b, k);
  }

  /** A literal in the pattern: the text after it, when `s` begins with it. */
  function Expect(s: string, lit: string): (r: Option<string>)
    ensures r.Some? <==> StartsWith(s, lit)
    ensures r.Some? ==> s == lit + r.value
  {
    if StartsWith(s, lit) then Some(s[|lit|..]) else None
  }

  lemma {:induction false} ExpectConcat(lit: string, b: string)
    ensures Expect(lit + b, lit) == Some(b)
  {
    assert (lit + b)[..|lit|] == lit;
    assert (lit + b)[|lit|..] == b;
  }

  /** The longest suffix of `s` in class `k` and what precedes it. */
  function SpanBack(s: string, k: CharClass): (r: Piece)
    ensures r.tok + r.rest == s
    ensures AllIn(r.rest, k)
    ensures r.tok == [] || !InClass(r.tok[|r.tok| - 1], k)
    decreases |s|
  {
    if |s| > 0 && InClass(s[|s| - 1], k) then
      var t := SpanBack(s[..|s| - 1], k);
      assert t.tok + t.rest + [s[|s| - 1]] == s;
      Piece(t.tok, t.rest + [s[|s| - 1]])
    else
      Piece(s, [])
  }

  /** One step of `SpanBack`: a last character in the class joins the run. */
  lemma {:induction false} SpanBackStep(p: string, c: char, k: CharClass)
    requires InClass(c, k)
    ensures SpanBack(p + [c], k) == Piece(SpanBack(p, k).tok, SpanBack(p, k).rest + [c])
  {
    var s := p + [c];
    assert s[|s| - 1] == c;
    assert s[..|s| - 1] == p;
  }

  lemma {:induction false} SpanBackConcat(a: string, b: string, k: CharClass)
    requires AllIn(b, k)
    requires a == [] || !InClass(a[|a| - 1], k)
    ensures SpanBack(a + b, k) == Piece(a, b)
    decreases |b|
  {
    if |b| > 0 {
      var b', c := b[..|b| - 1], b[|b| - 1];
      assert b == b' + [c];
      assert a + b == (a + b') + [c];
      assert AllIn(b', k) by {
        forall i | 0 <= i < |b'| ensures InClass(b'[i], k) {
          assert b'[i] == b[i];
        }
      }
      SpanBackConcat(a, b', k);
      SpanBackStep(a + b', c, k);
    } else {
      assert a + b == a;
    }
  }

  const HttpMarker := " HTTP/"

  /** The request text between `method ` and the closing quote. */
  datatype Request = Request(path: string, version: string)

  /**
   * Splits `path HTTP/version`: the version is the trailing run of digits and
   * dots, and what precedes it must end with ` HTTP/`.
   */
  function SplitRequest(seg: string): (r: Option<Request>)
    ensures r.Some? ==> seg == r.value.path + HttpMarker + r.value.version
    ensures r.Some? ==> AllIn(r.value.version, DigitOrDot)
  {
    var p := SpanBack(seg, DigitOrDot);
    if EndsWith(p.tok, HttpMarker) then
      var path := p.tok[..|p.tok| - |HttpMarker|];
      assert p.tok == path + HttpMarker;
      Some(Request(path, p.rest))
    else
      None
  }

  lemma {:induction false} SplitRequestConcat(path: string, version: string)
    requires AllIn(version, DigitOrDot)
    ensures SplitRequest(path + HttpMarker + version) == Some(Request(path, version))
  {
    var a := path + HttpMarker;
    assert a[|a| - 1] == '/';
    SpanBackConcat(a, version, DigitOrDot);
    assert a[..|a| - |HttpMarker|] == path;
  }

  /** The parts of a combined-format line, as text. */
  datatype Fields = Fields(
    ip: string, ident: string, user: string, time: string,
    requestMethod: string, path: string, version: string,
    status: string, size: string, referer: string, userAgent: string)

  /** A line: the matched fields and the text after the user agent's closing quote. */
  datatype Line = Line(fields: Fields, tail: string)

  /** The quoted referer and user agent: `referer" "ua"` and what follows. */
  datatype QuotedPart = QuotedPart(referer: string, userAgent: string, tail: string)

  function MatchQuoted(r: string): (m: Option<QuotedPart>)
    ensures m.Some? ==> AllIn(m.value.referer, NotQuote) && AllIn(m.value.userAgent, NotQuote)
    ensures m.Some? ==> r == m.value.referer + ("\" \"" + (m.value.userAgent + ("\"" + m.value.tail)))
  {
    var referer := Span(r, NotQuote);
    var r :- Expect(referer.rest, "\" \"");
    var ua := Span(r, NotQuote);
    var tail :- Expect(ua.rest, "\"");
    Some(QuotedPart(referer.tok, ua.tok, tail))
  }

  /** From the path on: `path HTTP/version" status size "referer" "ua"` and what follows. */
  datatype RequestPart = RequestPart(req: Request, status: string, size: string, quoted: QuotedPart)

  function MatchRequestPart(r: string): (m: Option<RequestPart>)
    ensures m.Some? ==> AllIn(m.value.req.path, NotQuote) && AllIn(m.value.req.version, DigitOrDot)
    ensures m.Some? ==> |m.value.status| > 0 && AllIn(m.value.status, Digit)
    ensures m.Some? ==> |m.value.size| > 0 && AllIn(m.value.size, NonSpace)
    ensures m.Some? ==> AllIn(m.value.quoted.referer, NotQuote) && AllIn(m.value.quoted.userAgent, NotQuote)
    ensures m.Some? ==>
      var q := m.value.quoted;
      r == (m.value.req.path + HttpMarker + m.value.req.version) + ("\" " + (m.value.status + (" " + (m.value.size + (" \"" +
        (q.referer + ("\" \"" + (q.userAgent + ("\"" + q.tail)))))))))
  {
    var seg := Span(r, NotQuote);
    var req :- SplitRequest(seg.tok);
    assert AllIn(req.path, NotQuote) by {
      forall i | 0 <= i < |req.path| ensures InClass(req.path[i], NotQuote) {
        assert req.path[i] == seg.tok[i];
      }
    }
    var r :- Expect(seg.rest, "\" ");
    var status :- Token(r, Digit);
    var r :- Expect(status.rest, " ");
    var size :- Token(r, NonSpace);
    var r :- Expect(size.rest, " \"");
    var q :- MatchQuoted(r);
    Some(RequestPart(req, status.tok, size.tok, q))
  }

  /**
   * `re.match` of the combined pattern: anchored at the start of the line,
   * anything may follow the user agent's closing quote. Every match is a
   * well-formed record rendered in the documented layout.
   */
  function MatchCombined(line: string): (m: Option<Line>)
    ensures m.Some? ==> WellFormed(m.value.fields) && line == Render(m.value.fields, m.value.tail)
  {
    var ip :- Token(line, NonSpace);
    var r :- Expect(ip.rest, " ");
    var ident :- Token(r, NonSpace);
    var r :- Expect(ident.rest, " ");
    var user :- Token(r, NonSpace);
    var r :- Expect(user.rest, " [");
    var time :- Token(r, NotBracket);
    var r :- Expect(time.rest, "] \"");
    var verb :- Token(r, NonSpace);
    var r :- Expect(verb.rest, " ");
    var p :- MatchRequestPart(r);
    var f := Fields(ip.tok, ident.tok, user.tok, time.tok, verb.tok, p.req.path, p.req.version,
                    p.status, p.size, p.quoted.referer, p.quoted.userAgent);
    assert r == RenderRequest(f, p.quoted.tail);
    Some(Line(f, p.quoted.tail))
  }

  /** ` \S+` after the user agent's closing quote: the Nginx request id token. */
  function MatchIdSuffix(tail: string): (r: Option<string>)
    ensures r.Some? ==> |r.value| > 0 && AllIn(r.value, NonSpace)
  {
    var r :- Expect(tail, " ");
    var id :- Token(r, NonSpace);
    Some(id.tok)
  }

  /**
   * The Nginx pattern with a trailing ` \S+` request id after the user agent:
   * the combined pattern with the same fields, followed by ` id`.
   */
  function MatchWithId(line: string): (r: Option<(Fields, string)>)
    ensures r.Some? ==> MatchCombined(line).Some? && MatchCombined(line).value.fields == r.value.0
    ensures r.Some? ==> MatchIdSuffix(MatchCombined(line).value.tail) == Some(r.value.1)
  {
    var l :- MatchCombined(line);
    var id :- MatchIdSuffix(l.tail);
    Some((l.fields, id))
  }

  /** The field constraints the pattern's character classes impose. */
  predicate WellFormed(f: Fields)
  {
    && |f.ip| > 0 && AllIn(f.ip, NonSpace)
    && |f.ident| > 0 && AllIn(f.ident, NonSpace)
    && |f.user| > 0 && AllIn(f.user, NonSpace)
    && |f.time| > 0 && AllIn(f.time, NotBracket)
    && |f.requestMethod| > 0 && AllIn(f.requestMethod, NonSpace)
    && AllIn(f.path, NotQuote)
    && AllIn(f.version, DigitOrDot)
    && |f.status| > 0 && AllIn(f.status, Digit)
    && |f.size| > 0 && AllIn(f.size, NonSpace)
    && AllIn(f.referer, NotQuote)
    && AllIn(f.userAgent, NotQuote)
  }

  /** The documented line layout, followed by `tail`. */
  function Render(f: Fields, tail: string): string
  {
    f.ip + (" " + (f.ident + (" " + (f.user + (" [" + (f.time + ("] \"" + (f.requestMethod + (" " +
    RenderRequest(f, tail))))))))))
  }

  /** The part of a rendered line from the path on. */
  function RenderRequest(f: Fields, tail: string): string
  {
    (f.path + HttpMarker + f.version) + ("\" " + (f.status + (" " + (f.size + (" \"" +
    RenderQuoted(f, tail))))))
  }

  /** The part of a rendered line from the referer on. */
  function RenderQuoted(f: Fields, tail: string): string
  {
    f.referer + ("\" \"" + (f.userAgent + ("\"" + tail)))
  }

  lemma {:induction false} MatchQuotedRender(f: Fields, tail: string)
    requires AllIn(f.referer, NotQuote) && AllIn(f.userAgent, NotQuote)
    ensures MatchQuoted(RenderQuoted(f, tail)) == Some(QuotedPart(f.referer, f.userAgent, tail))
  {
    SpanConcat(f.referer, "\" \"" + (f.userAgent + ("\"" + tail)), NotQuote);
    ExpectConcat("\" \"", f.userAgent + ("\"" + tail));
    SpanConcat(f.userAgent, "\"" + tail, NotQuote);
    ExpectConcat("\"", tail);
  }

  lemma {:induction false} MatchRequestRender(f: Fields, tail: string)
    requires WellFormed(f)
    ensures MatchRequestPart(RenderRequest(f, tail)) ==
      Some(RequestPart(Request(f.path, f.version), f.status, f.size, QuotedPart(f.referer, f.userAgent, tail)))
  {
    var q := RenderQuoted(f, tail);
    var seg := f.path + HttpMarker + f.version;
    assert AllIn(seg, NotQuote) by {
      forall i | 0 <= i < |seg| ensures InClass(seg[i], NotQuote) {
        if i < |f.path| {
          assert seg[i] == f.path[i];
        } else if i < |f.path| + |HttpMarker| {
          assert seg[i] == HttpMarker[i - |f.path|];
        } else {
          assert seg[i] == f.version[i - |f.path| - |HttpMarker|];
        }
      }
    }
    SpanConcat(seg, "\" " + (f.status + (" " + (f.size + (" \"" + q)))), NotQuote);
    SplitRequestConcat(f.path, f.version);
    ExpectConcat("\" ", f.status + (" " + (f.size + (" \"" + q))));
    TokenConcat(f.status, " " + (f.size + (" \"" + q)), Digit);
    ExpectConcat(" ", f.size + (" \"" + q));
    TokenConcat(f.size, " \"" + q, NonSpace);
    ExpectConcat(" \"", q);
    MatchQuotedRender(f, tail);
  }

  /** Rendering a well-formed record and matching it gives the record back, whatever follows. */
  lemma {:induction false} MatchRender(f: Fields, tail: string)
    requires WellFormed(f)
    ensures MatchCombined(Render(f, tail)) == Some(Line(f, tail))
  {
    var rq := RenderRequest(f, tail);
    TokenConcat(f.ip, " " + (f.ident + (" " + (f.user + (" [" + (f.time + ("] \"" + (f.requestMethod + (" " + rq)))))))), NonSpace);
    ExpectConcat(" ", f.ident + (" " + (f.user + (" [" + (f.time + ("] \"" + (f.requestMethod + (" " + rq))))))));
    TokenConcat(f.ident, " " + (f.user + (" [" + (f.time + ("] \"" + (f.requestMethod + (" " + rq)))))), NonSpace);
    ExpectConcat(" ", f.user + (" [" + (f.time + ("] \"" + (f.requestMethod + (" " + rq))))));
    TokenConcat(f.user, " [" + (f.time + ("] \"" + (f.requestMethod + (" " + rq)))), NonSpace);
    ExpectConcat(" [", f.time + ("] \"" + (f.requestMethod + (" " + rq))));
    TokenConcat(f.time, "] \"" + (f.requestMethod + (" " + rq)), NotBracket);
    ExpectConcat("] \"", f.requestMethod + (" " + rq));
    TokenConcat(f.requestMethod, " " + rq, NonSpace);
    ExpectConcat(" ", rq);
    MatchRequestRender(f, tail);
  }

  lemma {:induction false} MatchIdSuffixRender(id: string, tail: string)
    requires |id| > 0 && AllIn(id, NonSpace)
    requires tail == [] || IsSpace(tail[0])
    ensures MatchIdSuffix(" " + id + tail) == Some(id)
  {
    assert " " + id + tail == " " + (id + tail);
    ExpectConcat(" ", id + tail);
    TokenConcat(id, tail, NonSpace);
  }

  /** Rendering a record followed by ` id` matches the trailing-id pattern with that id. */
  lemma {:induction false} MatchRenderWithId(f: Fields, id: string, tail: string)
    requires WellFormed(f)
    requires |id| > 0 && AllIn(id, NonSpace)
    requires tail == [] || IsSpace(tail[0])
    ensures MatchWithId(Render(f, " " + id + tail)) == Some((f, id))
  {
    var t := " " + id + tail;
    MatchRender(f, t);
    MatchIdSuffixRender(id, tail);
  }
}

=== FILE: log_parsers.dfy ===
/**
 * `LogParser.parse_line` with the pattern lists of `ApacheParser` and
 * `NginxParser`, their `_process_match`, and the module-level
 * `parse_apache_line` / `parse_nginx_line`.
 */
module LogParsers {
  import opened Wrappers
  import opened Text
  import opened LogGrammar
  import opened ParserBase
  import CrawlerDetection

  /** The two compiled patterns: the combined format, and the combined format with a trailing id. */
  datatype Pattern = Combined | CombinedWithId

  /** A match's named groups: the fields, and the `request_id` group when the pattern has one. */
  datatype Groups = Groups(fields: Fields, requestId: Option<string>)

  function MatchPattern(p: Pattern, line: string): (r: Option<Groups>)
    ensures p == Combined ==> r.Some? == MatchCombined(line).Some?
    ensures p == CombinedWithId ==> r.Some? == MatchWithId(line).Some?
    ensures r.Some? ==> MatchCombined(line).Some? && r.value.fields == MatchCombined(line).value.fields
    ensures r.Some? ==> (r.value.requestId.Some? <==> p == CombinedWithId)
  {
    match p
    case Combined =>
      var l :- MatchCombined(line);
      Some(Groups(l.fields, None))
    case CombinedWithId =>
      var m :- MatchWithId(line);
      Some(Groups(m.0, Some(m.1)))
  }

  /** `ApacheParser._get_patterns`: the combined format only. */
  const ApachePatterns: seq<Pattern> := [Combined]

  /** `NginxParser._get_patterns`: the trailing-id variant first, then the combined format. */
  const NginxPatterns: seq<Pattern> := [CombinedWithId, Combined]

  /**
   * `_process_match` (identical for both formats): a `request_id` group is
   * decoded as a UUID first (None when it is not one), then the common
   * fields are parsed, and the crawler name is taken from the user agent.
   */
  function ProcessMatch(dec: Decoders, g: Groups): (r: Option<LogEntry>)
    ensures r.None? <==> dec.parseTime(g.fields.time, TimeLayout).None?
    ensures r.Some? ==>
      && r.value.ipAddress == g.fields.ip
      && r.value.requestMethod == g.fields.requestMethod
      && r.value.path == g.fields.path
      && r.value.userAgent == g.fields.userAgent
      && r.value.crawlerName == CrawlerDetection.ExtractCrawlerName(g.fields.userAgent)
    ensures r.Some? ==> Some(r.value.time) == dec.parseTime(g.fields.time, TimeLayout)
    ensures r.Some? ==> r.value.status == ParseStatus(g.fields.status)
    ensures r.Some? ==> r.value.referer == RefererValue(g.fields.referer)
    ensures r.Some? ==>
      r.value.requestId ==
        (if g.requestId.Some? && dec.parseUuid(g.requestId.value).Some? then dec.parseUuid(g.requestId.value)
         else ExtractRequestId(dec, g.fields.path))
  {
    var requestId := if g.requestId.Some? then dec.parseUuid(g.requestId.value) else None;
    var c :- ParseCommon(dec, g.fields, requestId);
    Some(LogEntry(c.time, g.fields.ip, g.fields.requestMethod, g.fields.path, c.status,
                  g.fields.userAgent, CrawlerDetection.ExtractCrawlerName(g.fields.userAgent),
                  c.referer, c.requestId))
  }

  /** The match of every pattern against the line, in pattern order. */
  function MatchAll(patterns: seq<Pattern>, line: string): (ms: seq<Option<Groups>>)
    ensures |ms| == |patterns|
    ensures forall k :: 0 <= k < |ms| ==> ms[k] == MatchPattern(patterns[k], line)
  {
    seq(|patterns|, k requires 0 <= k < |patterns| => MatchPattern(patterns[k], line))
  }

  /** The index of the first match in `ms` at or after `from`. */
  function FirstSome<T>(ms: seq<Option<T>>, from: nat): (r: Option<nat>)
    ensures r.Some? ==> from <= r.value < |ms| && ms[r.value].Some?
    ensures r.Some? ==> forall k :: from <= k < r.value ==> ms[k].None?
    ensures r.None? ==> forall k :: from <= k < |ms| ==> ms[k].None?
    decreases |ms| - from
  {
    if from >= |ms| then None
    else if ms[from].Some? then Some(from)
    else FirstSome(ms, from + 1)
  }

  /** Pattern `k` is the first of `patterns` to match `line`. */
  predicate FirstMatching(patterns: seq<Pattern>, line: string, k: nat)
  {
    && k < |patterns|
    && MatchPattern(patterns[k], line).Some?
    && forall j :: 0 <= j < k ==> MatchPattern(patterns[j], line).None?
  }

  /**
   * `parse_line`: the patterns are tried in order and the first that
   * matches decides the result, even when processing it gives None.
   */
  function ParseLine(patterns: seq<Pattern>, dec: Decoders, line: string): (r: Option<LogEntry>)
    ensures (forall k :: 0 <= k < |patterns| ==> MatchPattern(patterns[k], line).None?) ==> r.None?
    ensures forall k: nat :: FirstMatching(patterns, line, k) ==>
      r == ProcessMatch(dec, MatchPattern(patterns[k], line).value)
  {
    var ms := MatchAll(patterns, line);
    match FirstSome(ms, 0)
    case None => None
    case Some(k) => ProcessMatch(dec, ms[k].value)
  }

  /** `parse_apache_line`. */
  function ParseApacheLine(dec: Decoders, line: string): Option<LogEntry>
  {
    ParseLine(ApachePatterns, dec, line)
  }

  /** `parse_nginx_line`. */
  function ParseNginxLine(dec: Decoders, line: string): Option<LogEntry>
  {
    ParseLine(NginxPatterns, dec, line)
  }

  /** The referer value after `_parse_common_fields`. */
  function RefererValue(referer: string): Option<string>
  {
    if referer == "-" then None else Some(referer)
  }

  /**
   * Round trip for Apache: a well-formed record rendered in the documented
   * layout, with anything after it, parses back to the same fields.
   */
  lemma {:induction false} ApacheRoundTrip(dec: Decoders, f: Fields, tail: string, t: Timestamp)
    requires WellFormed(f)
    requires dec.parseTime(f.time, TimeLayout) == Some(t)
    ensures AllDigits(f.status)
    ensures ParseApacheLine(dec, Render(f, tail)) ==
      Some(LogEntry(t, f.ip, f.requestMethod, f.path, (if |f.status| <= MaxStrDigits then Some(DigitsValue(f.status)) else None),
                    f.userAgent,
                    CrawlerDetection.ExtractCrawlerName(f.userAgent), RefererValue(f.referer),
                    ExtractRequestId(dec, f.path)))
  {
    MatchRender(f, tail);
    assert MatchPattern(ApachePatterns[0], Render(f, tail)) == Some(Groups(f, None));
  }

  /**
   * Round trip for Nginx with a trailing id: the id is used when it is a
   * UUID, and otherwise recovered from the path.
   */
  lemma {:induction false} NginxRoundTrip(dec: Decoders, f: Fields, id: string, tail: string, t: Timestamp)
    requires WellFormed(f)
    requires |id| > 0 && AllIn(id, NonSpace)
    requires tail == [] || IsSpace(tail[0])
    requires dec.parseTime(f.time, TimeLayout) == Some(t)
    ensures AllDigits(f.status)
    ensures ParseNginxLine(dec, Render(f, " " + id + tail)) ==
      Some(LogEntry(t, f.ip, f.requestMethod, f.path, (if |f.status| <= MaxStrDigits then Some(DigitsValue(f.status)) else None),
                    f.userAgent,
                    CrawlerDetection.ExtractCrawlerName(f.userAgent), RefererValue(f.referer),
                    if dec.parseUuid(id).Some? then dec.parseUuid(id) else ExtractRequestId(dec, f.path)))
  {
    MatchRenderWithId(f, id, tail);
    assert MatchPattern(NginxPatterns[0], Render(f, " " + id + tail)) == Some(Groups(f, Some(id)));
  }

  /**
   * Both parsers accept exactly the same lines, and their entries differ at
   * most in the request id: the Apache pattern is the Nginx combined pattern,
   * and the trailing-id pattern only extends it.
   */
  lemma {:induction false} NginxAgreesWithApache(dec: Decoders, line: string)
    ensures ParseNginxLine(dec, line).Some? <==> ParseApacheLine(dec, line).Some?
    ensures ParseNginxLine(dec, line).Some? ==>
      ParseNginxLine(dec, line).value.(requestId := None) == ParseApacheLine(dec, line).value.(requestId := None)
  {
    if MatchWithId(line).Some? {
      assert MatchPattern(NginxPatterns[0], line).Some?;
    } else {
      assert MatchPattern(NginxPatterns[0], line).None?;
      if MatchCombined(line).Some? {
        assert MatchPattern(NginxPatterns[1], line).Some?;
      }
    }
    if MatchCombined(line).Some? {
      assert MatchPattern(ApachePatterns[0], line).Some?;
    }
  }

  /** A line no pattern matches, or whose time does not parse, gives no entry. */
  lemma {:induction false} UnparsedLines(dec: Decoders, line: string)
    ensures MatchCombined(line).None? ==> ParseApacheLine(dec, line).None? && ParseNginxLine(dec, line).None?
    ensures MatchCombined(line).Some? && dec.parseTime(MatchCombined(line).value.fields.time, TimeLayout).None?
      ==> ParseApacheLine(dec, line).None? && ParseNginxLine(dec, line).None?
  {
    NginxAgreesWithApache(dec, line);
    if MatchCombined(line).Some? {
      assert MatchPattern(ApachePatterns[0], line).Some?;
    }
  }
}

=== FILE: log_task.dfy ===
/**
 * The background task that imports an uploaded log file
 * (`process_log_file`) and the lookup of its record (`get_task_status`).
 * What the processor, the database initialisation, the writer and the
 * temporary-file removal do is given as their outcomes; the model decides
 * the record the task leaves behind. Index creation has no outcome here:
 * `create_all_indexes` catches its own exceptions and the task ignores its
 * result.
 */
module LogTask {
  import opened Wrappers
  import LogWriter

  datatype Status = ProcessingComplete | DbInitFailed | Complete | Error

  /** The status strings the record carries. */
  function StatusName(s: Status): (r: string)
    ensures s == ProcessingComplete ==> r == "processing_complete"
    ensures s == DbInitFailed ==> r == "db_init_failed"
    ensures s == Complete ==> r == "complete"
    ensures s == Error ==> r == "error"
  {
    match s
    case ProcessingComplete => "processing_complete"
    case DbInitFailed => "db_init_failed"
    case Complete => "complete"
    case Error => "error"
  }

  /** The writer's statistics as the dictionary `insert_logs` returns. */
  function StatsDict(s: LogWriter.WriteStats): map<string, nat>
  {
    map["rows_attempted" := s.rowsAttempted, "rows_inserted" := s.rowsInserted, "errors" := s.errors]
  }

  /** `d.get(k, default)`. */
  function Get(d: map<string, nat>, k: string, default: nat): nat
  {
    if k in d then d[k] else default
  }

  /**
   * The stored record. `fileName` and `matchedEntries` are absent from the
   * record an exception leaves, `dbStats` is present once the writer ran,
   * `error` only after an exception.
   */
  datatype TaskRecord = TaskRecord(
    status: Status,
    fileName: Option<string>,
    logFileId: string,
    matchedEntries: Option<nat>,
    recordsImported: nat,
    issues: seq<string>,
    dbStats: Option<map<string, nat>>,
    error: Option<string>)

  /** What the collaborators did, in the order the task calls them. */
  datatype Outcomes = Outcomes(
    processed: Result<nat, string>,
    dbInitialised: bool,
    logFileRecorded: bool,
    written: Result<LogWriter.WriteStats, string>,
    cleanupFailure: Option<string>)

  /** The record that replaces everything when an exception escapes. */
  function ErrorRecord(taskId: string, e: string): (r: TaskRecord)
    ensures r.status == Error && r.recordsImported == 0 && r.issues == [e] && r.error == Some(e)
    ensures r.logFileId == taskId
  {
    TaskRecord(Error, None, taskId, None, 0, [e], None, Some(e))
  }

  const DbInitIssue := "Database initialization failed"
  const LogFileIssue := "Failed to create log file record"
  const CleanupIssuePrefix := "Failed to remove temporary file: "

  /** The `finally`-like last step: removing the temporary file, whose failure only adds an issue. */
  function Cleanup(rec: TaskRecord, failure: Option<string>): (r: TaskRecord)
    ensures r.status == rec.status && r.recordsImported == rec.recordsImported
    ensures failure.None? ==> r == rec
    ensures failure.Some? ==> r.issues == rec.issues + [CleanupIssuePrefix + failure.value]
  {
    match failure
    case None => rec
    case Some(e) => rec.(issues := rec.issues + [CleanupIssuePrefix + e])
  }

  /** The record `process_log_file` leaves for a task, given the outcomes. */
  function TaskOutcome(taskId: string, fileName: string, saveToDb: bool, createIndexes: bool, o: Outcomes)
    : (r: TaskRecord)
    ensures r.logFileId == taskId
    ensures o.processed.Failure? ==> r == ErrorRecord(taskId, o.processed.error)
    ensures r.status == ProcessingComplete <==> o.processed.Success? && !(saveToDb && o.processed.value > 0)
    ensures r.status == DbInitFailed <==> o.processed.Success? && saveToDb && o.processed.value > 0 && !o.dbInitialised
    ensures r.status == Complete <==>
      o.processed.Success? && saveToDb && o.processed.value > 0 && o.dbInitialised && o.written.Success?
    ensures r.status != Error ==> r.recordsImported == o.processed.value && r.matchedEntries == Some(o.processed.value)
    ensures r.status == Error ==> r.recordsImported == 0 && |r.issues| == 1 && r.error.Some?
  {
    match o.processed
    case Failure(e) => ErrorRecord(taskId, e)
    case Success(n) =>
      var rec := TaskRecord(ProcessingComplete, Some(fileName), taskId, Some(n), n, [], None, None);
      if saveToDb && n > 0 then
        if !o.dbInitialised then
          rec.(status := DbInitFailed, issues := rec.issues + [DbInitIssue])
        else
          var rec1 := if o.logFileRecorded then rec else rec.(issues := rec.issues + [LogFileIssue]);
          match o.written
          case Failure(e) => ErrorRecord(taskId, e)
          case Success(stats) =>
            var d := StatsDict(stats);
            var rec2 := rec1.(status := Complete, dbStats := Some(d),
                              recordsImported := Get(d, "records_inserted", rec1.recordsImported));
            Cleanup(rec2, o.cleanupFailure)
      else Cleanup(rec, o.cleanupFailure)
  }

  /** `process_log_file`: the task's record is written, every other record stays as it was. */
  function ProcessLogFile(store: map<string, TaskRecord>, taskId: string, fileName: string,
                          saveToDb: bool, createIndexes: bool, o: Outcomes): (r: map<string, TaskRecord>)
    ensures taskId in r && r[taskId] == TaskOutcome(taskId, fileName, saveToDb, createIndexes, o)
    ensures r.Keys == store.Keys + {taskId}
    ensures forall k :: k in store && k != taskId ==> r[k] == store[k]
  {
    store[taskId := TaskOutcome(taskId, fileName, saveToDb, createIndexes, o)]
  }

  /** `get_task_status`: the stored record, or None for an unknown task. */
  function GetTaskStatus(store: map<string, TaskRecord>, taskId: string): (r: Option<TaskRecord>)
    ensures r.None? <==> taskId !in store
    ensures r.Some? ==> r.value == store[taskId]
  {
    if taskId in store then Some(store[taskId]) else None
  }

  /**
   * After a task has run its record can be looked up, and the records of
   * all other tasks read as before: records are never removed.
   */
  lemma {:induction false} TaskVisibleAfterRun(store: map<string, TaskRecord>, taskId: string, fileName: string,
                            saveToDb: bool, createIndexes: bool, o: Outcomes, other: string)
    ensures GetTaskStatus(ProcessLogFile(store, taskId, fileName, saveToDb, createIndexes, o), taskId).Some?
    ensures other != taskId ==>
      GetTaskStatus(ProcessLogFile(store, taskId, fileName, saveToDb, createIndexes, o), other) == GetTaskStatus(store, other)
    ensures GetTaskStatus(store, other).Some? ==>
      GetTaskStatus(ProcessLogFile(store, taskId, fileName, saveToDb, createIndexes, o), other).Some?
  {
  }

  /**
   * `records_imported` is not replaced by the writer's count: the writer's
   * dictionary has no `records_inserted` key, so the default, the number of
   * matched entries, is kept.
   */
  lemma {:induction false} RecordsImportedIsMatchCount(stats: LogWriter.WriteStats, matched: nat)
    ensures Get(StatsDict(stats), "records_inserted", matched) == matched
  {
    assert "records_inserted" !in StatsDict(stats);
  }

  /** A completed task imported exactly the entries it matched, whatever the writer inserted. */
  lemma {:induction false} CompleteKeepsMatchCount(taskId: string, fileName: string, createIndexes: bool, o: Outcomes)
    requires o.processed.Success? && o.processed.value > 0 && o.dbInitialised && o.written.Success?
    ensures TaskOutcome(taskId, fileName, true, createIndexes, o).status == Complete
    ensures TaskOutcome(taskId, fileName, true, createIndexes, o).recordsImported == o.processed.value
    ensures TaskOutcome(taskId, fileName, true, createIndexes, o).dbStats == Some(StatsDict(o.written.value))
  {
    RecordsImportedIsMatchCount(o.written.value, o.processed.value);
  }

  /**
   * A failed log-file record only adds its issue: the status is still
   * "complete" and the issue list is the one before with that issue first.
   */
  lemma {:induction false} FailedLogFileRecordOnlyAddsIssue(taskId: string, fileName: string, createIndexes: bool, o: Outcomes)
    requires o.processed.Success? && o.processed.value > 0 && o.dbInitialised && o.written.Success?
    ensures TaskOutcome(taskId, fileName, true, createIndexes, o.(logFileRecorded := false)).status == Complete
    ensures TaskOutcome(taskId, fileName, true, createIndexes, o.(logFileRecorded := false)).issues ==
      [LogFileIssue] + TaskOutcome(taskId, fileName, true, createIndexes, o.(logFileRecorded := true)).issues
  {
  }

  /** A failed removal of the temporary file appends one issue and changes nothing else. */
  lemma {:induction false} CleanupFailureOnlyAddsIssue(taskId: string, fileName: string, saveToDb: bool, createIndexes: bool,
                                    o: Outcomes, e: string)
    requires TaskOutcome(taskId, fileName, saveToDb, createIndexes, o.(cleanupFailure := None)).status in
      {ProcessingComplete, Complete}
    ensures
      TaskOutcome(taskId, fileName, saveToDb, createIndexes, o.(cleanupFailure := Some(e))) ==
      var before := TaskOutcome(taskId, fileName, saveToDb, createIndexes, o.(cleanupFailure := None));
      before.(issues := before.issues + [CleanupIssuePrefix + e])
  {
  }

  /**
   * A failed database initialisation returns before the temporary file is
   * removed: a removal failure leaves no trace, and the only issue is the
   * initialisation's.
   */
  lemma {:induction false} DbInitFailureSkipsCleanup(taskId: string, fileName: string, createIndexes: bool, o: Outcomes)
    requires o.processed.Success? && o.processed.value > 0 && !o.dbInitialised
    ensures TaskOutcome(taskId, fileName, true, createIndexes, o).status == DbInitFailed
    ensures TaskOutcome(taskId, fileName, true, createIndexes, o).issues == [DbInitIssue]
  {
  }

  /**
   * Index creation never changes the record: `create_all_indexes` catches
   * its own exceptions and its result is ignored.
   */
  lemma {:induction false} IndexCreationLeavesRecord(taskId: string, fileName: string, saveToDb: bool, o: Outcomes)
    ensures TaskOutcome(taskId, fileName, saveToDb, true, o) == TaskOutcome(taskId, fileName, saveToDb, false, o)
  {
  }

  /** Statuses are told apart by their names. */
  lemma {:induction false} StatusNamesDistinct(a: Status, b: Status)
    requires StatusName(a) == StatusName(b)
    ensures a == b
  {
  }
}

=== FILE: log_writer.dfy ===
/**
 * `LogWriter`: registering a log file, and inserting parsed entries in
 * batches with a bulk insert, a one-by-one fallback and error counting.
 * What the database does with each batch is given as an outcome per batch.
 */
module LogWriter {
  import opened Wrappers
  import opened SeqUtil
  import opened ParserBase
  import opened LogDb

  /**
   * `insert_log_file`: with `set_as_active` every flag is cleared and the
   * record is inserted active; otherwise it is inserted inactive. The
   * insert is INSERT OR IGNORE on the id, so an existing record is left as
   * it is. `raises` stands for a database failure: the transaction is
   * rolled back and the answer is false.
   */
  function InsertLogFile(db: Db, id: string, fileName: string, setAsActive: bool, raises: bool): (r: (Db, bool))
    ensures r.1 <==> !raises
    ensures raises ==> r.0 == db
    ensures r.0.rows == db.rows
    ensures !raises ==> r.0.files.Keys == db.files.Keys + {id}
    ensures !raises && id !in db.files ==> r.0.files[id] == LogFileRecord(fileName, setAsActive)
    ensures !raises && setAsActive && id !in db.files ==> ActiveIds(r.0.files) == {id}
    ensures !raises && setAsActive && id in db.files ==> ActiveIds(r.0.files) == {}
    ensures !raises ==> forall k :: k in db.files ==> r.0.files[k].fileName == db.files[k].fileName
    ensures !raises && setAsActive ==> forall k :: k in db.files ==> r.0.files[k] == db.files[k].(inUse := false)
    ensures !raises && !setAsActive ==> forall k :: k in db.files ==> r.0.files[k] == db.files[k]
    ensures !raises && !setAsActive ==> ActiveIds(r.0.files) == ActiveIds(db.files)
  {
    if raises then (db, false)
    else
      var files := if setAsActive then ClearActive(db.files) else db.files;
      ClearActiveLeavesNoneActive(db.files);
      var files' := if id in files then files else files[id := LogFileRecord(fileName, setAsActive)];
      assert setAsActive && id !in db.files ==> ActiveIds(files') == {id};
      (Db(files', db.rows), true)
  }

  /** Python truthiness of the optional `log_file_id` argument. */
  predicate Truthy(id: Option<string>)
  {
    id.Some? && id.value != ""
  }

  /**
   * The rows the entries become: a truthy `log_file_id` is stamped on each;
   * otherwise their `log_file_id` column is NULL.
   */
  function Stamp(logs: seq<LogEntry>, id: Option<string>): (r: seq<AccessRow>)
    ensures |r| == |logs|
    ensures forall i :: 0 <= i < |logs| ==> r[i].entry == logs[i]
    ensures forall i :: 0 <= i < |logs| ==> r[i].logFileId == (if Truthy(id) then id else None)
  {
    seq(|logs|, i requires 0 <= i < |logs| => AccessRow(logs[i], if Truthy(id) then id else None))
  }

  /**
   * `logs[i:i + batch_size]` for `i` in `range(0, len(logs), batch_size)`
   * with a positive size: consecutive slices that partition the input.
   */
  function Batches<T>(xs: seq<T>, size: nat): (r: seq<seq<T>>)
    requires size > 0
    ensures Flatten(r) == xs
    ensures |xs| == 0 <==> |r| == 0
    ensures forall k :: 0 <= k < |r| ==> 0 < |r[k]| <= size
    ensures forall k :: 0 <= k < |r| - 1 ==> |r[k]| == size
    decreases |xs|
  {
    if |xs| == 0 then []
    else if |xs| <= size then
      FlattenSingle(xs);
      [xs]
    else
      var rest := Batches(xs[size..], size);
      FlattenAppend([xs[..size]], rest);
      FlattenSingle(xs[..size]);
      assert xs == xs[..size] + xs[size..];
      [xs[..size]] + rest
  }

  /** What the database did with one batch. */
  datatype BatchOutcome =
    /** `executemany` and the commit succeeded. */
    | BulkInserted
    /**
     * The bulk insert failed and `_insert_logs_one_by_one` committed the
     * rows at the `accepted` indices; the others raised and were skipped.
     */
    | OneByOne(accepted: set<nat>)
    /** The fallback itself raised (its connection or commit failed). */
    | Raised

  /** The rows of `batch` at the accepted indices, in order. */
  function Accepted(batch: seq<AccessRow>, accepted: set<nat>, from: nat): (r: seq<AccessRow>)
    requires from <= |batch|
    ensures |r| <= |batch| - from
    ensures forall x :: x in r ==> x in batch
    ensures (forall i :: from <= i < |batch| ==> i in accepted) ==> r == batch[from..]
    decreases |batch| - from
  {
    if from == |batch| then []
    else
      var rest := Accepted(batch, accepted, from + 1);
      assert batch[from..] == [batch[from]] + batch[from + 1..];
      if from in accepted then [batch[from]] + rest else rest
  }

  /**
   * `_insert_logs_one_by_one`: each row in its own statement; a row that
   * raises is skipped without being counted, so the count can fall short.
   */
  function InsertOneByOne(db: Db, logs: seq<AccessRow>, accepted: set<nat>): (r: (Db, nat))
    ensures r.0.files == db.files && r.1 <= |logs|
    ensures |r.0.rows| == |db.rows| + r.1 && r.0.rows[..|db.rows|] == db.rows
    ensures forall j :: |db.rows| <= j < |r.0.rows| ==> r.0.rows[j] in logs
    ensures (forall i :: 0 <= i < |logs| ==> i in accepted) ==> r == (Db(db.files, db.rows + logs), |logs|)
  {
    var rows := Accepted(logs, accepted, 0);
    assert (db.rows + rows)[..|db.rows|] == db.rows;
    assert logs[0..] == logs;
    (Db(db.files, db.rows + rows), |rows|)
  }

  /** The rows a non-empty batch leaves in the table under an outcome. */
  function BatchRows(batch: seq<AccessRow>, outcome: BatchOutcome): seq<AccessRow>
  {
    if |batch| == 0 then []
    else match outcome
      case BulkInserted => batch
      case OneByOne(accepted) => Accepted(batch, accepted, 0)
      case Raised => []
  }

  /** The errors `insert_logs` counts for a batch: all its rows when `_insert_batch` raises. */
  function BatchErrors(batch: seq<AccessRow>, outcome: BatchOutcome): nat
  {
    if |batch| > 0 && outcome.Raised? then |batch| else 0
  }

  /**
   * `_insert_batch` with `_insert_logs` inside it: an empty batch inserts
   * nothing; otherwise the bulk insert, or after its failure the
   * one-by-one fallback; None where the fallback raises.
   */
  function InsertBatch(db: Db, batch: seq<AccessRow>, outcome: BatchOutcome): (r: Option<(Db, nat)>)
    ensures |batch| == 0 ==> r == Some((db, 0))
    ensures r.None? <==> |batch| > 0 && outcome.Raised?
    ensures r.Some? ==> r.value.0.files == db.files && r.value.1 <= |batch|
    ensures r.Some? ==> |r.value.0.rows| == |db.rows| + r.value.1 && r.value.0.rows[..|db.rows|] == db.rows
    ensures r.Some? ==> forall j :: |db.rows| <= j < |r.value.0.rows| ==> r.value.0.rows[j] in batch
    ensures r.Some? ==> r.value.0.rows == db.rows + BatchRows(batch, outcome) && r.value.1 == |BatchRows(batch, outcome)|
    ensures outcome.BulkInserted? ==> r == Some((Db(db.files, db.rows + batch), |batch|))
  {
    if |batch| == 0 then
      assert db.rows + batch == db.rows;
      Some((db, 0))
    else match outcome
      case BulkInserted => Some((Db(db.files, db.rows + batch), |batch|))
      case OneByOne(accepted) => Some(InsertOneByOne(db, batch, accepted))
      case Raised => None
  }

  /** Reference accounting: the rows the first `n` batches leave in the table, in order. */
  function WrittenRows(batches: seq<seq<AccessRow>>, outcomes: nat -> BatchOutcome, n: nat): seq<AccessRow>
    requires n <= |batches|
  {
    if n == 0 then [] else WrittenRows(batches, outcomes, n - 1) + BatchRows(batches[n - 1], outcomes(n - 1))
  }

  /** Reference accounting: the errors counted for the first `n` batches. */
  function ErrorsOf(batches: seq<seq<AccessRow>>, outcomes: nat -> BatchOutcome, n: nat): nat
    requires n <= |batches|
  {
    if n == 0 then 0 else ErrorsOf(batches, outcomes, n - 1) + BatchErrors(batches[n - 1], outcomes(n - 1))
  }

  /** When every batch raises, every row of the non-empty batches is an error and none is written. */
  lemma {:induction false} AllRaisedAllErrors(batches: seq<seq<AccessRow>>, outcomes: nat -> BatchOutcome, n: nat)
    requires n <= |batches|
    requires forall k :: 0 <= k < |batches| ==> |batches[k]| > 0
    requires forall k :: outcomes(k) == Raised
    ensures ErrorsOf(batches, outcomes, n) == |Flatten(batches[..n])|
    ensures WrittenRows(batches, outcomes, n) == []
  {
    if n > 0 {
      AllRaisedAllErrors(batches, outcomes, n - 1);
      NextBatch(batches, n - 1);
    }
  }

  /** Taking one more batch extends the flattened prefix by that batch, whose rows all come from the input. */
  lemma {:induction false} NextBatch<T>(batches: seq<seq<T>>, k: nat)
    requires k < |batches|
    ensures Flatten(batches[..k + 1]) == Flatten(batches[..k]) + batches[k]
    ensures forall x :: x in batches[k] ==> x in Flatten(batches)
  {
    assert batches[..k + 1] == batches[..k] + [batches[k]];
    FlattenAppend(batches[..k], [batches[k]]);
    FlattenSingle(batches[k]);
    forall x | x in batches[k]
      ensures x in Flatten(batches)
    {
      FlattenMember(batches, k, x);
    }
  }

  /** The statistics dictionary. */
  datatype WriteStats = WriteStats(rowsAttempted: nat, rowsInserted: nat, errors: nat)

  /** The exception a zero `batch_size` makes `range` raise. */
  datatype WriteError = ZeroBatchSize

  /** A batch writes only its own rows, and its written rows and errors never exceed its size. */
  lemma {:induction false} BatchBounds(batch: seq<AccessRow>, outcome: BatchOutcome)
    ensures |BatchRows(batch, outcome)| + BatchErrors(batch, outcome) <= |batch|
    ensures forall x :: x in BatchRows(batch, outcome) ==> x in batch
  {
  }

  /** The written rows and the errors of the first `n` batches never exceed the rows sent. */
  lemma {:induction false} WrittenBounds(batches: seq<seq<AccessRow>>, outcomes: nat -> BatchOutcome, n: nat)
    requires n <= |batches|
    ensures |WrittenRows(batches, outcomes, n)| + ErrorsOf(batches, outcomes, n) <= |Flatten(batches[..n])|
    ensures forall x :: x in WrittenRows(batches, outcomes, n) ==> x in Flatten(batches)
  {
    if n > 0 {
      WrittenBounds(batches, outcomes, n - 1);
      NextBatch(batches, n - 1);
      BatchBounds(batches[n - 1], outcomes(n - 1));
    }
  }

  /** When every bulk insert succeeds the batches are written whole and in order, with no errors. */
  lemma {:induction false} AllBulkWritten(batches: seq<seq<AccessRow>>, outcomes: nat -> BatchOutcome, n: nat)
    requires n <= |batches|
    requires forall k :: outcomes(k) == BulkInserted
    ensures WrittenRows(batches, outcomes, n) == Flatten(batches[..n])
    ensures ErrorsOf(batches, outcomes, n) == 0
  {
    if n > 0 {
      AllBulkWritten(batches, outcomes, n - 1);
      NextBatch(batches, n - 1);
    }
  }

  /**
   * Every batch sent in turn: the loop of `insert_logs`. A batch whose
   * insert raises adds its size to the errors; any other adds the rows it
   * wrote to the count.
   */
  method InsertAll(db: Db, batches: seq<seq<AccessRow>>, outcomes: nat -> BatchOutcome)
    returns (cur: Db, inserted: nat, errors: nat)
    ensures cur == Db(db.files, db.rows + WrittenRows(batches, outcomes, |batches|))
    ensures inserted == |WrittenRows(batches, outcomes, |batches|)|
    ensures errors == ErrorsOf(batches, outcomes, |batches|)
    ensures inserted + errors <= |Flatten(batches)|
    ensures forall j :: |db.rows| <= j < |cur.rows| ==> cur.rows[j] in Flatten(batches)
    ensures (forall k :: outcomes(k) == BulkInserted) ==> cur.rows == db.rows + Flatten(batches) && errors == 0
  {
    cur, inserted, errors := db, 0, 0;
    var k := 0;
    assert db.rows + [] == db.rows;
    while k < |batches|
      invariant 0 <= k <= |batches|
      invariant cur == Db(db.files, db.rows + WrittenRows(batches, outcomes, k))
      invariant inserted == |WrittenRows(batches, outcomes, k)|
      invariant errors == ErrorsOf(batches, outcomes, k)
    {
      var done := InsertBatch(cur, batches[k], outcomes(k));
      ghost var w := WrittenRows(batches, outcomes, k);
      ghost var more := BatchRows(batches[k], outcomes(k));
      assert WrittenRows(batches, outcomes, k + 1) == w + more;
      if done.Some? {
        assert (db.rows + w) + more == db.rows + (w + more);
        cur := done.value.0;
        inserted := inserted + done.value.1;
      } else {
        assert w + more == w;
        errors := errors + |batches[k]|;
      }
      k := k + 1;
    }
    WrittenFacts(db, batches, outcomes);
  }

  /** What the exact accounting of all batches implies about the appended rows. */
  lemma {:induction false} WrittenFacts(db: Db, batches: seq<seq<AccessRow>>, outcomes: nat -> BatchOutcome)
    ensures |WrittenRows(batches, outcomes, |batches|)| + ErrorsOf(batches, outcomes, |batches|) <= |Flatten(batches)|
    ensures var rows := db.rows + WrittenRows(batches, outcomes, |batches|);
      forall j :: |db.rows| <= j < |rows| ==> rows[j] in Flatten(batches)
    ensures (forall k :: outcomes(k) == BulkInserted) ==>
      WrittenRows(batches, outcomes, |batches|) == Flatten(batches) && ErrorsOf(batches, outcomes, |batches|) == 0
  {
    var w := WrittenRows(batches, outcomes, |batches|);
    assert batches[..|batches|] == batches;
    WrittenBounds(batches, outcomes, |batches|);
    forall j | |db.rows| <= j < |db.rows + w|
      ensures (db.rows + w)[j] in Flatten(batches)
    {
      assert (db.rows + w)[j] == w[j - |db.rows|];
    }
    if forall k :: outcomes(k) == BulkInserted {
      AllBulkWritten(batches, outcomes, |batches|);
    }
  }

  /**
   * `insert_logs`: entries stamped with the file id, cut into batches,
   * each batch inserted or counted as errors; `outcomes(k)` is what the
   * database does with batch `k`. A negative size gives no batches.
   */
  method InsertLogs(db: Db, logs: seq<LogEntry>, logFileId: Option<string>, batchSize: int,
                    outcomes: nat -> BatchOutcome)
    returns (r: Result<(Db, WriteStats), WriteError>)
    ensures batchSize == 0 <==> r.Failure?
    ensures r.Success? ==> r.value.1.rowsAttempted == |logs|
    ensures r.Success? ==> r.value.1.rowsInserted + r.value.1.errors <= r.value.1.rowsAttempted
    ensures r.Success? ==> r.value.0.files == db.files
    ensures r.Success? ==> |r.value.0.rows| == |db.rows| + r.value.1.rowsInserted
    ensures r.Success? ==> r.value.0.rows[..|db.rows|] == db.rows
    ensures r.Success? ==> forall j :: |db.rows| <= j < |r.value.0.rows| ==> r.value.0.rows[j] in Stamp(logs, logFileId)
    ensures r.Success? && batchSize < 0 ==> r.value == (db, WriteStats(|logs|, 0, 0))
    ensures r.Success? && batchSize > 0 ==>
      var batches := Batches(Stamp(logs, logFileId), batchSize);
      && r.value.0.rows == db.rows + WrittenRows(batches, outcomes, |batches|)
      && r.value.1.rowsInserted == |WrittenRows(batches, outcomes, |batches|)|
      && r.value.1.errors == ErrorsOf(batches, outcomes, |batches|)
    ensures r.Success? && batchSize > 0 && (forall k :: outcomes(k) == BulkInserted) ==>
      r.value == (Db(db.files, db.rows + Stamp(logs, logFileId)), WriteStats(|logs|, |logs|, 0))
    ensures r.Success? && batchSize > 0 && (forall k :: outcomes(k) == Raised) ==>
      r.value == (db, WriteStats(|logs|, 0, |logs|))
  {
    if batchSize == 0 {
      return Failure(ZeroBatchSize);
    }
    var stamped := Stamp(logs, logFileId);
    if batchSize < 0 {
      return Success((db, WriteStats(|logs|, 0, 0)));
    }
    var batches := Batches(stamped, batchSize);
    var cur, inserted, errors := InsertAll(db, batches, outcomes);
    if forall k :: outcomes(k) == Raised {
      AllRaisedAllErrors(batches, outcomes, |batches|);
      assert batches[..|batches|] == batches;
      assert db.rows + [] == db.rows;
    }
    return Success((cur, WriteStats(|logs|, inserted, errors)));
  }
}

=== FILE: parser_base.dfy ===
/**
 * What `LogParser` shares between formats: the parsed-entry record, the
 * library decoders it relies on, `extract_request_id` and
 * `_parse_common_fields`.
 */
module ParserBase {
  import opened Wrappers
  import opened Text
  import opened LogGrammar

  /** A time-zone-aware `datetime`; only equality of parsed values matters here. */
  datatype Timestamp = Timestamp(epochSeconds: int, utcOffsetMinutes: int)

  /** A `uuid.UUID`: a 128-bit value. Such an object is always truthy. */
  datatype Uuid = Uuid(value: nat)

  /**
   * The library decoders the parsers call, as given functions:
   * `parseTime(text, layout)` is `datetime.strptime` (None where it raises
   * `ValueError`) and `parseUuid(text)` is `uuid.UUID` (None where it raises).
   */
  datatype Decoders = Decoders(
    parseTime: (string, string) -> Option<Timestamp>,
    parseUuid: string -> Option<Uuid>)

  /** The time layout both parsers return from `_get_time_format`. */
  const TimeLayout := "%d/%b/%Y:%H:%M:%S %z"

  /** A parsed line: exactly the nine keys of the dictionary the parsers return. */
  datatype LogEntry = LogEntry(
    time: Timestamp,
    ipAddress: string,
    requestMethod: string,
    path: string,
    status: Option<int>,
    userAgent: string,
    crawlerName: Option<string>,
    referer: Option<string>,
    requestId: Option<Uuid>)

  const RequestIdKey := "request_id="

  /** The search pattern `request_id=([^&\s]+)` matches at index `i` of `path`. */
  predicate RequestIdAt(path: string, i: nat)
  {
    OccursAt(path, RequestIdKey, i)
    && i + |RequestIdKey| < |path|
    && InClass(path[i + |RequestIdKey|], IdValueChar)
  }

  /** `re.search` from index `from`: the leftmost index where the pattern matches. */
  function SearchRequestId(path: string, from: nat): (r: Option<nat>)
    ensures r.Some? ==> from <= r.value && RequestIdAt(path, r.value)
    ensures r.Some? ==> forall i: nat :: from <= i < r.value ==> !RequestIdAt(path, i)
    ensures r.None? ==> forall i: nat :: from <= i ==> !RequestIdAt(path, i)
    decreases |path| - from
  {
    if from >= |path| then None
    else if RequestIdAt(path, from) then Some(from)
    else SearchRequestId(path, from + 1)
  }

  /** The group of the leftmost match: the value after the first usable `request_id=`. */
  function RequestIdValue(path: string): (r: Option<string>)
    ensures r.None? <==> forall i: nat :: !RequestIdAt(path, i)
    ensures r.Some? ==> |r.value| > 0 && AllIn(r.value, IdValueChar)
  {
    match SearchRequestId(path, 0)
    case None => None
    case Some(i) => Some(Span(path[i + |RequestIdKey|..], IdValueChar).tok)
  }

  /**
   * `extract_request_id`: the UUID written as the first `request_id=` value
   * of the path, or None when there is none or it is not a UUID. A later
   * value is never consulted.
   */
  function ExtractRequestId(dec: Decoders, path: string): (r: Option<Uuid>)
    ensures RequestIdValue(path).None? ==> r.None?
    ensures RequestIdValue(path).Some? ==> r == dec.parseUuid(RequestIdValue(path).value)
  {
    match RequestIdValue(path)
    case None => None
    case Some(v) => dec.parseUuid(v)
  }

  /**
   * A path whose first match is `request_id=` + `v` yields the decoding of
   * `v`, whatever follows.
   */
  lemma {:induction false} ExtractFirstValue(dec: Decoders, base: string, v: string, rest: string)
    requires forall i: nat :: i < |base| ==> !RequestIdAt(base + RequestIdKey + v + rest, i)
    requires |v| > 0 && AllIn(v, IdValueChar)
    requires rest == [] || !InClass(rest[0], IdValueChar)
    ensures ExtractRequestId(dec, base + RequestIdKey + v + rest) == dec.parseUuid(v)
  {
    var path := base + RequestIdKey + v + rest;
    var n := |base| + |RequestIdKey|;
    assert path[|base|..n] == RequestIdKey;
    assert path[n] == v[0];
    assert RequestIdAt(path, |base|);
    var i := SearchRequestId(path, 0).value;
    assert i == |base|;
    assert path[n..] == v + rest;
    SpanConcat(v, rest, IdValueChar);
  }

  /**
   * Only the first `request_id=` value is examined: when it is not a UUID
   * the result is None even if a later value is one.
   */
  lemma {:induction false} FirstInvalidValueHidesLater(dec: Decoders, v: string, w: string)
    requires |v| > 0 && AllIn(v, IdValueChar) && dec.parseUuid(v).None?
    ensures ExtractRequestId(dec, "/?" + RequestIdKey + v + ("&" + RequestIdKey + w)) == None
  {
    var path := "/?" + RequestIdKey + v + ("&" + RequestIdKey + w);
    forall i: nat | i < 2 ensures !RequestIdAt(path, i) {
      assert path[i] != 'r';
    }
    ExtractFirstValue(dec, "/?", v, "&" + RequestIdKey + w);
  }

  /**
   * The interpreter's default limit on the digits `int()` converts from a
   * decimal string (`sys.int_info.default_max_str_digits`); a longer one
   * raises ValueError.
   */
  const MaxStrDigits: nat := 4300

  /** `int(status)`, None where it raises; the grammar only ever supplies ASCII digits. */
  function ParseStatus(s: string): (r: Option<int>)
    ensures r.Some? <==> |s| > 0 && AllDigits(s) && |s| <= MaxStrDigits
    ensures r.Some? ==> r.value >= 0
  {
    if |s| > 0 && AllDigits(s) && |s| <= MaxStrDigits then Some(DigitsValue(s)) else None
  }

  /** The status read back from its decimal rendering is the number rendered. */
  lemma {:induction false} ParseStatusOfNatToString(n: nat)
    requires |NatToString(n)| <= MaxStrDigits
    ensures ParseStatus(NatToString(n)) == Some(n)
  {
    DigitsValueOfNatToString(n);
  }

  /** The fields `_parse_common_fields` rewrites; the others pass through unchanged. */
  datatype Common = Common(
    time: Timestamp, status: Option<int>, referer: Option<string>, requestId: Option<Uuid>)

  /**
   * `_parse_common_fields`, given the matched text and the request id the
   * caller already holds (None when the match has no id or it was not a
   * UUID). A time that does not parse voids the entry; a bad status becomes
   * None; the referer `-` becomes None; a missing id is recovered from the
   * path.
   */
  function ParseCommon(dec: Decoders, f: Fields, requestId: Option<Uuid>): (r: Option<Common>)
    ensures r.None? <==> dec.parseTime(f.time, TimeLayout).None?
    ensures r.Some? ==> Some(r.value.time) == dec.parseTime(f.time, TimeLayout)
    ensures r.Some? ==> r.value.status == ParseStatus(f.status)
    ensures r.Some? ==> (r.value.referer.None? <==> f.referer == "-")
    ensures r.Some? && r.value.referer.Some? ==> r.value.referer.value == f.referer
    ensures r.Some? && requestId.Some? ==> r.value.requestId == requestId
    ensures r.Some? && requestId.None? ==> r.value.requestId == ExtractRequestId(dec, f.path)
  {
    var time :- dec.parseTime(f.time, TimeLayout);
    var referer := if f.referer == "-" then None else Some(f.referer);
    var requestId := if requestId.Some? then requestId else ExtractRequestId(dec, f.path);
    Some(Common(time, ParseStatus(f.status), referer, requestId))
  }
}

=== FILE: processor.dfy ===
/**
 * The log processor: format detection on a sample, splitting the file into
 * chunks, filtering each chunk down to LLM-crawler entries, and the counters
 * `LogProcessor.process` reports. The file is given as its lines; the
 * process pool is a sequential map over the chunks.
 */
module Processor {
  import opened Wrappers
  import opened Text
  import opened SeqUtil
  import opened ParserBase
  import opened LogParsers
  import CrawlerDetection

  /** The exceptions `process` lets escape. */
  datatype ProcessError = ValueError(message: string) | ZeroDivisionError

  /** Every line as read, passed through `line.strip()`. */
  function StripAll(lines: seq<string>): (r: seq<string>)
    ensures |r| == |lines|
    ensures forall i :: 0 <= i < |lines| ==> r[i] == Strip(lines[i])
  {
    seq(|lines|, i requires 0 <= i < |lines| => Strip(lines[i]))
  }

  /** Some parser accepts the line (a parsed entry is a non-empty dictionary, so truthy). */
  predicate Recognised(dec: Decoders, line: string)
  {
    ParseApacheLine(dec, line).Some? || ParseNginxLine(dec, line).Some?
  }

  /** The format name for the first recognised line: Apache is tried first. */
  function FormatOf(dec: Decoders, line: string): string
  {
    if ParseApacheLine(dec, line).Some? then "apache" else "nginx"
  }

  /**
   * `detect_log_format`: the format of the first line some parser accepts,
   * trying Apache before Nginx on each line; None when no line is accepted.
   */
  function DetectLogFormat(dec: Decoders, sample: seq<string>): (r: Option<string>)
    ensures r.None? <==> forall i :: 0 <= i < |sample| ==> !Recognised(dec, sample[i])
    ensures r.Some? ==> exists i :: DetectedAt(dec, sample, i, r.value)
    ensures r.Some? ==> r.value == "apache"
  {
    match FirstIndex(sample, line => Recognised(dec, line), 0)
    case None => None
    case Some(i) =>
      var format := FormatOf(dec, sample[i]);
      RecognisedIsApache(dec, sample[i]);
      assert DetectedAt(dec, sample, i, format);
      Some(format)
  }

  /** Detection stops at line `i`, the first recognised one, and names `format`. */
  predicate DetectedAt(dec: Decoders, sample: seq<string>, i: nat, format: string)
  {
    FirstRecognised(dec, sample, i) && format == FormatOf(dec, sample[i])
  }

  /** Line `i` is the first line of the sample that some parser accepts. */
  predicate FirstRecognised(dec: Decoders, sample: seq<string>, i: nat)
  {
    i < |sample| && Recognised(dec, sample[i]) && forall j :: 0 <= j < i ==> !Recognised(dec, sample[j])
  }

  /**
   * Every recognised line is named "apache": the Apache pattern is the
   * Nginx fallback pattern, so Apache accepts every line Nginx accepts and
   * is tried first. Detection therefore never answers "nginx".
   */
  lemma {:induction false} RecognisedIsApache(dec: Decoders, line: string)
    requires Recognised(dec, line)
    ensures FormatOf(dec, line) == "apache"
  {
    NginxAgreesWithApache(dec, line);
  }

  /** The default number of lines `detect_format` samples. */
  const DefaultSampleLines := 100

  /** The lines `detect_format` reads: at most `numLines` leading lines, stripped. */
  function SampleLines(lines: seq<string>, numLines: int): (r: seq<string>)
    ensures |r| <= |lines| && (numLines >= 0 ==> |r| <= numLines)
    ensures numLines >= |lines| ==> |r| == |lines|
    ensures forall i :: 0 <= i < |r| ==> r[i] == Strip(lines[i])
  {
    var n := if numLines <= 0 then 0 else if numLines < |lines| then numLines else |lines|;
    StripAll(lines[..n])
  }

  /** `LogProcessor.detect_format`. */
  function DetectFormat(dec: Decoders, lines: seq<string>, numLines: int): Option<string>
  {
    DetectLogFormat(dec, SampleLines(lines, numLines))
  }

  function Abs(n: int): nat
  {
    if n < 0 then -n else n
  }

  /** Python's `a % b` (the sign of the divisor). */
  function PyMod(a: int, b: int): (r: int)
    requires b != 0
    ensures r == 0 <==> a % Abs(b) == 0
    ensures b > 0 ==> 0 <= r < b
    ensures b < 0 ==> b < r <= 0
  {
    var m := a % Abs(b);
    if b < 0 && m != 0 then m - Abs(b) else m
  }

  lemma {:induction false} MulAtLeast(a: int, k: int)
    requires a >= 1 && k >= 1
    ensures a * k >= k
  {
  }

  /** A non-zero multiple of a positive `k` is at least `k` away from 0. */
  lemma {:induction false} MulAwayFromZero(d: int, k: int)
    requires d != 0 && k >= 1
    ensures d * k >= k || d * k <= -k
  {
    if d > 0 {
      MulAtLeast(d, k);
    } else {
      MulAtLeast(-d, k);
      assert d * k == -((-d) * k);
    }
  }

  /** `a % k` is the remainder of any division of `a` by `k`. */
  lemma {:induction false} ModUnique(a: int, k: int, q: int, r: int)
    requires k > 0 && 0 <= r < k && a == q * k + r
    ensures a % k == r
  {
    var q', r' := a / k, a % k;
    assert (q - q') * k == r' - r;
    if q != q' {
      MulAwayFromZero(q - q', k);
    }
  }

  /** `q * k + r` is a multiple of `k` exactly when the remainder `r` (at most `k`) is `k`. */
  lemma {:induction false} RemainderStep(q: nat, r: nat, k: nat)
    requires 0 < r <= k
    ensures (q * k + r) % k == 0 <==> r == k
  {
    if r == k {
      assert q * k + r == (q + 1) * k + 0;
      ModUnique(q * k + r, k, q + 1, 0);
    } else {
      ModUnique(q * k + r, k, q, r);
    }
  }

  /** The chunk test `(i + 1) % chunk_size == 0` fires exactly when the current chunk is full. */
  lemma {:induction false} ChunkBoundary(q: nat, r: nat, chunkSize: int)
    requires chunkSize != 0 && 0 < r <= Abs(chunkSize)
    ensures PyMod(q * Abs(chunkSize) + r, chunkSize) == 0 <==> r == Abs(chunkSize)
  {
    RemainderStep(q, r, Abs(chunkSize));
  }

  /** Closing the current chunk keeps the concatenation of all lines seen. */
  lemma {:induction false} CloseChunk<T>(chunks: seq<seq<T>>, current: seq<T>)
    ensures Flatten(chunks + [current]) == Flatten(chunks) + current
  {
    FlattenAppend(chunks, [current]);
    FlattenSingle(current);
  }

  /**
   * `chunk_file` over the file's lines: stripped lines grouped into chunks
   * of `chunk_size` (Python's `%` makes a negative size act like its
   * absolute value); a size of 0 raises on the first line.
   */
  method ChunkFile(lines: seq<string>, chunkSize: int) returns (r: Result<seq<seq<string>>, ProcessError>)
    ensures r.Failure? <==> chunkSize == 0 && |lines| > 0
    ensures r.Failure? ==> r.error == ZeroDivisionError
    ensures r.Success? ==> Flatten(r.value) == StripAll(lines)
    ensures r.Success? ==> (|r.value| == 0 <==> |lines| == 0)
    ensures r.Success? ==> forall c :: 0 <= c < |r.value| - 1 ==> |r.value[c]| == Abs(chunkSize)
    ensures r.Success? && |r.value| > 0 ==> 0 < |r.value[|r.value| - 1]| <= Abs(chunkSize)
  {
    if |lines| == 0 {
      return Success([]);
    }
    if chunkSize == 0 {
      return Failure(ZeroDivisionError);
    }
    var chunks := ChunkLines(StripAll(lines), chunkSize);
    return Success(chunks);
  }

  /** The loop of `chunk_file` for a non-zero size over already stripped lines. */
  method ChunkLines(stripped: seq<string>, chunkSize: int) returns (chunks: seq<seq<string>>)
    requires chunkSize != 0
    ensures Flatten(chunks) == stripped
    ensures |chunks| == 0 <==> |stripped| == 0
    ensures forall c :: 0 <= c < |chunks| - 1 ==> |chunks[c]| == Abs(chunkSize)
    ensures |chunks| > 0 ==> 0 < |chunks[|chunks| - 1]| <= Abs(chunkSize)
  {
    var k := Abs(chunkSize);
    chunks := [];
    var current: seq<string> := [];
    var i := 0;
    while i < |stripped|
      invariant 0 <= i <= |stripped|
      invariant Flatten(chunks) + current == stripped[..i]
      invariant forall c :: 0 <= c < |chunks| ==> |chunks[c]| == k
      invariant |chunks| * k + |current| == i
      invariant |current| < k
    {
      ChunkBoundary(|chunks|, |current| + 1, chunkSize);
      assert stripped[..i + 1] == stripped[..i] + [stripped[i]];
      current := current + [stripped[i]];
      if PyMod(i + 1, chunkSize) == 0 {
        CloseChunk(chunks, current);
        chunks := chunks + [current];
        current := [];
      }
      i := i + 1;
    }
    if |current| > 0 {
      CloseChunk(chunks, current);
      chunks := chunks + [current];
    } else if |stripped| > 0 {
      assert |chunks| > 0;
    }
    assert stripped[..|stripped|] == stripped;
  }

  /** `process_chunk` picks the Apache line parser for "apache" and the Nginx one for anything else. */
  function ParseWith(dec: Decoders, format: string, line: string): Option<LogEntry>
  {
    if format == "apache" then ParseApacheLine(dec, line) else ParseNginxLine(dec, line)
  }

  /** The entry a line contributes: parsed, with a non-empty user agent that is an LLM crawler. */
  function Keep(dec: Decoders, format: string, line: string): (r: Option<LogEntry>)
    ensures r.Some? <==>
      && ParseWith(dec, format, line).Some?
      && ParseWith(dec, format, line).value.userAgent != ""
      && CrawlerDetection.IsLlmCrawler(ParseWith(dec, format, line).value.userAgent)
    ensures r.Some? ==> r == ParseWith(dec, format, line)
  {
    var p := ParseWith(dec, format, line);
    if p.Some? && p.value.userAgent != "" && CrawlerDetection.IsLlmCrawler(p.value.userAgent) then p else None
  }

  /**
   * `process_chunk`: the kept entries, in line order. Every result is a parsed
   * line whose user agent is a non-empty LLM crawler, and every such line is
   * in the result.
   */
  function ProcessChunk(dec: Decoders, chunk: seq<string>, format: string): (r: seq<LogEntry>)
    ensures |r| <= |chunk|
    ensures forall e :: e in r ==> e.userAgent != "" && CrawlerDetection.IsLlmCrawler(e.userAgent)
    ensures forall e :: e in r ==> exists i :: 0 <= i < |chunk| && ParseWith(dec, format, chunk[i]) == Some(e)
    ensures forall i :: 0 <= i < |chunk| && Keep(dec, format, chunk[i]).Some? ==> Keep(dec, format, chunk[i]).value in r
  {
    FilterMap(chunk, line => Keep(dec, format, line))
  }

  /** Filtering a concatenation is concatenating the filtered parts. */
  lemma {:induction false} ProcessChunkAppend(dec: Decoders, a: seq<string>, b: seq<string>, format: string)
    ensures ProcessChunk(dec, a + b, format) == ProcessChunk(dec, a, format) + ProcessChunk(dec, b, format)
  {
    FilterMapAppend(a, b, line => Keep(dec, format, line));
  }

  /** `pool.map(process_fn, chunks)`, run in order. */
  function MapChunks(dec: Decoders, chunks: seq<seq<string>>, format: string): (r: seq<seq<LogEntry>>)
    ensures |r| == |chunks|
    ensures forall c :: 0 <= c < |chunks| ==> r[c] == ProcessChunk(dec, chunks[c], format)
  {
    seq(|chunks|, c requires 0 <= c < |chunks| => ProcessChunk(dec, chunks[c], format))
  }

  /** Chunking never changes the output: the flattened per-chunk results are the whole-file result. */
  lemma {:induction false} ChunkingPreservesResults(dec: Decoders, chunks: seq<seq<string>>, format: string)
    ensures Flatten(MapChunks(dec, chunks, format)) == ProcessChunk(dec, Flatten(chunks), format)
    decreases |chunks|
  {
    if |chunks| > 0 {
      ChunkingPreservesResults(dec, chunks[1..], format);
      assert MapChunks(dec, chunks, format)[1..] == MapChunks(dec, chunks[1..], format);
      ProcessChunkAppend(dec, chunks[0], Flatten(chunks[1..]), format);
    }
  }

  /** `LogProcessor.__init__`: `num_processes or max(1, cpu_count() - 1)` (None and 0 are falsy). */
  function NumProcesses(requested: Option<int>, cpuCount: int): (r: int)
    ensures requested.None? || requested.value == 0 ==> r >= 1
    ensures requested.Some? && requested.value != 0 ==> r == requested.value
  {
    if requested.Some? && requested.value != 0 then requested.value
    else if cpuCount - 1 > 1 then cpuCount - 1 else 1
  }

  /** The counters `process` reports; wall-clock time is the given `elapsed`. */
  datatype Stats = Stats(
    totalLines: nat, llmMatches: nat, matchPercentage: real,
    processingTimeSeconds: real, linesPerSecond: real)

  /** A share of a positive whole lies between 0 and 1. */
  lemma {:induction false} RatioAtMostOne(a: real, b: real)
    requires 0.0 <= a && b > 0.0
    ensures 0.0 <= a / b
    ensures a <= b ==> a / b <= 1.0
  {
    var x := a / b;
    assert x * b == a;
    if x > 1.0 {
      assert (x - 1.0) * b > 0.0;
    }
  }

  function MakeStats(totalLines: nat, llmMatches: nat, elapsed: real): (s: Stats)
    ensures s.totalLines == totalLines && s.llmMatches == llmMatches
    ensures totalLines == 0 ==> s.matchPercentage == 0.0
    ensures llmMatches <= totalLines ==> 0.0 <= s.matchPercentage <= 100.0
    ensures elapsed <= 0.0 ==> s.linesPerSecond == 0.0
    ensures elapsed > 0.0 ==> s.linesPerSecond * elapsed == totalLines as real
  {
    var percentage :=
      if totalLines > 0 then
        RatioAtMostOne(llmMatches as real, totalLines as real);
        llmMatches as real / totalLines as real * 100.0
      else 0.0;
    Stats(totalLines, llmMatches, percentage, elapsed,
          if elapsed > 0.0 then totalLines as real / elapsed else 0.0)
  }

  datatype Processed = Processed(results: seq<LogEntry>, stats: Stats)

  /**
   * `LogProcessor.process` on a processor built with the requested process
   * count and the machine's CPU count: detection first (a ValueError naming
   * the file when it fails, before any chunking), then chunking, the pool
   * (which refuses fewer than one process) and flattening. `filePath` is
   * the text the processor's `Path` prints, taken as given.
   */
  method Process(dec: Decoders, filePath: string, lines: seq<string>, chunkSize: int,
                 requested: Option<int>, cpuCount: int, elapsed: real)
    returns (r: Result<Processed, ProcessError>)
    ensures DetectFormat(dec, lines, DefaultSampleLines).None? ==>
      r == Failure(ValueError("Could not determine log format for " + filePath))
    ensures DetectFormat(dec, lines, DefaultSampleLines).Some? && chunkSize == 0 ==> r == Failure(ZeroDivisionError)
    ensures DetectFormat(dec, lines, DefaultSampleLines).Some? && chunkSize != 0 ==>
      (r.Success? <==> NumProcesses(requested, cpuCount) >= 1)
    ensures DetectFormat(dec, lines, DefaultSampleLines).Some? && chunkSize != 0 && NumProcesses(requested, cpuCount) < 1 ==>
      r == Failure(ValueError("Number of processes must be at least 1"))
    ensures DetectFormat(dec, lines, DefaultSampleLines).Some? && chunkSize != 0 && (requested.None? || requested.value == 0) ==>
      r.Success?
    ensures r.Success? ==> DetectFormat(dec, lines, DefaultSampleLines) == Some("apache")
    ensures r.Success? ==> r.value.results == ProcessChunk(dec, StripAll(lines), "apache")
    ensures r.Success? ==> r.value.stats.totalLines == |lines| && r.value.stats.llmMatches == |r.value.results|
    ensures r.Success? ==> r.value.stats.llmMatches <= r.value.stats.totalLines
  {
    var format := DetectFormat(dec, lines, DefaultSampleLines);
    if format.None? {
      return Failure(ValueError("Could not determine log format for " + filePath));
    }
    var chunked := ChunkFile(lines, chunkSize);
    if chunked.Failure? {
      return Failure(chunked.error);
    }
    var chunks := chunked.value;
    FlattenLength(chunks);
    var totalLines := TotalLength(chunks);
    var numProcesses := NumProcesses(requested, cpuCount);
    if numProcesses < 1 {
      return Failure(ValueError("Number of processes must be at least 1"));
    }
    var results := Flatten(MapChunks(dec, chunks, format.value));
    ChunkingPreservesResults(dec, chunks, format.value);
    return Success(Processed(results, MakeStats(totalLines, |results|, elapsed)));
  }
}

=== FILE: seq_util.dfy ===
/**
 * Sequence helpers: concatenating a list of lists
 * (`itertools.chain.from_iterable`), filtering with a per-element result,
 * and finding the first element with a property.
 */
module SeqUtil {
  import opened Wrappers

  function Flatten<T>(xss: seq<seq<T>>): (r: seq<T>)
    ensures |xss| == 0 ==> r == []
  {
    if |xss| == 0 then [] else xss[0] + Flatten(xss[1..])
  }

  /** Flattening distributes over concatenation of the outer list. */
  lemma {:induction false} FlattenAppend<T>(a: seq<seq<T>>, b: seq<seq<T>>)
    ensures Flatten(a + b) == Flatten(a) + Flatten(b)
    decreases |a|
  {
    if |a| == 0 {
      assert a + b == b;
    } else {
      assert (a + b)[1..] == a[1..] + b;
      FlattenAppend(a[1..], b);
    }
  }

  lemma {:induction false} FlattenSingle<T>(xs: seq<T>)
    ensures Flatten([xs]) == xs
  {
    assert [xs][1..] == [];
  }

  /** The total length of the inner lists. */
  function TotalLength<T>(xss: seq<seq<T>>): nat
  {
    if |xss| == 0 then 0 else |xss[0]| + TotalLength(xss[1..])
  }

  lemma {:induction false} FlattenLength<T>(xss: seq<seq<T>>)
    ensures |Flatten(xss)| == TotalLength(xss)
    decreases |xss|
  {
    if |xss| > 0 {
      FlattenLength(xss[1..]);
    }
  }

  /** The results `f` gives, in order, skipping the elements it gives None for. */
  function FilterMap<A, B>(xs: seq<A>, f: A -> Option<B>): (r: seq<B>)
    ensures |r| <= |xs|
    ensures forall b :: b in r ==> exists i :: 0 <= i < |xs| && f(xs[i]) == Some(b)
    ensures forall i :: 0 <= i < |xs| && f(xs[i]).Some? ==> f(xs[i]).value in r
    decreases |xs|
  {
    if |xs| == 0 then []
    else
      var rest := FilterMap(xs[1..], f);
      assert forall i :: 1 <= i < |xs| ==> xs[i] == xs[1..][i - 1];
      if f(xs[0]).Some? then [f(xs[0]).value] + rest else rest
  }

  /** Filtering a concatenation is concatenating the filtered parts. */
  lemma {:induction false} FilterMapAppend<A, B>(a: seq<A>, b: seq<A>, f: A -> Option<B>)
    ensures FilterMap(a + b, f) == FilterMap(a, f) + FilterMap(b, f)
    decreases |a|
  {
    if |a| == 0 {
      assert a + b == b;
    } else {
      assert (a + b)[0] == a[0];
      assert (a + b)[1..] == a[1..] + b;
      FilterMapAppend(a[1..], b, f);
    }
  }

  /** The first index at or after `from` whose element satisfies `p`. */
  function FirstIndex<A>(xs: seq<A>, p: A -> bool, from: nat): (r: Option<nat>)
    ensures r.Some? ==> from <= r.value < |xs| && p(xs[r.value])
    ensures r.Some? ==> forall j :: from <= j < r.value ==> !p(xs[j])
    ensures r.None? ==> forall j :: from <= j < |xs| ==> !p(xs[j])
    decreases |xs| - from
  {
    if from >= |xs| then None
    else if p(xs[from]) then Some(from)
    else FirstIndex(xs, p, from + 1)
  }

  /** An element of one of the lists is an element of the flattened list. */
  lemma {:induction false} FlattenMember<T>(xss: seq<seq<T>>, k: nat, x: T)
    requires k < |xss| && x in xss[k]
    ensures x in Flatten(xss)
    decreases k
  {
    if k > 0 {
      FlattenMember(xss[1..], k - 1, x);
    }
  }
}

=== FILE: sql_guard.dfy ===
/**
 * The text checks applied to user SQL: `SQLQueryRequest.validate_query`
 * (comment removal, the SELECT/WITH test and the forbidden-keyword test)
 * and the parts of `execute_sql_query` that act on the text alone (the
 * SELECT/WITH test, the appended LIMIT and the placeholder rewrite).
 */
module SqlGuard {
  import opened Wrappers
  import opened Text

  // ---------------------------------------------------------------------
  // Occurrence facts used below
  // ---------------------------------------------------------------------

  /** `Find` answers `p` when `w` occurs at `p` and nowhere before. */
  lemma {:induction false} FindIs(s: string, w: string, p: nat)
    requires OccursAt(s, w, p)
    requires forall j: nat :: j < p ==> !OccursAt(s, w, j)
    ensures Find(s, w) == Some(p)
  {
  }

  /**
   * In `a + w + rest`, a two-character `w` is first found right after `a`
   * when `a` lacks it and no occurrence straddles the join.
   */
  lemma {:induction false} FirstAfter(a: string, w: string, rest: string)
    requires |w| == 2 && !Contains(a, w)
    requires w[0] != w[1] || |a| == 0 || a[|a| - 1] != w[0]
    ensures Find(a + w + rest, w) == Some(|a|)
  {
    var s := a + w + rest;
    assert s[|a|..|a| + 2] == w;
    forall j: nat | j < |a|
      ensures !OccursAt(s, w, j)
    {
      if j + 2 <= |a| {
        if OccursAt(s, w, j) {
          assert a[j..j + 2] == s[j..j + 2];
          ContainsAt(a, w, j);
        }
      } else {
        assert s[j + 1] == w[0] && s[j] == a[|a| - 1];
      }
    }
    FindIs(s, w, |a|);
  }

  /** A two-character word made of other characters than `c` does not straddle `c`. */
  lemma {:induction false} NotAcross(x: string, c: char, y: string, w: string)
    requires |w| == 2 && c != w[0] && c != w[1]
    requires !Contains(x, w) && !Contains(y, w)
    ensures !Contains(x + [c] + y, w)
  {
    var s := x + [c] + y;
    ContainsIffWindow(s, w);
    if Contains(s, w) {
      var i: nat :| OccursAt(s, w, i);
      if i + 2 <= |x| {
        assert x[i..i + 2] == s[i..i + 2];
        ContainsAt(x, w, i);
      } else if i + 1 == |x| || i == |x| {
        assert false;
      } else {
        var k := i - |x| - 1;
        assert y[k..k + 2] == s[i..i + 2];
        ContainsAt(y, w, k);
      }
    }
  }

  /** A word with a character that the text lacks does not occur in it. */
  lemma {:induction false} AbsentChar(s: string, w: string, k: nat)
    requires k < |w| && w[k] !in s
    ensures !Contains(s, w)
  {
    if Contains(s, w) {
      ContainsHasChar(s, w, k);
    }
  }

  /** A word whose first two characters never appear side by side in the text does not occur in it. */
  lemma {:induction false} AbsentPair(s: string, w: string)
    requires |w| >= 2
    requires forall i :: 0 <= i < |s| - 1 && s[i] == w[0] ==> s[i + 1] != w[1]
    ensures !Contains(s, w)
  {
    forall i: nat | i + |w| <= |s|
      ensures !OccursAt(s, w, i)
    {
      assert s[i..i + |w|][0] == s[i] && s[i..i + |w|][1] == s[i + 1];
    }
    ContainsIffWindow(s, w);
  }

  /** Text before the first occurrence of `w` does not contain `w`. */
  lemma {:induction false} BeforeFirst(s: string, w: string, p: nat)
    requires p <= |s| && |w| > 0
    requires forall j: nat :: j < p ==> !OccursAt(s, w, j)
    ensures !Contains(s[..p], w)
  {
    ContainsIffWindow(s[..p], w);
    if Contains(s[..p], w) {
      var j: nat :| OccursAt(s[..p], w, j);
      assert j + |w| <= p;
      assert s[j..j + |w|] == s[..p][j..j + |w|];
      assert OccursAt(s, w, j);
    }
  }

  lemma {:induction false} UpperAppend(a: string, b: string)
    ensures Upper(a + b) == Upper(a) + Upper(b)
  {
  }

  // ---------------------------------------------------------------------
  // validate_query
  // ---------------------------------------------------------------------

  /** One line with everything from its first `--` removed. */
  function CutLineComment(line: string): (r: string)
    ensures !Contains(r, "--")
    ensures StartsWith(line, r)
    ensures !Contains(line, "--") ==> r == line
  {
    match Find(line, "--")
    case None =>
      ContainsIffWindow(line, "--");
      line
    case Some(p) =>
      BeforeFirst(line, "--", p);
      ContainsAt(line, "--", p);
      line[..p]
  }

  /** The lines with their comments cut, each followed by a newline. */
  function CutLines(lines: seq<string>): (r: string)
    ensures !Contains(r, "--")
  {
    if |lines| == 0 then ""
    else
      var rest := CutLines(lines[1..]);
      NotAcross(CutLineComment(lines[0]), '\n', rest, "--");
      CutLineComment(lines[0]) + "\n" + rest
  }

  /** The single-line comment pass: split on newlines, cut each line at `--`, rejoin with a newline after each. */
  function StripLineComments(value: string): (r: string)
    ensures !Contains(r, "--")
  {
    CutLines(Split(value, '\n'))
  }

  lemma {:induction false} SplitWithoutSeparator(s: string, sep: char)
    requires sep !in s
    ensures Split(s, sep) == [s]
    decreases |s|
  {
    if |s| > 0 {
      SplitWithoutSeparator(s[1..], sep);
      assert [s[0]] + s[1..] == s;
    }
  }

  /** A single line without comments only gains the trailing newline. */
  lemma {:induction false} PlainLine(s: string)
    requires '\n' !in s && !Contains(s, "--")
    ensures StripLineComments(s) == s + "\n"
  {
    SplitWithoutSeparator(s, '\n');
    var lines: seq<string> := [s];
    assert lines[1..] == [];
    assert CutLines(lines[1..]) == "";
    assert CutLineComment(s) == s;
    assert CutLines(lines) == s + "\n" + "";
  }

  /**
   * The block-comment pass (a non-greedy `re.sub` from an opening slash-star
   * to a closing star-slash): from the leftmost opening to the nearest
   * closing after it is deleted, repeatedly; an opening without a closing
   * stays.
   */
  function RemoveBlockComments(s: string): (r: string)
    ensures |r| <= |s|
    decreases |s|
  {
    match Find(s, "/*")
    case None => s
    case Some(i) =>
      match Find(s[i + 2..], "*/")
      case None => s
      case Some(j) => s[..i] + RemoveBlockComments(s[i + 2 + j + 2..])
  }

  /** Text without an opening is left alone. */
  lemma {:induction false} NoBlockComment(s: string)
    requires !Contains(s, "/*")
    ensures RemoveBlockComments(s) == s
  {
    if Find(s, "/*").Some? {
      ContainsAt(s, "/*", Find(s, "/*").value);
    }
  }

  /** The first comment, up to its nearest closing, is deleted, and the pass goes on after it. */
  lemma {:induction false} RemoveFirstBlockComment(a: string, c: string, b: string)
    requires !Contains(a, "/*") && !Contains(c, "*/")
    ensures RemoveBlockComments(a + "/*" + c + "*/" + b) == a + RemoveBlockComments(b)
  {
    var s := a + "/*" + c + "*/" + b;
    assert s == a + "/*" + (c + "*/" + b);
    FirstAfter(a, "/*", c + "*/" + b);
    var t := s[|a| + 2..];
    assert t == c + "*/" + b;
    FirstAfter(c, "*/", b);
    assert t[|c| + 2..] == b;
    assert s[|a| + 2 + |c| + 2..] == b;
    assert s[..|a|] == a;
  }

  /** An opening that is never closed is kept. */
  lemma {:induction false} UnclosedBlockCommentKept(a: string, c: string)
    requires !Contains(a, "/*") && !Contains(c, "*/")
    ensures RemoveBlockComments(a + "/*" + c) == a + "/*" + c
  {
    var s := a + "/*" + c;
    FirstAfter(a, "/*", c);
    assert s[|a| + 2..] == c;
    ContainsIffWindow(c, "*/");
  }

  /** The text the checks look at: comments removed, stripped, upper-cased. */
  function Cleaned(value: string): string
  {
    Upper(Strip(RemoveBlockComments(StripLineComments(value))))
  }

  const ForbiddenKeywords: seq<string> := ["INSERT", "UPDATE", "DELETE", "DROP", "ALTER", "CREATE", "TRUNCATE"]

  /** The four tests for one keyword; the two prefix tests are implied by the padded ones. */
  predicate KeywordHit(q: string, kw: string)
  {
    || Contains(" " + q + " ", " " + kw + " ")
    || Contains(" " + q + " ", " " + kw + "(")
    || StartsWith(q, kw + " ")
    || StartsWith(q, kw + "(")
  }

  /** `any(...)` over the forbidden keywords from index `from`. */
  function AnyForbidden(q: string, from: nat): (r: bool)
    requires from <= |ForbiddenKeywords|
    ensures r <==> exists k :: from <= k < |ForbiddenKeywords| && KeywordHit(q, ForbiddenKeywords[k])
    decreases |ForbiddenKeywords| - from
  {
    if from == |ForbiddenKeywords| then false
    else KeywordHit(q, ForbiddenKeywords[from]) || AnyForbidden(q, from + 1)
  }

  const ForbiddenMessage := "Query contains forbidden keywords: INSERT, UPDATE, DELETE, DROP, ALTER, CREATE, TRUNCATE"

  /** A query the checks accept, given its cleaned text. */
  predicate Acceptable(q: string)
  {
    && (StartsWith(q, "SELECT") || StartsWith(q, "WITH"))
    && (StartsWith(q, "WITH") ==> Contains(q, "SELECT"))
    && !exists k :: 0 <= k < |ForbiddenKeywords| && KeywordHit(q, ForbiddenKeywords[k])
  }

  /** The three checks of `validate_query` on the cleaned text, in order; None when all pass. */
  function Verdict(q: string): (r: Option<string>)
    ensures r.None? <==> Acceptable(q)
    ensures !(StartsWith(q, "SELECT") || StartsWith(q, "WITH")) ==> r == Some("Only SELECT or WITH queries are allowed")
    ensures StartsWith(q, "WITH") && !Contains(q, "SELECT") ==> r == Some("WITH statements must include a SELECT query")
    ensures r.Some? ==> r.value in {"Only SELECT or WITH queries are allowed",
                                    "WITH statements must include a SELECT query", ForbiddenMessage}
  {
    if !(StartsWith(q, "SELECT") || StartsWith(q, "WITH")) then Some("Only SELECT or WITH queries are allowed")
    else if StartsWith(q, "WITH") && !Contains(q, "SELECT") then Some("WITH statements must include a SELECT query")
    else if AnyForbidden(q, 0) then Some(ForbiddenMessage)
    else None
  }

  /**
   * `validate_query`: the checks run on the cleaned text, and an accepted
   * query is returned exactly as given, comments included.
   */
  function ValidateQuery(value: string): (r: Result<string, string>)
    ensures r.Success? <==> Acceptable(Cleaned(value))
    ensures r.Success? ==> r.value == value
    ensures r.Failure? ==> Verdict(Cleaned(value)) == Some(r.error)
  {
    match Verdict(Cleaned(value))
    case None => Success(value)
    case Some(e) => Failure(e)
  }

  /** On one line, a comment after a query without `--` of its own is cut off entirely. */
  lemma {:induction false} LineCommentCut(q: string, c: string)
    requires '\n' !in q && '\n' !in c
    requires !Contains(q, "--") && (|q| == 0 || q[|q| - 1] != '-')
    ensures StripLineComments(q + "--" + c) == q + "\n"
  {
    var s := q + "--" + c;
    assert '\n' !in s;
    SplitWithoutSeparator(s, '\n');
    FirstAfter(q, "--", c);
    assert s[..|q|] == q;
    assert CutLineComment(s) == q;
    var lines: seq<string> := [s];
    assert lines[1..] == [];
    assert CutLines(lines) == CutLineComment(s) + "\n" + CutLines([]);
    assert Split(s, '\n') == lines;
  }

  /** A keyword tucked into a line comment does not change the verdict. */
  lemma {:induction false} LineCommentIgnored(q: string, c: string)
    requires '\n' !in q && '\n' !in c
    requires !Contains(q, "--") && (|q| == 0 || q[|q| - 1] != '-')
    ensures ValidateQuery(q + "--" + c) == (if ValidateQuery(q).Success? then Success(q + "--" + c) else ValidateQuery(q))
  {
    CommentedSameStripped(q, c);
    SameStrippedSameVerdict(q + "--" + c, q);
  }

  lemma {:induction false} CommentedSameStripped(q: string, c: string)
    requires '\n' !in q && '\n' !in c
    requires !Contains(q, "--") && (|q| == 0 || q[|q| - 1] != '-')
    ensures StripLineComments(q + "--" + c) == StripLineComments(q)
  {
    LineCommentCut(q, c);
    PlainLine(q);
  }

  lemma {:induction false} SameStrippedSameVerdict(a: string, b: string)
    requires StripLineComments(a) == StripLineComments(b)
    ensures ValidateQuery(a) == (if ValidateQuery(b).Success? then Success(a) else ValidateQuery(b))
  {
    SameCleanedSameVerdict(a, b);
  }

  /** The verdict depends on the cleaned text alone; only the returned text differs. */
  lemma {:induction false} SameCleanedSameVerdict(a: string, b: string)
    requires Cleaned(a) == Cleaned(b)
    ensures ValidateQuery(a) == (if ValidateQuery(b).Success? then Success(a) else ValidateQuery(b))
  {
  }

  /** Cleaning a one-line query without comments or surrounding blanks only upper-cases it. */
  lemma {:induction false} CleanedPlain(s: string)
    requires '\n' !in s && !Contains(s, "--") && !Contains(s, "/*")
    requires |s| > 0 && !IsSpace(s[0]) && !IsSpace(s[|s| - 1])
    ensures Cleaned(s) == Upper(s)
  {
    PlainLine(s);
    NotAcross(s, '\n', "", "/*");
    assert s + ['\n'] + "" == s + "\n";
    NoBlockComment(s + "\n");
    assert RStrip(s + "\n") == s by {
      assert (s + "\n")[..|s + "\n"| - 1] == s;
    }
  }

  /** The same for a query that has no newline, dash or slash at all. */
  lemma {:induction false} CleanedPlainChars(s: string)
    requires '\n' !in s && '-' !in s && '/' !in s
    requires |s| > 0 && !IsSpace(s[0]) && !IsSpace(s[|s| - 1])
    ensures Cleaned(s) == Upper(s)
  {
    AbsentChar(s, "--", 0);
    AbsentChar(s, "/*", 0);
    CleanedPlain(s);
  }

  /** A padded word whose first character is missing from the query is not hit. */
  lemma {:induction false} NotHitByChar(q: string, kw: string, k: nat)
    requires 0 < k <= |kw| && kw[k - 1] !in q && kw[k - 1] != ' '
    ensures !KeywordHit(q, kw)
  {
    var p := " " + q + " ";
    assert kw[k - 1] !in p;
    AbsentChar(p, " " + kw + " ", k);
    AbsentChar(p, " " + kw + "(", k);
    assert (kw + " ")[k - 1] == kw[k - 1] && (kw + "(")[k - 1] == kw[k - 1];
  }

  /** The cleaned text of the semicolon example. */
  lemma {:induction false} SemicolonExampleCleaned(s: string)
    requires s == "SELECT 1;DELETE FROM t"
    ensures Cleaned(s) == "SELECT 1;DELETE FROM T"
  {
    CleanedPlainChars(s);
    SemicolonExampleUpper(s);
  }

  lemma {:induction false} SemicolonExampleUpper(s: string)
    requires s == "SELECT 1;DELETE FROM t"
    ensures Upper(s) == "SELECT 1;DELETE FROM T"
  {
  }

  /** A keyword whose first letter never follows a space and does not start the query is not hit. */
  lemma {:induction false} NotHitUnspaced(q: string, kw: string)
    requires |kw| > 0 && kw[0] != ' '
    requires |q| > 0 && q[0] != kw[0]
    requires forall i :: 0 <= i < |q| - 1 && q[i] == ' ' ==> q[i + 1] != kw[0]
    ensures !KeywordHit(q, kw)
  {
    var p := " " + q + " ";
    forall i | 0 <= i < |p| - 1 && p[i] == ' '
      ensures p[i + 1] != kw[0]
    {
      if i == 0 {
        assert p[1] == q[0];
      } else if i + 1 < |p| - 1 {
        assert p[i] == q[i - 1] && p[i + 1] == q[i];
      }
    }
    AbsentPair(p, " " + kw + " ");
    AbsentPair(p, " " + kw + "(");
  }

  /** The letters the semicolon example lacks, and where its D stands. */
  lemma {:induction false} SemicolonExampleLetters(q: string)
    requires q == "SELECT 1;DELETE FROM T"
    ensures 'I' !in q && 'U' !in q && 'P' !in q && 'A' !in q
    ensures q[0] != 'D' && forall i :: 0 <= i < |q| - 1 && q[i] == ' ' ==> q[i + 1] != 'D'
    ensures StartsWith(q, "SELECT") && !StartsWith(q, "WITH")
  {
  }

  /** The semicolon example passes every test. */
  lemma {:induction false} SemicolonExampleAcceptable(q: string)
    requires q == "SELECT 1;DELETE FROM T"
    ensures Acceptable(q)
  {
    SemicolonExampleLetters(q);
    forall k | 0 <= k < |ForbiddenKeywords|
      ensures !KeywordHit(q, ForbiddenKeywords[k])
    {
      if k == 0 {
        NotHitByChar(q, "INSERT", 1);
      } else if k == 1 {
        NotHitByChar(q, "UPDATE", 1);
      } else if k == 2 {
        NotHitUnspaced(q, "DELETE");
      } else if k == 3 {
        NotHitByChar(q, "DROP", 4);
      } else if k == 4 {
        NotHitByChar(q, "ALTER", 1);
      } else if k == 5 {
        NotHitByChar(q, "CREATE", 4);
      } else {
        NotHitByChar(q, "TRUNCATE", 3);
      }
    }
  }

  /**
   * A keyword must be preceded by a space (or start the query) to count:
   * "SELECT 1;DELETE FROM t" is accepted.
   */
  lemma {:induction false} KeywordAfterSemicolonPasses(s: string)
    requires s == "SELECT 1;DELETE FROM t"
    ensures ValidateQuery(s) == Success(s)
  {
    SemicolonExampleCleaned(s);
    SemicolonExampleAcceptable(Cleaned(s));
  }

  /** A keyword with a space before it and a space after it is hit. */
  lemma {:induction false} HitBetweenSpaces(q: string, kw: string, i: nat)
    requires 0 < i && i + |kw| < |q|
    requires q[i - 1] == ' ' && q[i..i + |kw|] == kw && q[i + |kw|] == ' '
    ensures KeywordHit(q, kw)
  {
    var p := " " + q + " ";
    assert p[i..i + |kw| + 2] == " " + kw + " " by {
      assert p[i..i + |kw| + 2] == q[i - 1..i + |kw| + 1];
    }
    ContainsAt(p, " " + kw + " ", i);
  }

  lemma {:induction false} SpaceExampleLetters(q: string)
    requires q == "SELECT 1; DELETE FROM T"
    ensures q[9] == ' ' && q[10..16] == "DELETE" && q[16] == ' '
    ensures StartsWith(q, "SELECT")
  {
  }

  lemma {:induction false} SpaceExampleCleaned(s: string)
    requires s == "SELECT 1; DELETE FROM t"
    ensures Cleaned(s) == "SELECT 1; DELETE FROM T"
  {
    CleanedPlainChars(s);
    SpaceExampleUpper(s);
  }

  lemma {:induction false} SpaceExampleUpper(s: string)
    requires s == "SELECT 1; DELETE FROM t"
    ensures Upper(s) == "SELECT 1; DELETE FROM T"
  {
  }

  /** With a space before the keyword the same statement is rejected. */
  lemma {:induction false} KeywordAfterSpaceRejected(s: string)
    requires s == "SELECT 1; DELETE FROM t"
    ensures ValidateQuery(s) == Failure(ForbiddenMessage)
  {
    SpaceExampleCleaned(s);
    var q := Cleaned(s);
    SpaceExampleLetters(q);
    HitBetweenSpaces(q, ForbiddenKeywords[2], 10);
  }

  // ---------------------------------------------------------------------
  // execute_sql_query: the checks on the text
  // ---------------------------------------------------------------------

  datatype QueryError = ValueError(message: string)

  /** The SELECT/WITH test of `execute_sql_query` on the stripped, upper-cased query; None when it passes. */
  function SelectCheck(query: string): (r: Option<QueryError>)
    ensures r.None? <==> StatementAllowed(Upper(Strip(query)))
    ensures !(StartsWith(Upper(Strip(query)), "SELECT") || StartsWith(Upper(Strip(query)), "WITH")) ==>
      r == Some(ValueError("Only SELECT queries are allowed"))
  {
    var u := Upper(Strip(query));
    if !(StartsWith(u, "SELECT") || StartsWith(u, "WITH")) then Some(ValueError("Only SELECT queries are allowed"))
    else if StartsWith(u, "WITH") && !Contains(u, "SELECT") then Some(ValueError("WITH statements must include a SELECT query"))
    else None
  }

  /** The statement kinds both checks allow: SELECT, or WITH followed somewhere by SELECT. */
  predicate StatementAllowed(u: string)
  {
    (StartsWith(u, "SELECT") || StartsWith(u, "WITH")) && (StartsWith(u, "WITH") ==> Contains(u, "SELECT"))
  }

  /**
   * The limit as an f-string writes it: the request's limit is
   * `Optional[int]`, and a null one is written "None".
   */
  function LimitText(limit: Option<int>): (r: string)
    ensures |r| > 0
    ensures limit.None? <==> r == "None"
    ensures limit.Some? && limit.value >= 0 ==> AllDigits(r) && DigitsValue(r) == limit.value
  {
    match limit
    case None => "None"
    case Some(i) =>
      var m: nat := if i >= 0 then i else -i;
      DigitsValueOfNatToString(m);
      assert IsDigit(NatToString(m)[0]);
      assert IntToString(i)[0] == if i < 0 then '-' else NatToString(m)[0];
      IntToString(i)
  }

  /** " LIMIT n" appended when "LIMIT" appears nowhere in the query, ignoring case. */
  function AppendLimit(query: string, limit: Option<int>): (r: string)
    ensures StartsWith(r, query)
    ensures Contains(Upper(r), "LIMIT")
    ensures r == query <==> Contains(Upper(query), "LIMIT")
    ensures !Contains(Upper(query), "LIMIT") ==> r == query + " LIMIT " + LimitText(limit)
    ensures !Contains(Upper(query), "LIMIT") && limit.None? ==> r == query + " LIMIT None"
  {
    if Contains(Upper(query), "LIMIT") then
      assert query[..|query|] == query;
      query
    else
      LimitAppended(query, LimitText(limit));
      query + " LIMIT " + LimitText(limit)
  }

  /**
   * The first part of `execute_sql_query`: the statement-kind test, then
   * the LIMIT; the result always carries a LIMIT.
   */
  function PrepareQuery(query: string, limit: Option<int>): (r: Result<string, QueryError>)
    ensures r.Success? <==> StatementAllowed(Upper(Strip(query)))
    ensures r.Failure? ==> Some(r.error) == SelectCheck(query)
    ensures r.Success? ==> r.value == AppendLimit(query, limit)
    ensures r.Success? ==> StartsWith(r.value, query) && Contains(Upper(r.value), "LIMIT")
  {
    match SelectCheck(query)
    case Some(e) => Failure(e)
    case None => Success(AppendLimit(query, limit))
  }

  /** After " LIMIT n" is appended the query starts as before and contains LIMIT. */
  lemma {:induction false} LimitAppended(query: string, n: string)
    ensures StartsWith(query + " LIMIT " + n, query)
    ensures Contains(Upper(query + " LIMIT " + n), "LIMIT")
  {
    var q := query + " LIMIT " + n;
    assert q[..|query|] == query;
    var u := Upper(q);
    assert u[|query| + 1..|query| + 6] == "LIMIT" by {
      forall k | 0 <= k < 5
        ensures u[|query| + 1 + k] == "LIMIT"[k]
      {
        assert q[|query| + 1 + k] == "LIMIT"[k];
      }
    }
    ContainsAt(u, "LIMIT", |query| + 1);
  }

  /** The placeholder `$i`. */
  function Dollar(i: nat): (r: string)
    ensures |r| > 0 && '?' !in r
  {
    var r := "$" + NatToString(i);
    assert forall k :: 0 <= k < |r| ==> r[k] == '$' || IsDigit(r[k]);
    r
  }

  /** `any(f"${i+1}" in query for i in range(n))`. */
  predicate HasDollar(query: string, n: nat)
  {
    exists i :: 1 <= i <= n && Contains(query, Dollar(i))
  }

  /** The backwards loop replacing `$i`, then `$(i-1)`, ..., then `$1` by `?`. */
  function ReplaceDown(query: string, i: nat): (r: string)
    ensures forall k :: 1 <= k <= i ==> !Contains(r, Dollar(k))
    ensures forall w :: '?' !in w && !Contains(query, w) ==> !Contains(r, w)
    decreases i
  {
    if i == 0 then query
    else
      var next := Replace(query, Dollar(i), "?");
      ReplaceRemovesAll(query, Dollar(i));
      forall w | '?' !in w && !Contains(query, w)
        ensures !Contains(next, w)
      {
        ReplaceKeepsAbsent(query, Dollar(i), w);
      }
      ReplaceDown(next, i - 1)
  }

  /**
   * The placeholder part of `execute_sql_query` for `n` parameters: the
   * `$i` rewrite when some `$i` occurs, then every `%s` becomes `?`.
   */
  function RewritePlaceholders(query: string, n: nat): (r: string)
    ensures forall k :: 1 <= k <= n ==> !Contains(r, Dollar(k))
    ensures !Contains(r, "%s")
  {
    var q := if HasDollar(query, n) then ReplaceDown(query, n) else query;
    ReplaceRemovesAll(q, "%s");
    forall k | 1 <= k <= n
      ensures !Contains(Replace(q, "%s", "?"), Dollar(k))
    {
      ReplaceKeepsAbsent(q, "%s", Dollar(k));
    }
    Replace(q, "%s", "?")
  }

  lemma {:induction false} ReplaceAbsent(s: string, p: string, w: string)
    requires |p| > 0 && !Contains(s, p)
    ensures Replace(s, p, w) == s
    decreases |s|
  {
    if |s| >= |p| {
      assert !StartsWith(s, p);
      ReplaceAbsent(s[1..], p, w);
      assert [s[0]] + s[1..] == s;
    }
  }

  /** A query with neither kind of placeholder is passed on unchanged. */
  lemma {:induction false} NoPlaceholdersUnchanged(query: string, n: nat)
    requires forall k :: 1 <= k <= n ==> !Contains(query, Dollar(k))
    requires !Contains(query, "%s")
    ensures RewritePlaceholders(query, n) == query
  {
    ReplaceAbsent(query, "%s", "?");
  }
}

=== FILE: text.dfy ===
/**
 * Character and string helpers with Python's meaning: `str.isspace`,
 * `strip`, ASCII `lower`/`upper`, `in` on strings, `find`, `replace`,
 * `startswith` and decimal rendering of integers.
 */
module Text {
  import opened Wrappers

  /** The characters Python's `str.isspace` (and `\s` in a `str` pattern) accepts. */
  predicate IsSpace(c: char)
  {
    || c == ' ' || c == '\t' || c == '\n' || c == '\r' || c == '\U{000B}' || c == '\U{000C}'
    || ('\U{001C}' <= c <= '\U{001F}')
    || c == '\U{0085}' || c == '\U{00A0}' || c == '\U{1680}'
    || ('\U{2000}' <= c <= '\U{200A}')
    || c == '\U{2028}' || c == '\U{2029}' || c == '\U{202F}' || c == '\U{205F}' || c == '\U{3000}'
  }

  predicate IsDigit(c: char)
  {
    '0' <= c <= '9'
  }

  function LowerChar(c: char): char
  {
    if 'A' <= c <= 'Z' then (c as int + 32) as char else c
  }

  function UpperChar(c: char): char
  {
    if 'a' <= c <= 'z' then (c as int - 32) as char else c
  }

  /** ASCII `str.lower()`. */
  function Lower(s: string): (r: string)
    ensures |r| == |s|
    ensures forall i :: 0 <= i < |s| ==> r[i] == LowerChar(s[i])
  {
    seq(|s|, i requires 0 <= i < |s| => LowerChar(s[i]))
  }

  /** ASCII `str.upper()`. */
  function Upper(s: string): (r: string)
    ensures |r| == |s|
    ensures forall i :: 0 <= i < |s| ==> r[i] == UpperChar(s[i])
  {
    seq(|s|, i requires 0 <= i < |s| => UpperChar(s[i]))
  }

  predicate StartsWith(s: string, p: string)
  {
    |p| <= |s| && s[..|p|] == p
  }

  predicate EndsWith(s: string, p: string)
  {
    |p| <= |s| && s[|s| - |p|..] == p
  }

  /** Python's `w in s` for strings: some window of `s` equals `w`. */
  predicate Contains(s: string, w: string)
    decreases |s|
  {
    StartsWith(s, w) || (|s| > 0 && Contains(s[1..], w))
  }

  /** `w` occurs in `s` starting at index `i`. */
  predicate OccursAt(s: string, w: string, i: nat)
  {
    i + |w| <= |s| && s[i..i + |w|] == w
  }

  /** `Contains` holds exactly when `w` occurs at some index of `s`. */
  lemma {:induction false} ContainsIffWindow(s: string, w: string)
    ensures Contains(s, w) <==> exists i: nat :: OccursAt(s, w, i)
    decreases |s|
  {
    if |s| > 0 {
      ContainsIffWindow(s[1..], w);
      forall i: nat | OccursAt(s[1..], w, i)
        ensures OccursAt(s, w, i + 1)
      {
        assert s[i + 1..i + 1 + |w|] == s[1..][i..i + |w|];
      }
      forall i: nat | OccursAt(s, w, i) && i > 0
        ensures OccursAt(s[1..], w, i - 1)
      {
        assert s[1..][i - 1..i - 1 + |w|] == s[i..i + |w|];
      }
    }
    assert StartsWith(s, w) <==> OccursAt(s, w, 0);
  }

  lemma {:induction false} ContainsAt(s: string, w: string, i: nat)
    requires OccursAt(s, w, i)
    ensures Contains(s, w)
  {
    ContainsIffWindow(s, w);
  }

  lemma {:induction false} ContainsLength(s: string, w: string)
    ensures Contains(s, w) ==> |w| <= |s|
  {
    ContainsIffWindow(s, w);
  }

  /** Being a substring is transitive. */
  lemma {:induction false} ContainsTransitive(a: string, b: string, c: string)
    requires Contains(a, b) && Contains(b, c)
    ensures Contains(a, c)
  {
    ContainsIffWindow(a, b);
    ContainsIffWindow(b, c);
    var i: nat :| OccursAt(a, b, i);
    var j: nat :| OccursAt(b, c, j);
    forall k | 0 <= k < |c|
      ensures a[i + j + k] == c[k]
    {
      assert b[j + k] == c[k];
      assert a[i..i + |b|][j + k] == a[i + (j + k)];
    }
    assert a[i + j..i + j + |c|] == c;
    ContainsAt(a, c, i + j);
  }

  /** Lowercasing both sides keeps an occurrence. */
  lemma {:induction false} LowerKeepsContains(a: string, b: string)
    requires Contains(a, b)
    ensures Contains(Lower(a), Lower(b))
  {
    ContainsIffWindow(a, b);
    var i: nat :| OccursAt(a, b, i);
    assert Lower(a)[i..i + |b|] == Lower(b);
    ContainsAt(Lower(a), Lower(b), i);
  }

  /** Every character of an occurring word occurs in the text. */
  lemma {:induction false} ContainsHasChar(s: string, w: string, k: nat)
    requires k < |w| && Contains(s, w)
    ensures w[k] in s
  {
    ContainsIffWindow(s, w);
    var i: nat :| OccursAt(s, w, i);
    assert s[i + k] == w[k];
  }

  /** Lowercasing forgets letter case: an upper-cased string lowers to the same text. */
  lemma {:induction false} LowerOfUpper(s: string)
    ensures Lower(Upper(s)) == Lower(s)
  {
    if |s| > 0 {
      LowerOfUpper(s[1..]);
      assert Upper(s)[1..] == Upper(s[1..]);
    }
  }

  /** Python's `str.lstrip()` with no argument. */
  function LStrip(s: string): (r: string)
    ensures EndsWith(s, r)
    ensures |r| > 0 ==> !IsSpace(r[0])
    ensures forall i :: 0 <= i < |s| - |r| ==> IsSpace(s[i])
    decreases |s|
  {
    if |s| > 0 && IsSpace(s[0]) then
      var r := LStrip(s[1..]);
      assert s[|s| - |r|..] == s[1..][|s| - 1 - |r|..];
      assert forall i :: 1 <= i < |s| - |r| ==> s[i] == s[1..][i - 1];
      r
    else s
  }

  /** Python's `str.rstrip()` with no argument. */
  function RStrip(s: string): (r: string)
    ensures StartsWith(s, r)
    ensures |r| > 0 ==> !IsSpace(r[|r| - 1])
    ensures forall i :: |r| <= i < |s| ==> IsSpace(s[i])
    decreases |s|
  {
    if |s| > 0 && IsSpace(s[|s| - 1]) then
      var r := RStrip(s[..|s| - 1]);
      assert s[..|r|] == s[..|s| - 1][..|r|];
      assert forall i :: |r| <= i < |s| - 1 ==> s[i] == s[..|s| - 1][i];
      r
    else s
  }

  /** `rstrip` removes a trailing run of whitespace and nothing before it. */
  lemma {:induction false} RStripTrailingSpace(s: string, w: string)
    requires |s| > 0 && !IsSpace(s[|s| - 1])
    requires forall i :: 0 <= i < |w| ==> IsSpace(w[i])
    ensures RStrip(s + w) == s
  {
    var r := RStrip(s + w);
    assert (s + w)[|s| - 1] == s[|s| - 1];
    assert forall j :: |s| <= j < |s + w| ==> IsSpace((s + w)[j]) by {
      forall j | |s| <= j < |s + w|
        ensures IsSpace((s + w)[j])
      {
        assert (s + w)[j] == w[j - |s|];
      }
    }
    assert |r| <= |s| by {
      if |r| > |s| {
        assert false;
      }
    }
    assert r == (s + w)[..|r|];
    assert (s + w)[..|s|] == s;
  }

  /** Python's `str.strip()` with no argument. */
  function Strip(s: string): (r: string)
    ensures |r| > 0 ==> !IsSpace(r[0]) && !IsSpace(r[|r| - 1])
    ensures |r| <= |s|
    ensures Contains(s, r)
  {
    var t := RStrip(s);
    var r := LStrip(t);
    assert t == s[..|t|];
    assert r == t[|t| - |r|..];
    assert r == s[|t| - |r|..|t|];
    ContainsAt(s, r, |t| - |r|);
    r
  }

  /** Python's `s.find(w)`: the least index where `w` occurs, `None` for `-1`. */
  function Find(s: string, w: string): (r: Option<nat>)
    ensures r.Some? ==> OccursAt(s, w, r.value)
    ensures r.Some? ==> forall j: nat :: j < r.value ==> !OccursAt(s, w, j)
    ensures r.None? ==> forall j: nat :: !OccursAt(s, w, j)
    decreases |s|
  {
    if StartsWith(s, w) then Some(0)
    else if |s| == 0 then None
    else
      var r := Find(s[1..], w);
      ShiftOccurs(s, w);
      if r.None? then None else Some(r.value + 1)
  }

  /** Occurrences in `s[1..]` are the occurrences in `s` past index 0, shifted by one. */
  lemma {:induction false} ShiftOccurs(s: string, w: string)
    requires |s| > 0
    ensures forall j: nat :: OccursAt(s[1..], w, j) <==> OccursAt(s, w, j + 1)
    ensures forall j: nat :: j > 0 ==> (OccursAt(s, w, j) <==> OccursAt(s[1..], w, j - 1))
    ensures StartsWith(s, w) <==> OccursAt(s, w, 0)
  {
    forall j: nat
      ensures OccursAt(s[1..], w, j) <==> OccursAt(s, w, j + 1)
    {
      if j + 1 + |w| <= |s| {
        assert s[1..][j..j + |w|] == s[j + 1..j + 1 + |w|];
      }
    }
  }

  /** Python's `s.replace(p, r)` for a non-empty `p`: left to right, non-overlapping. */
  function Replace(s: string, p: string, r: string): string
    requires |p| > 0
    decreases |s|
  {
    if |s| < |p| then s
    else if StartsWith(s, p) then r + Replace(s[|p|..], p, r)
    else [s[0]] + Replace(s[1..], p, r)
  }

  /**
   * A prefix of `Replace(s, p, "?")` that contains no `?` is a prefix of `s`
   * itself: the replacement text never forges a word without `?`.
   */
  lemma {:induction false} ReplacePrefix(s: string, p: string, w: string)
    requires |p| > 0 && '?' !in w
    ensures StartsWith(Replace(s, p, "?"), w) ==> StartsWith(s, w)
    decreases |s|
  {
    var out := Replace(s, p, "?");
    if |s| < |p| {
    } else if StartsWith(s, p) {
      assert out[0] == '?';
      assert |w| > 0 ==> w[0] in w;
    } else if |w| > 0 {
      var t := Replace(s[1..], p, "?");
      assert out == [s[0]] + t;
      assert w[1..] == w[1..];
      ReplacePrefix(s[1..], p, w[1..]);
      assert StartsWith(out, w) ==> t[..|w| - 1] == w[1..];
      assert s == [s[0]] + s[1..];
    }
  }

  /** An occurrence of a `?`-free word after `Replace(s, p, "?")` was already in `s`. */
  lemma {:induction false} ReplaceReflectsContains(s: string, p: string, w: string)
    requires |p| > 0 && '?' !in w
    ensures Contains(Replace(s, p, "?"), w) ==> Contains(s, w)
    decreases |s|
  {
    var out := Replace(s, p, "?");
    ReplacePrefix(s, p, w);
    if |s| < |p| {
    } else if StartsWith(s, p) {
      var t := Replace(s[|p|..], p, "?");
      assert out == "?" + t;
      assert out[1..] == t;
      ReplaceReflectsContains(s[|p|..], p, w);
      ContainsSuffix(s, w, |p|);
    } else {
      var t := Replace(s[1..], p, "?");
      assert out == [s[0]] + t;
      assert out[1..] == t;
      ReplaceReflectsContains(s[1..], p, w);
    }
  }

  /** Replacing by `?` creates no new occurrence of a word that has no `?`. */
  lemma {:induction false} ReplaceKeepsAbsent(s: string, p: string, w: string)
    requires |p| > 0 && '?' !in w && !Contains(s, w)
    ensures !Contains(Replace(s, p, "?"), w)
  {
    ReplaceReflectsContains(s, p, w);
  }

  /** After `Replace(s, p, "?")` with no `?` in `p`, `p` occurs nowhere. */
  lemma {:induction false} ReplaceRemovesAll(s: string, p: string)
    requires |p| > 0 && '?' !in p
    ensures !Contains(Replace(s, p, "?"), p)
    decreases |s|
  {
    var out := Replace(s, p, "?");
    if |s| < |p| {
      ContainsLength(s, p);
    } else if StartsWith(s, p) {
      var t := Replace(s[|p|..], p, "?");
      assert out == "?" + t;
      assert out[0] == '?' && p[0] in p;
      assert out[1..] == t;
      ReplaceRemovesAll(s[|p|..], p);
    } else {
      var t := Replace(s[1..], p, "?");
      assert out == [s[0]] + t;
      assert out[1..] == t;
      ReplacePrefix(s, p, p);
      ReplaceRemovesAll(s[1..], p);
    }
  }

  /** A word in a suffix of `s` is in `s`. */
  lemma {:induction false} ContainsSuffix(s: string, w: string, k: nat)
    requires k <= |s|
    ensures Contains(s[k..], w) ==> Contains(s, w)
  {
    ContainsIffWindow(s[k..], w);
    ContainsIffWindow(s, w);
    forall i: nat | OccursAt(s[k..], w, i)
      ensures OccursAt(s, w, k + i)
    {
      assert s[k + i..k + i + |w|] == s[k..][i..i + |w|];
    }
  }

  function DigitChar(d: nat): char
    requires d < 10
  {
    "0123456789"[d]
  }

  /** `str(n)` for a natural number: its decimal digits, most significant first. */
  function NatToString(n: nat): (r: string)
    ensures |r| > 0
    ensures forall i :: 0 <= i < |r| ==> IsDigit(r[i])
  {
    if n < 10 then [DigitChar(n)] else NatToString(n / 10) + [DigitChar(n % 10)]
  }

  /** `str(i)` for an integer: a minus sign before the digits when negative. */
  function IntToString(i: int): (r: string)
    ensures |r| > 0
    ensures i >= 0 ==> r == NatToString(i)
    ensures i < 0 ==> r == "-" + NatToString(-i)
  {
    if i < 0 then "-" + NatToString(-i) else NatToString(i)
  }

  predicate AllDigits(s: string)
  {
    forall i :: 0 <= i < |s| ==> IsDigit(s[i])
  }

  function DigitValue(c: char): nat
    requires IsDigit(c)
  {
    c as int - '0' as int
  }

  /** `int(s)` for a string of ASCII digits, most significant first. */
  function DigitsValue(s: string): nat
    requires AllDigits(s)
  {
    if |s| == 0 then 0 else DigitsValue(s[..|s| - 1]) * 10 + DigitValue(s[|s| - 1])
  }

  /** Reading back the decimal rendering of `n` gives `n`. */
  lemma {:induction false} DigitsValueOfNatToString(n: nat)
    ensures AllDigits(NatToString(n))
    ensures DigitsValue(NatToString(n)) == n
  {
    var s := NatToString(n);
    if n >= 10 {
      DigitsValueOfNatToString(n / 10);
      assert s[..|s| - 1] == NatToString(n / 10);
    }
  }

  /** Python's `s.split(sep)` for a single-character separator. */
  function Split(s: string, sep: char): (r: seq<string>)
    ensures |r| > 0
    ensures forall k :: 0 <= k < |r| ==> sep !in r[k]
    decreases |s|
  {
    if |s| == 0 then [""]
    else
      var rest := Split(s[1..], sep);
      if s[0] == sep then [""] + rest
      else [[s[0]] + rest[0]] + rest[1..]
  }

  /** `sep.join(parts)` with every part followed by `sep` (the shape `+= part + sep` builds). */
  function JoinTerminated(parts: seq<string>, sep: string): string
  {
    if |parts| == 0 then "" else parts[0] + sep + JoinTerminated(parts[1..], sep)
  }
}

=== FILE: wrappers.dfy ===
/** Failure-carrying datatypes shared by every module of the model. */
module Wrappers {

  /** A value that may be absent: Python's `Optional[T]`, with `None` for `None`. */
  datatype Option<+T> = None | Some(value: T) {
    predicate IsFailure() {
      None?
    }

    function PropagateFailure<U>(): Option<U>
      requires None?
    {
      None
    }

    function Extract(): T
      requires Some?
    {
      value
    }
  }

  /** The outcome of an operation that can raise: `Failure` carries the exception. */
  datatype Result<+T, +E> = Success(value: T) | Failure(error: E)
}
